=== FILE: README.md ===
# tcajson core — a Dafny model

This project models the core of the tcajson repository in Dafny 4.11 and
proves properties of that model. It covers:

- the tcajson JSON library: the value tree (`JsonObject`, `JsonArray`,
  `JsonLiteral` and its subclasses), the recursive-descent parser in
  `JSON::parse`, and the `toString` writers;
- the older `jsonpp` JSON library, which has the same design but different
  token rules and a different writer;
- the tnms wire codecs for `TnmsMessage` and `TnmsAuthRequest`;
- the `TnmsClient` update queues, its `send` flush and its agent-login
  handler;
- the `AuthDbThread` authentication cache, its ticket issue and check, and
  its authorization-filter strings;
- the IPv4 prefix arithmetic in `CidrUtils`;
- the firewall zone table in `FwZones`.

## Modules

| file | module | what it holds |
|---|---|---|
| `base.dfy` | `Base` | `Option`, a strict string order, `FindFirst`, whitespace trimming, and a `std::map` as a key-sorted `seq<Entry<V>>` with `Find`, `Put` and `Remove` |
| `stream.dfy` | `Stream` | an `std::istream` over a string: position, the eof flag that is set only after a read past the end, `get`, `peek` and whitespace skipping |
| `json_value.dfy` | `JsonValue` | the value tree, the object and array operations, and the writers (`toString`, `JSON::ToString`, `TypeToString`) |
| `json_parser.dfy` | `JsonParser` | `JSON::parse` and its helpers, each as a function on a `Stream` |
| `json_roundtrip.dfy` | `JsonRoundTrip` | parsing the escaped writer's output gives back the tree, plus what the raw writer loses |
| `jsonpp.dfy` | `Jsonpp` | the legacy parser and writer, compared with the tcajson ones |
| `jsonpp_roundtrip.dfy` | `JsonppRoundTrip` | what the legacy parser reads from the text tcajson's escaping writer produces, and how the legacy writer compares with tcajson's |
| `wire_codec.dfy` | `Wire` | the big-endian field encodings, the message and auth-request codecs, and their round trips |
| `client.dfy` | `Client` | the add, remove and update queues, `send`, and `AuthRequestHandler` |
| `auth_db.dfy` | `AuthDb` | the connection-pool bounds, authorization filters, the user cache, tickets and `isAuthentic` |
| `cidr.dfy` | `Cidr` | prefixes as `bv32`, masks, matching, ranges, de-aggregation and CIDR strings |
| `fw_zones.dfy` | `FwZones` | the zone map, the zone-file reader and device lookup |

### Modelling conventions

- **Maps and sets.** A `std::map<std::string, T>` or `std::set` becomes a
  `seq<Entry<T>>` sorted by key with the byte-wise string order. Iterating
  it visits the keys in ascending order, as the C++ container does.
- **Streams.** The input is a `Stream(data, pos, eof)`. `get()` at the end
  returns `EOF` and sets `eof`. `peek()` at the end also sets `eof`. The
  `while (!is.eof())` loops of the source therefore run one step past the
  last character, as they do in C++.
- **Outcomes.** A parse either succeeds, returns `false`, or throws
  `JsonException` on a duplicate key. These are `Ok`, `Fail` and `Throw`,
  together with the partially filled tree.
- **Parameters for what the model cannot see.** The random ticket generator, the database rows, `inet_pton`/`inet_ntop`, the
  socket's acceptance of records and the file reader are all parameters.

## Model

| member | source | states |
|---|---|---|
| Base.Put | src/JsonObject.cpp:124-133 | inserting an absent key into a sorted map keeps it sorted, adds exactly that key, and leaves every other lookup unchanged |
| Base.Remove | src/JsonObject.cpp:161-165 | erasing a key keeps the map sorted, removes exactly that key, shrinks the map by one exactly when the key was present, and leaves every other lookup unchanged |
| Base.Find | src/JsonObject.cpp:169-180 | a lookup succeeds exactly when the key is among the map's keys, and returns the value stored under it |
| JsonValue.ObjectInsert | src/JsonObject.cpp:124-133 | `insert` reports "already exists" exactly when the key is present; otherwise the new map has one more entry, holds the item under the key, and changes no other key |
| JsonValue.ObjectGet | src/JsonObject.cpp:103-120 | `operator[]` returns nothing exactly when the key is absent; otherwise it returns the value stored under the key |
| JsonValue.ObjectFind | src/JsonObject.cpp:169-180 | `find` returns an index below the size exactly when the key is present, and that entry carries the key; otherwise it returns `end()` |
| JsonValue.ObjectExistsIffKey | src/JsonObject.cpp:182-192 | `exists` holds exactly when the key is present, which is exactly when `operator[]` finds a value |
| JsonValue.ObjectEraseKey | src/JsonObject.cpp:161-165 | erasing by key returns 1 when the key was present and 0 otherwise, removes only that key, and leaves every other lookup unchanged |
| JsonValue.ObjectEraseAt | src/JsonObject.cpp:137-146 | erasing at `end()` changes nothing; erasing at a valid position removes exactly that entry and returns the position of its successor |
| JsonValue.ObjectEraseRange | src/JsonObject.cpp:148-159 | erasing `[first, last)` removes exactly those entries, keeps the rest sorted, and returns `first` |
| JsonValue.ObjectAssign | src/JsonObject.cpp:58-99 | assigning from another object clears the target and deep-copies every member, so the result equals the source |
| JsonValue.CopyInto | src/JsonObject.cpp:68-96 | the copy loop, inserting the source members in key order into a map whose keys all sort below them, yields the concatenation |
| JsonValue.ObjectClear | src/JsonObject.cpp:196-207 | after `clear` the object has no members |
| JsonValue.ArrayAppend | src/JsonArray.cpp:117-122 | `insert(item)` keeps the existing items in place and puts the new item last |
| JsonValue.ArrayInsertAt | src/JsonArray.cpp:124-129 | `insert(at, item)` puts the item at position `at`, keeps the items before it, and shifts the rest up by one |
| JsonValue.ArrayErase | src/JsonArray.cpp:133-138 | `erase(at)` removes exactly one item, keeps the items before it, and shifts the rest down by one |
| JsonValue.ArrayIndex | src/JsonArray.cpp:101-113 | `operator[]` inside the bounds yields the item that `at` yields; out of range is undefined in the source and excluded |
| JsonValue.ArrayAt | src/JsonArray.cpp:142-153 | `at(i)` yields an item exactly when `i` is inside the array, and that item is the i-th |
| JsonValue.ArrayClear | src/JsonArray.cpp:157-170 | after `clear` the array is empty |
| JsonValue.ArrayAssign | src/JsonArray.cpp:56-97 | assigning from another array yields the same items, in the same order |
| JsonValue.LiteralAssign | include/JsonLiteral.hpp:54-61 | assigning a literal copies both the value and the type tag |
| JsonValue.LiteralEqualsIgnoresTag | include/JsonLiteral.hpp:63-66 | literal equality compares values only, so two literals with the same value but different tags compare equal although they are different literals |
| JsonValue.LiteralToString | include/JsonLiteral.hpp:75-89 | a literal tagged null prints as `null`, whatever its value; any other literal prints its value |
| JsonValue.StringToString | include/JsonLiteral.hpp:113-126 | in JSON form a string prints between double quotes with its content unescaped; in plain form it prints bare |
| JsonValue.BooleanToString | include/JsonLiteral.hpp:168-174 | a boolean prints as the word `true` or `false` |
| JsonValue.TypeToString | src/JSON.cpp:729-755 | booleans and nulls share the name "JSON Literal", because the switch falls through; only the invalid type has the empty name |
| JsonValue.EscapePlain | src/JSON.cpp:437-466 | the escaping writer, built as the inverse of the parser's escape table, leaves unchanged a string with no quote, backslash, backspace, form feed, newline, carriage return or tab |
| JsonValue.MembersTextJoins | src/JsonObject.cpp:221-231 | the member loop, which writes a separator while `i < size`, writes the pairs joined by `", "` with no separator after the last |
| JsonValue.ItemsTextJoins | src/JsonArray.cpp:184-189 | the item loop writes the items joined by `", "` with no separator after the last |
| JsonValue.ObjectToStringLayout | src/JsonObject.cpp:211-236 | an object prints as `{ ` followed by its `"key" : value` pairs joined by `", "`, followed by ` }` |
| JsonValue.ArrayToStringLayout | src/JsonArray.cpp:174-194 | an array prints as `[ ` followed by its items joined by `", "`, followed by ` ]` |
| JsonValue.RawAgreesOnPlain | src/JSON.cpp:763-789 | for a tree whose keys and strings need no escaping, the raw `toString` writer and the escaping writer produce the same text |
| JsonParser.UnescapeInvertsEscape | src/JSON.cpp:437-466 | every character escapes to itself or to a backslash pair, and the parser's escape table maps the second character of that pair back to the character |
| JsonParser.ParseString | src/JSON.cpp:402-477 | `parseString` fails when the first non-blank character is not a double quote, never moves backwards, and consumes input whenever the stream is not at its end |
| JsonParser.BadEscapeFails | src/JSON.cpp:462-464 | a backslash followed by a character outside the escape table makes `parseString` fail |
| JsonParser.StringLoopReadsEscaped | src/JSON.cpp:414-472 | the string loop, run over an escaped text followed by a closing quote, appends exactly the unescaped text and stops just past the quote |
| JsonParser.StringRoundTrip | src/JSON.cpp:402-477 | `parseString` applied to the quoted, escaped form of any string returns that string and consumes exactly the quoted form |
| JsonParser.NumberRun | src/JSON.cpp:494-495 | the digit loop takes the longest run of number characters and stops at the first other character or at the end |
| JsonParser.ParseNumber | src/JSON.cpp:481-505 | `parseNumber` succeeds exactly when it read at least one character, and everything it read is a number character |
| JsonParser.NumberRoundTrip | src/JSON.cpp:481-505 | a number lexeme followed by a non-number character parses back to exactly that lexeme |
| JsonParser.TokenRun | src/JSON.cpp:518-524 | the token loop reads no blank or separator character, and stops at a separator or at the end |
| JsonParser.TokenRunReads | src/JSON.cpp:515-524 | a word followed by blanks and a separator is read back as exactly that word |
| JsonParser.ParseBoolean | src/JSON.cpp:509-539 | `parseBoolean` succeeds exactly when the token is `true` or `false`, yields the matching boolean, and never throws |
| JsonParser.ParseLiteral | src/JSON.cpp:543-566 | `parseLiteral` succeeds exactly when the expected type is null and the token is `null`, and it yields null |
| JsonParser.ParseAssign | src/JSON.cpp:574-590 | `parseAssign` succeeds exactly when the first non-blank character is a colon, and consumes exactly that colon |
| JsonParser.ParseSeparator | src/JSON.cpp:596-615 | `parseSeparator` succeeds exactly when the first non-blank character is a comma or a closing bracket; it consumes a comma and leaves a bracket for the caller |
| JsonParser.SeparatorAfter | src/JSON.cpp:596-615 | a comma after blanks is consumed together with the blanks |
| JsonParser.SeparatorAtClose | src/JSON.cpp:596-615 | a closing brace or bracket is accepted and not consumed |
| JsonParser.SeparatorFails | src/JSON.cpp:596-615 | any other non-blank character makes `parseSeparator` fail |
| JsonParser.ValueType | src/JSON.cpp:636-683 | the value type is read from the first non-blank character without consuming it; an object, array or string type means that character is `{`, `[` or `"`; the invalid type is never returned, because anything unrecognised is null |
| JsonParser.ParseValueTag | src/JSON.cpp:251-301 | when the value switch succeeds, the parsed value has the type that `ParseValueType` announced |
| JsonParser.ParseObject | src/JSON.cpp:208-308 | `parseObject` keeps every member it was given unchanged and keeps the map sorted; on a first character other than `{` it fails and adds nothing; its result on a flat object's text is stated by JsonppRoundTrip.ObjectReads |
| JsonParser.ObjectLoop | src/JSON.cpp:226-305 | the member loop only adds members: earlier members keep their values, whether it succeeds, fails or throws |
| JsonParser.ParseArray | src/JSON.cpp:314-398 | `parseArray` only appends to the array it was given; on a first character other than `[` it fails and appends nothing; its result on a flat array's text is stated by JsonppRoundTrip.ArrayReads |
| JsonParser.Parse | src/JSON.cpp:160-178 | a string without `{` fails and leaves the root unchanged; without `clear`, every member of the root keeps its value |
| JsonParser.SeekBrace | src/JSON.cpp:193-194 | the stream parser skips everything before the first `{` and stops on it, or at the end |
| JsonParser.ParseStream | src/JSON.cpp:188-200 | a stream with no `{` fails, leaving the root either cleared or unchanged as requested |
| JsonRoundTrip.ParseRoundTrip | src/JSON.cpp:160-178 | parsing, with `clear`, the escaped text of any object whose keys are non-empty and whose numbers are number lexemes yields exactly that object |
| JsonRoundTrip.ParseMerges | src/JSON.cpp:160-178 | parsing without `clear` into a root whose keys all sort below the document's keys yields the root followed by the document's members |
| JsonRoundTrip.ParseDuplicateThrows | src/JsonObject.cpp:124-133 | parsing a document whose key is already in the root throws and leaves the root unchanged |
| JsonRoundTrip.PlainRoundTrip | src/JsonObject.cpp:211-236 | for objects that need no escaping, parsing the raw `toString` output gives back the object |
| JsonRoundTrip.RawWriterLosesQuote | src/JsonObject.cpp:226-228 | the raw writer prints a one-quote string as three quotes, and parsing that text fails with the value read as an empty string |
| JsonRoundTrip.StrayQuoteFails | src/JSON.cpp:418-426 | after `"k" : ""`, a third quote is not a separator, so the object loop fails having stored the empty string under `k` |
| JsonRoundTrip.ValueReads | src/JSON.cpp:251-304 | every encodable value, followed by a separator, is parsed back as itself, consuming its text and the blanks before the separator |
| JsonRoundTrip.ObjectReads | src/JSON.cpp:208-308 | the text of an object parses back to its members, appended to a given prefix that sorts below them |
| JsonRoundTrip.ArrayReads | src/JSON.cpp:314-398 | the text of an array parses back to its items, appended to the given array |
| JsonRoundTrip.MembersReads | src/JSON.cpp:226-305 | the member loop reads the joined pairs up to ` }` and adds each pair in order |
| JsonRoundTrip.ItemsReads | src/JSON.cpp:331-395 | the item loop reads the joined items up to ` ]` and appends each item in order |
| JsonRoundTrip.NumberValueReads | src/JSON.cpp:481-505 | a number lexeme is read back as a number with that exact text |
| JsonRoundTrip.StringValueReads | src/JSON.cpp:402-477 | a quoted, escaped string is read back as that string |
| JsonRoundTrip.BooleanValueReads | src/JSON.cpp:509-539 | `true` and `false` are read back as the matching boolean |
| JsonRoundTrip.NullValueReads | src/JSON.cpp:543-566 | `null` is read back as null |
| JsonRoundTrip.EmptyStringAt | src/JSON.cpp:418-426 | two adjacent quotes are read as the empty string |
| JsonRoundTrip.ValueTypeAt | src/JSON.cpp:636-683 | the first character of any written value announces that value's type |
| JsonRoundTrip.LoopValueDuplicate | src/JSON.cpp:255-298 | a value read for a key that is already present throws and adds nothing |
| JsonRoundTrip.MemberDuplicate | src/JSON.cpp:255-298 | a whole `"k" : value` pair whose key is already present throws and adds nothing |
| JsonRoundTrip.LoopValueThenFail | src/JSON.cpp:303-304 | a value that is not followed by a separator is still stored under its key before the loop fails |
| Jsonpp.Insert | common/jsonpp/JSON.cpp:94-103 | the legacy `insert` fails exactly when the key is present; otherwise it adds exactly that key and changes no other |
| Jsonpp.Subscript | common/jsonpp/JSON.cpp:69-83 | the non-const `operator[]` returns the stored item; for an absent key it first inserts a default item and returns that |
| Jsonpp.SubscriptConst | common/jsonpp/JSON.cpp:85-92 | the const `operator[]` fails (the source throws) exactly when the key is absent, never inserts, and otherwise returns the stored item |
| Jsonpp.CopyValue | common/jsonpp/JSON.cpp:43-67 | a value is copied exactly when assignment has a branch for its type, and the copy keeps its kind; an array copy is always empty, because the loop runs over the target's own, already cleared, items; a copied number, string, boolean or null is the item itself |
| Jsonpp.CopyMembers | common/jsonpp/JSON.cpp:43-67 | object assignment copies a subset of the source's keys, keeps them sorted, and copies all of them when every member is copyable |
| Jsonpp.CopiedPairs | common/jsonpp/JSON.cpp:43-67 | every pair of an object's copy holds the copy of the source's value under the same key |
| Jsonpp.CopiedInOrder | common/jsonpp/JSON.cpp:43-67 | when every member is copyable, the copy has the source's keys in the same places, each value the copy of the source's |
| Jsonpp.CopyPlain | common/jsonpp/JSON.cpp:43-67 | an item with no array at any depth and no uncopyable item is copied as itself: objects pair by pair, everything else as it is |
| Jsonpp.CopyPlainMembers | common/jsonpp/JSON.cpp:43-67 | object assignment from an object whose values have no array and no uncopyable item gives back the same pairs |
| Jsonpp.ParseString | common/jsonpp/JSON.cpp:565-638 | the legacy `parseString` fails on a first character other than `"`, and at the end of the input succeeds with the empty string; its result on any quoted input is stated by ParseStringAgainstTcajson |
| Jsonpp.ParseStringAgainstTcajson | common/jsonpp/JSON.cpp:576-633 | at an opening quote the legacy parser does not test the next character for a closing quote: unless it is a second quote, the result equals tcajson's `parseString`; at a second quote tcajson reads the empty string, while jsonpp keeps the quote and reads on to the next one |
| Jsonpp.StringRoundTrip | common/jsonpp/JSON.cpp:565-638 | every non-empty string, quoted and escaped, reads back as itself and stops after the closing quote |
| Jsonpp.EmptyQuotesNotEmpty | common/jsonpp/JSON.cpp:581-588 | the legacy parser takes the character after the opening quote unconditionally, so `"""` reads as a one-quote string where tcajson reads `""` as empty |
| Jsonpp.CommaRun | common/jsonpp/JSON.cpp:677-683 | the legacy token loop stops only at a comma or the end, so it reads past closing brackets |
| Jsonpp.CommaRunText | common/jsonpp/JSON.cpp:677-683 | the token it builds is the non-blank characters before the comma, plus the EOF character when it ran off the end |
| Jsonpp.ParseBoolean | common/jsonpp/JSON.cpp:668-694 | the legacy `parseBoolean` succeeds exactly when the comma-terminated token is the expected word |
| Jsonpp.ParseLiteral | common/jsonpp/JSON.cpp:696-719 | the legacy `parseLiteral` succeeds exactly when the comma-terminated token is `null` |
| Jsonpp.LiteralBeforeBraceFails | common/jsonpp/JSON.cpp:677-683 | `true }` is rejected by the legacy parser and accepted by tcajson |
| Jsonpp.BraceInToken | common/jsonpp/JSON.cpp:705-711 | on `true }` the legacy token swallows the closing brace |
| Jsonpp.ValueType | common/jsonpp/JSON.cpp:763-812 | the legacy type is read from the first non-blank character without consuming it, and every type other than invalid matches that character |
| Jsonpp.ValueTypeAgainstTcajson | common/jsonpp/JSON.cpp:763-812 | both parsers stop at the same place and agree on objects, arrays, strings and numbers; the legacy invalid type and legacy null together are exactly tcajson's null type |
| Jsonpp.ParseItem | common/jsonpp/JSON.cpp:416-466 | a parsed item has the announced kind (booleans take the configured default kind), a nested object is the copied accumulated object, an array is empty, and an invalid type fails; what it reads from a number or non-empty string is stated by JsonppRoundTrip.ItemReads |
| Jsonpp.ParseObject | common/jsonpp/JSON.cpp:372-473 | the legacy `parseObject` keeps every member it was given and keeps the map sorted; on a first character other than `{` it fails and adds nothing |
| Jsonpp.ParseArray | common/jsonpp/JSON.cpp:476-562 | the legacy `parseArray` only appends; on a first character other than `[` it fails and appends nothing |
| Jsonpp.Parse | common/jsonpp/JSON.cpp:354-369 | the legacy `parse` never clears the root: every member of the root keeps its value, and a string without `{` fails; its result on a flat document is stated by JsonppRoundTrip.ParseMerges |
| Jsonpp.InvalidValueFails | common/jsonpp/JSON.cpp:463-465 | an invalid value type makes the member loop fail with the object unchanged |
| Jsonpp.NestedObjectAccumulates | common/jsonpp/JSON.cpp:420-426 | a nested object is parsed into the shared scratch object, so its copy carries every key that earlier nested objects left there |
| Jsonpp.DuplicateThrows | common/jsonpp/JSON.cpp:94-103 | a parsed value for a key that is already present throws and leaves the object unchanged |
| Jsonpp.PairsTextAsWritten | common/jsonpp/JSON.cpp:144-154 | the legacy member loop, testing `(i + 1) < size` after incrementing `i`, omits the separator before the last pair |
| Jsonpp.ObjectToStringLayout | common/jsonpp/JSON.cpp:135-159 | with two or more pairs, the legacy writer joins all but the last pair with `", "` and glues the last pair on with no separator |
| Jsonpp.ObjectToStringFixedLayout | common/jsonpp/JSON.cpp:135-159 | the corrected legacy writer joins every pair with `", "` |
| Jsonpp.ElemsTextAsWritten | common/jsonpp/JSON.cpp:264-273 | the array loop, with the same `(i + 1) < size()` test, omits the separator before the last element |
| Jsonpp.ArrayToStringLayout | common/jsonpp/JSON.cpp:259-278 | with two or more elements, the legacy array writer joins all but the last with `", "` and glues the last on with no separator |
| Jsonpp.ArrayToStringFixedLayout | common/jsonpp/JSON.cpp:259-278 | the corrected array writer joins every element with `", "` |
| Jsonpp.TwoItemsRunTogether | common/jsonpp/JSON.cpp:271-272 | the legacy writer prints `[1, 2]` as `[ 12 ]` |
| Jsonpp.TwoItemsFixed | common/jsonpp/JSON.cpp:271-272 | the corrected writer prints the same array as `[ 1, 2 ]` |
| Jsonpp.OnePairAgrees | common/jsonpp/JSON.cpp:152-153 | with one pair, the legacy writer and the corrected one agree |
| Jsonpp.TwoPairsRunTogether | common/jsonpp/JSON.cpp:152-153 | the legacy writer prints `{"a": null, "b": null}` as `{ "a" : null"b" : null }` |
| Jsonpp.TwoPairsFixed | common/jsonpp/JSON.cpp:152-153 | the corrected writer prints the same object as `{ "a" : null, "b" : null }` |
| JsonppRoundTrip.FixedWriterAgrees | common/jsonpp/JSON.cpp:849-876 | with the separator rule fixed, `JSON::ToString` writes every tree without booleans exactly as tcajson's non-escaping writer does: brackets, `"key" : value` pairs, `", "` separators, bare numbers, quoted strings and `null` |
| JsonppRoundTrip.BooleanWritersDiffer | common/jsonpp/JSON.cpp:306-327 | a boolean is streamed as `1` or `0`, under either separator rule, and never as tcajson's `true` or `false` |
| JsonppRoundTrip.ItemReads | common/jsonpp/JSON.cpp:416-466 | at the text of a number or non-empty string followed by a separator, `parseValueType` announces the value's kind without moving, and the switch arm reads exactly that value, stops right after its text and leaves the scratch containers alone |
| JsonppRoundTrip.MembersReads | common/jsonpp/JSON.cpp:372-473 | the member loop over the pairs of a flat object, as the escaping writer lays them out up to ` }`, succeeds and adds exactly those pairs |
| JsonppRoundTrip.ObjectReads | common/jsonpp/JSON.cpp:372-473 | `parseObject` on a flat object's text succeeds, stops after the closing brace, and adds exactly the object's pairs to the map it was given |
| JsonppRoundTrip.ItemsReads | common/jsonpp/JSON.cpp:476-562 | the element loop over a flat array's elements, as the escaping writer lays them out up to ` ]`, succeeds and appends exactly those elements in order |
| JsonppRoundTrip.ArrayReads | common/jsonpp/JSON.cpp:476-562 | `parseArray` on a flat array's text succeeds, stops after the closing bracket, and appends exactly the array's elements in order |
| JsonppRoundTrip.ParseMerges | common/jsonpp/JSON.cpp:354-369 | `parse` of a flat document succeeds and the root, which is never cleared, gains exactly the document's pairs |
| JsonppRoundTrip.ParseFlatObject | common/jsonpp/JSON.cpp:354-369 | into an empty root, the legacy parser reads a flat document written by tcajson's escaping writer back as exactly its pairs, as tcajson's parser does |
| JsonppRoundTrip.FixedWriterRoundTrip | common/jsonpp/JSON.cpp:135-159 | the corrected legacy writer and the legacy parser round-trip every flat object whose keys and strings need no escaping |
| Jsonpp.TypeToString | common/jsonpp/JSON.cpp:814-847 | `true`, `false` and `null` kinds share the name "Json Literal", and only the invalid kind is "Invalid type" |
| Wire.PackText | common/tnmsCore/src/TnmsMessage.cpp:87-90 | packing a string succeeds exactly when the room left holds its length prefix and bytes |
| Wire.UnpackText | common/tnmsCore/src/TnmsMessage.cpp:124-127 | unpacking a string succeeds exactly when the buffer holds a length prefix and that many bytes, and what it reads re-encodes to the bytes it consumed |
| Wire.TextRoundTrip | common/tnmsCore/src/TnmsMessage.cpp:87-127 | an encoded string, followed by anything, unpacks to itself and consumes exactly its encoding |
| Wire.OidRoundTrip | common/tnmsCore/src/TnmsMessage.cpp:81-122 | an encoded oid, followed by anything, unpacks to itself and consumes exactly its encoding |
| Wire.U32RoundTrip | common/tnmsCore/src/TnmsAuthRequest.cpp:36-75 | an encoded 32-bit field unpacks to itself and consumes four bytes |
| Wire.SerializeAuth | common/tnmsCore/src/TnmsAuthRequest.cpp:12-42 | serialising an auth request succeeds exactly when the buffer holds `size()` bytes, and writes name, agent key and address in that order |
| Wire.DeserializeAuth | common/tnmsCore/src/TnmsAuthRequest.cpp:44-78 | deserialising fails, leaving the request unchanged, when the buffer is shorter than the current request's `size()`; on success the bytes consumed are exactly the encoding of the request read |
| Wire.AuthRoundTrip | common/tnmsCore/src/TnmsAuthRequest.cpp:12-78 | deserialising a serialised request gives it back unless the buffer is shorter than the size of the request being overwritten |
| Wire.AuthFields | common/tnmsCore/src/TnmsAuthRequest.cpp:60-75 | the three unpack calls read the name, the agent key and the address, each from where the previous one stopped |
| Wire.SerializeMessage | common/tnmsCore/src/TnmsMessage.cpp:68-93 | serialising a message succeeds exactly when the buffer holds type, oid and name, and writes them in that order |
| Wire.DeserializeMessage | common/tnmsCore/src/TnmsMessage.cpp:96-130 | deserialising fails, leaving the message unchanged, when the buffer is shorter than the current message's `size()`; on success the bytes consumed are exactly the encoding of the message read |
| Wire.EncodeMessage | common/tnmsCore/src/TnmsMessage.cpp:133-145 | `size()` is the length of the encoding, except that a `NO_RECORD` message reports size 0 |
| Wire.MessageRoundTrip | common/tnmsCore/src/TnmsMessage.cpp:68-130 | deserialising a serialised message gives it back unless the buffer is shorter than the size of the message being overwritten |
| Wire.MessageFields | common/tnmsCore/src/TnmsMessage.cpp:110-127 | the three unpack calls read the type, the oid and the name, each from where the previous one stopped |
| Wire.MessageTrichotomy | common/tnmsCore/src/TnmsMessage.cpp:47-58 | two messages are equal by name, or one sorts below the other, and never both ways |
| Wire.MessageLessTransitive | common/tnmsCore/src/TnmsMessage.cpp:54-58 | the message order is transitive |
| Wire.AssignMessage | common/tnmsCore/src/TnmsMessage.cpp:38-44 | assignment copies name, oid and type, so the copy serialises exactly as the source does |
| Client.QueueAdd | common/tnmsCore/src/TnmsClient.cpp:197-205 | queuing an add for a name that has a pending remove cancels that remove; otherwise the name joins the adds |
| Client.QueueRemove | common/tnmsCore/src/TnmsClient.cpp:207-213 | queuing a remove drops any pending add and update for the name and queues the remove |
| Client.QueueUpdate | common/tnmsCore/src/TnmsClient.cpp:216-220 | queuing an update adds the name to the updates and leaves adds and removes alone |
| Client.QueuesStayDisjoint | common/tnmsCore/src/TnmsClient.cpp:197-220 | starting from queues where no name is both a pending add and a pending remove, each queue operation keeps it that way |
| Client.RemoveThenAddCancels | common/tnmsCore/src/TnmsClient.cpp:197-213 | a remove followed by an add of the same name leaves no queue entry for it |
| Client.Drain | common/tnmsCore/src/TnmsClient.cpp:59-72 | a flush loop sends queued names until one is rejected; it leaves a suffix of the queue that begins with the rejected name |
| Client.DrainSendsLive | common/tnmsCore/src/TnmsClient.cpp:59-72 | the names a flush loop sends are the queued names not yet erased from the tree, in queue order, up to the first rejection |
| Client.Send | common/tnmsCore/src/TnmsClient.cpp:43-116 | `send` returns the first flush's error or the sum of both flush counts; it flags the last add record exactly when the adds were emptied; removes wait for the adds, and updates wait for both |
| Client.SendKeepsTails | common/tnmsCore/src/TnmsClient.cpp:43-116 | each queue left after `send` is a suffix of what was queued |
| Client.SendStopsAtFirstReject | common/tnmsCore/src/TnmsClient.cpp:59-108 | `send` attempts at most one record more than the transport accepts, and records are left over exactly when that extra one was attempted |
| Client.SendAllAccepted | common/tnmsCore/src/TnmsClient.cpp:43-116 | when the transport accepts everything, `send` empties all three queues and sends the live adds, all removes and the live updates |
| Client.AuthRequestHandler | common/tnmsCore/src/TnmsClient.cpp:139-194 | an agent login `account:login` becomes `account@addr:login`, a login without a colon uses the default agent account, and a client login becomes `name@host:`; with an auth client the request is forwarded, and without one it is answered with success |
| AuthDb.SetMinConns | TnmsAuthd/src/AuthDbThread.cpp:218-224 | the minimum becomes the requested value, or the maximum when the request exceeds it |
| AuthDb.SetMaxConns | TnmsAuthd/src/AuthDbThread.cpp:226-232 | the maximum becomes the requested value, or one more than the minimum when the request is below it |
| AuthDb.PoolBoundsStayOrdered | TnmsAuthd/src/AuthDbThread.cpp:218-232 | any sequence of the two setters keeps the minimum at or below the maximum |
| AuthDb.CreateFilter | TnmsAuthd/src/AuthDbThread.cpp:611-628 | a filter string begins with `I` for an include filter and `E` for an exclude filter, followed by `:name` for each authorization |
| AuthDb.NamesRoundTrip | TnmsAuthd/src/AuthDbThread.cpp:624-626 | names without colons, joined as `:a:b…`, split back into the same names |
| AuthDb.FilterRoundTrip | TnmsAuthd/src/AuthDbThread.cpp:611-628 | reading back a filter string gives the filter it was written from |
| AuthDb.FilterParsedRender | TnmsAuthd/src/AuthDbThread.cpp:611-628 | every string that reads as a filter is exactly the string that filter writes |
| AuthDb.AddSubtree | TnmsAuthd/src/AuthDbThread.cpp:400-406 | a subtree row is added exactly when the filter is empty or the row has the filter's polarity; the first row sets the polarity |
| AuthDb.AddSubtreeExtendsRendering | TnmsAuthd/src/AuthDbThread.cpp:400-406 | adding a row of the right polarity to a non-empty filter appends `:name` to its string |
| AuthDb.QuerySubtree | TnmsAuthd/src/AuthDbThread.cpp:373-409 | a failed query reports failure and leaves the filter alone; no rows succeed without change; otherwise only the first row is considered |
| AuthDb.BuildFilterKeepsPolarity | TnmsAuthd/src/AuthDbThread.cpp:355-369 | once a filter has a polarity, later subtrees of the other polarity are dropped and the rest are appended in order |
| AuthDb.BuildFilterFromEmpty | TnmsAuthd/src/AuthDbThread.cpp:355-369 | from an empty filter, the first subtree offered fixes the polarity for all later ones |
| AuthDb.DbAuthUser | TnmsAuthd/src/AuthDbThread.cpp:439-477 | a stored password yields success when it matches and invalid when it does not; a failed or empty lookup yields no result |
| AuthDb.AuthenticateUser | TnmsAuthd/src/AuthDbThread.cpp:236-251 | a user with the static method is checked against the database; any other method succeeds exactly when the external check passes, and is invalid otherwise |
| AuthDb.AuthenticateUserResults | TnmsAuthd/src/AuthDbThread.cpp:236-251 | the answer is success, invalid or no result, and no result only arises for a static user with no stored password |
| AuthDb.FindUser | TnmsAuthd/src/AuthDbThread.cpp:255-267 | finding a user succeeds exactly when the name is cached, and yields the cached record |
| AuthDb.ClearUser | TnmsAuthd/src/AuthDbThread.cpp:272-283 | clearing removes exactly that user from the cache |
| AuthDb.StoreUser | TnmsAuthd/src/AuthDbThread.cpp:324 | storing a queried user caches it under its name and changes no other entry |
| AuthDb.Authenticate | TnmsAuthd/src/AuthDbThread.cpp:77-127 | without a pooled connection, or when the user is neither cached nor found, nothing changes; otherwise the cached or queried user record is stored with `last` set to the current time, nothing else changes, the result code is `authenticateUser` on that record with the password, and ticket inserts are tried only after success, until one is accepted or the attempts run out |
| AuthDb.InsertTickets | TnmsAuthd/src/AuthDbThread.cpp:110-119 | the ticket loop makes at most the configured number of attempts, each with a fresh random ticket, stops at the first accepted insert, and keeps the last ticket drawn |
| AuthDb.IsAuthenticAsWritten | TnmsAuthd/src/AuthDbThread.cpp:149-185 | as written, a reply for an authentic ticket whose user is not cached dereferences a null user, and exactly those calls do so; for a cached user whose group has no filter, `createFilter` receives NULL, and exactly those calls do so |
| AuthDb.IsAuthenticNullFilter | TnmsAuthd/src/AuthDbThread.cpp:167-171 | an authentic reply for a cached user whose group has no filter hands NULL to `createFilter` |
| AuthDb.IsAuthenticNullUser | TnmsAuthd/src/AuthDbThread.cpp:165-177 | with an empty cache, an authentic reply reaches the null dereference |
| AuthDb.IsAuthentic | TnmsAuthd/src/AuthDbThread.cpp:149-185 | the corrected check always replies: success exactly when the ticket is authentic; the user's filter, when the group has one, and the configuration are attached only when that user is cached |
| AuthDb.IsAuthenticAgrees | TnmsAuthd/src/AuthDbThread.cpp:149-185 | wherever the original replies, the corrected check gives the same reply |
| AuthDb.ExpireTicket | TnmsAuthd/src/AuthDbThread.cpp:200-208 | expiring a ticket drops the user from the cache and changes no one else |
| AuthDb.ExpireThenIsAuthentic | TnmsAuthd/src/AuthDbThread.cpp:200-208 | a reply that still calls an expired user's ticket authentic reaches the null dereference |
| Cidr.BitsToMask | common/tcanetpp/src/CidrUtils.cpp:132-138 | the mask for `mb` bits is the host-order number with exactly its top `mb` bits set (no `htonl`, unlike `toBasePrefix`) |
| Cidr.ToBasePrefix | common/tcanetpp/src/CidrUtils.cpp:36-50 | a length above 32 yields 0, and otherwise the result keeps only bits that the address has |
| Cidr.ToBasePrefixBit | common/tcanetpp/src/CidrUtils.cpp:36-50 | bit `i` of the base prefix is set exactly when the address has it and it is among the top `mb` bits |
| Cidr.ToBasePrefixIdempotent | common/tcanetpp/src/CidrUtils.cpp:36-50 | taking the base prefix twice changes nothing more |
| Cidr.IsBasePrefix | common/tcanetpp/src/CidrUtils.cpp:27-31 | an address is a base prefix exactly when masking it changes nothing |
| Cidr.BasePrefixLowBits | common/tcanetpp/src/CidrUtils.cpp:27-31 | for a length up to 32, an address is a base prefix exactly when the bits below the prefix are all zero; above 32 only address 0 is |
| Cidr.ToBasePrefixIsBase | common/tcanetpp/src/CidrUtils.cpp:27-50 | the base prefix of any address is itself a base prefix |
| Cidr.MatchCidr | common/tcanetpp/src/CidrUtils.cpp:231-235 | only a prefix that is its own base can match any address |
| Cidr.MatchCidrTopBit | common/tcanetpp/src/CidrUtils.cpp:231-235 | a matched address agrees with the prefix on every bit inside the prefix length |
| Cidr.MatchCidrLaws | common/tcanetpp/src/CidrUtils.cpp:231-235 | a prefix matches its own address exactly when it is a base prefix, and matching an address is the same as matching its base prefix |
| Cidr.ToBasePrefixX86 | common/tcanetpp/src/CidrUtils.cpp:36-50 | with x86 shift semantics, where a shift by 32 shifts by 0, a length of 0 keeps the whole address, and every other length behaves as intended |
| Cidr.DefaultRouteX86 | common/tcanetpp/src/CidrUtils.cpp:36-50 | with x86 shift semantics, `0.0.0.0/0` does not match `10.0.0.1`; with the intended semantics it does |
| Cidr.DefaultRouteMatchesAll | common/tcanetpp/src/CidrUtils.cpp:231-235 | with the intended mask, `0.0.0.0/0` matches every address |
| Cidr.GetCidrRange | common/tcanetpp/src/CidrUtils.cpp:142-156 | the subnet octet position is one more than the whole octets in the length, and the range is 2 to the power of the bits left in that octet, between 2 and 256 |
| Cidr.CidrRangeCountsBlock | common/tcanetpp/src/CidrUtils.cpp:142-156 | the range times the number of addresses in each step of that octet is the size of the whole block |
| Cidr.SubnetValue | common/tcanetpp/src/CidrUtils.cpp:166-181 | a position above 4 yields 0 |
| Cidr.OctetsRecombine | common/tcanetpp/src/CidrUtils.cpp:166-181 | the four octets, recombined in network order, give back the address |
| Cidr.DeAggregate | common/tcanetpp/src/CidrUtils.cpp:185-227 | de-aggregation refuses a prefix longer than the target or not on its base, and leaves the list alone; otherwise it appends 2^(mb - len) prefixes, each of the target length |
| Cidr.DeAggregateRepeats | common/tcanetpp/src/CidrUtils.cpp:185-227 | as written, `octets[i] = octets[i]++` leaves the octet unchanged, so splitting `10.0.0.0/23` into /24s yields `10.0.0.0/24` twice |
| Cidr.StringToCidr | common/tcanetpp/src/CidrUtils.cpp:94-128 | parsing fails exactly when the address part before the first `/` does not convert, and then leaves the prefix alone; otherwise the address is the converted one and the length is the number after the `/`, or 32 when that number is outside 1..32 or there is no `/` |
| Cidr.CidrStringRoundTrip | common/tcanetpp/src/CidrUtils.cpp:67-128 | a prefix of length 1..32 printed by `toString(addr, mb)` (`Cidr.CidrToString`, the printer half) as `addr/len` parses back to itself through `StringToCidr` |
| Cidr.SlashZeroIsHost | common/tcanetpp/src/CidrUtils.cpp:94-128 | `addr/0` parses as a /32 host prefix, not as a default route |
| FwZones.Exists | fwgen/src/FwZones.cpp:146-155 | a zone exists exactly when a lookup finds it |
| FwZones.FindZone | fwgen/src/FwZones.cpp:112-120 | `find` succeeds exactly when the zone exists, and yields the stored zone |
| FwZones.Insert | fwgen/src/FwZones.cpp:123-131 | inserting succeeds exactly when the zone is new; a new zone is stored and nothing else changes, and an existing zone leaves the map alone |
| FwZones.RemoveZone | fwgen/src/FwZones.cpp:134-143 | `remove` reports whether the zone existed but never erases it |
| FwZones.Clear | fwgen/src/FwZones.cpp:158-162 | after `clear` there are no zones |
| FwZones.Size | fwgen/src/FwZones.cpp:165-169 | `size` is the number of distinct zones |
| FwZones.ParseZoneData | fwgen/src/FwZones.cpp:79-109 | a line with no colon is one trimmed device name, or none when empty; otherwise the first name is the trimmed text before the first colon |
| FwZones.ZoneDataRoundTrip | fwgen/src/FwZones.cpp:79-109 | trimmed, colon-free device names joined with colons split back into the same names |
| FwZones.ZoneDataCount | fwgen/src/FwZones.cpp:79-109 | a zone line yields one name per colon, plus one if text follows the last colon |
| FwZones.Classify | fwgen/src/FwZones.cpp:44-61 | a line is a zone definition exactly when, once trimmed, it is not a comment and contains `=`; the zone is the trimmed text before the first `=` and the devices are what follows |
| FwZones.Parse | fwgen/src/FwZones.cpp:32-76 | an unreadable file fails and leaves the map unchanged; a readable one is read line by line, and parse either returns true with the zones kept and sorted, or dereferences NULL at a line holding `:` and no `}` |
| FwZones.ParseLines | fwgen/src/FwZones.cpp:44-73 | the loop keeps the map sorted and its zones present; a crash happens only at a line holding `:` and no `}` |
| FwZones.SkipBlock | fwgen/src/FwZones.cpp:260-264 | from a block for a device no zone names, parse either dereferences NULL at a line holding `:` and no `}`, or goes on after the block with the map kept sorted and its zones present |
| FwZones.SkipInterfaces | fwgen/src/FwZones.cpp:271-314 | with a NULL device, `parseInterfaces` reads through the first line holding `}` (or to the end) when no line before it holds `:`; otherwise it dereferences NULL at the first line holding `:` |
| FwZones.BlockEnd | fwgen/src/FwZones.cpp:277-279 | `parseInterfaces` reads up to and including the first line holding `}`, or every line when none does |
| FwZones.BraceName | fwgen/src/FwZones.cpp:246-258 | a device line holding `{` looks up the trimmed name before its first `{`; no other line looks anything up |
| FwZones.ParseKeepsZone | fwgen/src/FwZones.cpp:32-76 | whatever the file holds, a zone already in the map keeps its entry when parse returns |
| FwZones.ReadLineFind | fwgen/src/FwZones.cpp:51-71 | one line defines a zone only when the zone is not yet present |
| FwZones.ParseFirstDefinitionWins | fwgen/src/FwZones.cpp:32-76 | for a file whose device blocks all name zones already in the map, parse returns, a zone that was already present is unchanged, and any other zone is its first definition in the file |
| FwZones.UnknownDeviceHidesZone | fwgen/src/FwZones.cpp:260-264 | a block for a device no zone names hides the zone defined inside it: the file defines the zone, but parse returns without it |
| FwZones.UnknownDeviceCrashes | fwgen/src/FwZones.cpp:260-264 | a port line inside a block for a device no zone names makes parse dereference NULL at that line |
| FwZones.ExampleBlock | fwgen/src/FwZones.cpp:246-264 | in an empty map, `fw1 {` is a block for an unknown device |
| FwZones.ExampleZone | fwgen/src/FwZones.cpp:51-71 | `z = a` defines zone `z` with the single device `a` |
| FwZones.ParseLinesFixed | fwgen/src/FwZones.cpp:246-268 | parse with the `else` bound as indented: reading keeps the map sorted and its zones present, and never dereferences NULL |
| FwZones.FixedKeepsZone | fwgen/src/FwZones.cpp:246-268 | with the `else` bound as indented, the zone defined inside a block for an unknown device is inserted as its first definition |
| FwZones.FixedAgrees | fwgen/src/FwZones.cpp:32-76 | for a file without device blocks, the corrected and the original parse give the same zones |
| FwZones.ResolveDevice | fwgen/src/FwZones.cpp:222-243 | device lookup scans zones in key order and returns the first zone that is named after the device or lists it, with the device's first index; a zone named after the device answers its first device, and `front()` of an empty list when it has none |
| Base.FindFirst | fwgen/src/FwZones.cpp:234-238 | the search returns the first position holding the element, or nothing exactly when the element is absent |

## Left out

- Number conversion: a JSON number keeps the lexeme it was read from, and the writers print that lexeme unchanged. The source converts the text to a `double` and streams the `double` back out, so `1.50` prints as `1.5` and `1e2` as `100`. The round trips hold for lexemes because of this simplification; floating point is not modelled.
- `JSON::setError`, the error position and message, and `JSON::Version` are left out, because they only record diagnostics.
- `IsValidChar` (src/JSON.cpp:805-812) is defined but not used by any parser path, so nothing is proved about it.
- The default kind of a legacy `JsonBoolean` is a parameter of the legacy parser, because its constructor default is set outside the modelled files.
- The legacy library's thin `erase`, `find`, `JsonArray::at` and `JsonArray::insert` wrappers are left out. They forward to the same `std::map` and `std::vector` calls as tcajson's, which `JsonValue` models. The legacy `JsonArray` destructor is left out too, because memory is not modelled.
- Pointer identity is not modelled. The client and the auth daemon identify tree nodes and cached users by name. The auth daemon's maps are keyed by name in the source too. The client's add and update sets are ordered by pointer in the source.
- Client.Send: Drain, SendKeepsTails and SendStopsAtFirstReject describe which records go out before the first rejection and which stay queued in name order. The source walks the add and update sets in pointer order, so on a rejection the records sent and left queued can differ. The number of records sent is the same in both orders, and when nothing is rejected, so are the records.
- `Packer`, `Serializer` and `TnmsOid::serialize` are not part of this model. Their encodings are taken to be a big-endian `uint16_t` and `uint32_t`, and a `uint32_t` length prefix before string and oid bytes; that prefix is also the basis of `size()`.
- The socket behind `TnmsClient::send` is a budget: the number of records the transport accepts before its first rejection. The two flush results are parameters.
- The SQL queries, the connection pool, threads and the `run()` loop of `AuthDbThread` are left out. Query results, pool acquisition, the random ticket source and the clock are parameters.
- `dbStoreTicket` is left out. `authenticate` also stores a ticket through an undeclared variable `tick` (TnmsAuthd/src/AuthDbThread.cpp:121-122), so the model keeps only the ticket drawn by the insert loop.
- `dbRestoreTickets`, `dbClearTickets`, `dbGetRefresh`, `dbSetRefresh`, `queryUserConfig`, `refreshTicket` and `getAuthTypes` are left out, because each is a plain database round trip.
- `findAuthFilter` is an `AuthDbThread` member declared outside the files this model covers. The model takes its answer as a parameter that may be NULL (`None`), because `queryAuthFilter` yields no filter after an SQL error or for a group without authorization rows (TnmsAuthd/src/AuthDbThread.cpp:347-352).
- Constants defined outside the modelled files are fields of a configuration value: the ticket lifetime, the retry count and the static auth method.
- AuthDb.Authenticate: the model follows the code, which returns `true` from `authenticate` once the user is found, even when the password check fails; only the result code says why.
- AuthDb.SetMaxConns: models the `minConns + 1` fallback on unbounded integers, not its overflow at the type's maximum.
- `CidrUtils::getHostName`, `getHostAddr`, `isLoopback`, `ntop` and `pton` wrap libc and DNS calls, so they are parameters.
- Cidr.BitsToMask: requires a length from 1 to 32, because a shift by 32 in C is undefined; `ToBasePrefixX86` models the x86 behaviour at length 0.
- Cidr.BitsToMask: the result is the host-order number, not an `ipv4addr_t` in network byte order as the rest of the module reads it. The source applies no `htonl` here, so on a little-endian host `bitsToMask(24)` holds the bytes `00 ff ff ff`, which is the address 0.255.255.255. Byte order is not modelled.
- Cidr.SubnetValue: requires a position of at least 1, because position 0 reads `octets[-1]`.
- Cidr.DeAggregate: requires a target length of at most 32, and computes the count with exact powers of two instead of the `pow` conversion to `int`.
- Cidr.DeAggregate: no corrected version is modelled; the contract states only the count and length of the prefixes appended, not their addresses.
- `FwZones::parseDeviceData` and `parseInterfaces` (fwgen/src/FwZones.cpp:246-314) are modelled only for their effect on the zone map and on which lines `parse` reads: which lines `parseInterfaces` consumes, and the NULL dereference. The interface records they build are left out, and so is `StringToCidr` on the port address. With the dangling `else`, those records are never built for a found device. The `erase` overloads, `getErrorStr`, `begin` and `end` are thin container wrappers.
- FwZones.ParseFirstDefinitionWins: holds only for files whose device blocks all name zones already in the map. A block naming an unknown device hides the zone definitions inside it (`FwZones.UnknownDeviceHidesZone`) or crashes (`FwZones.UnknownDeviceCrashes`). For all files, `FwZones.ParseKeepsZone` states that existing zones are kept.
- FwZones.ResolveDevice: a zone named after the device answers `&front()` of its device list, which the model takes to be a device even when the list is empty (`FrontOfEmpty`). That is so for a `std::list`; for an empty `std::vector`, libstdc++'s `&front()` is NULL. The type of `FwDeviceList` is declared outside the files this model covers.
- The debugging switch of `FwZones` is taken to be off, as both constructors set it (fwgen/src/FwZones.cpp:14-24). Nothing sets it in the files modelled.
- JsonParser.Parse: the contract states what is preserved and the failure case. The full result for a written document is stated by `JsonRoundTrip.ParseRoundTrip` and `JsonRoundTrip.ParseMerges`.
- JsonParser.ObjectLoop: the same holds for the member loop, whose full result is stated by `JsonRoundTrip.MembersReads`.
- Jsonpp.ValueText: the boolean arm assumes that `JsonBoolean` is `JsonType<bool>` and that its `toString` streams the bool without `boolalpha`, as `1` or `0`. The header that declares `JsonBoolean` is not part of this model. A boolean prints so whatever type its default constructor gave it. A bare item of a container, number or string type would be cast by `JSON::ToString` to a class it is not, which is undefined; the model prints `Invalid type` for it.
- Jsonpp.ParseItem: what it reads is stated only for numbers and non-empty strings (`JsonppRoundTrip.ItemReads`). A nested object or array is the copy of a scratch container that accumulates over the whole parse, and a boolean keeps its default value, so no read-back property holds for them.
- Jsonpp.ParseObject: its full result is stated only for flat objects, whose values are numbers and non-empty strings under non-empty keys (`JsonppRoundTrip.ObjectReads`), for the reasons given for ParseItem.
- Jsonpp.ParseArray: its full result is stated only for flat arrays (`JsonppRoundTrip.ArrayReads`), for the reasons given for ParseItem.
- Jsonpp.Parse: its full result is stated only for flat documents (`JsonppRoundTrip.ParseMerges` and `JsonppRoundTrip.ParseFlatObject`), for the reasons given for ParseItem.

## Findings

| source | as written | input that shows it | evidently intended | confidence | as-written member | corrected member |
|---|---|---|---|---|---|---|
| src/JsonObject.cpp:226-228 | `toString` writes keys and strings without escaping | `{"k": "\""}` is written as `{ "k" : """ }`, which parses to a failure with `k` bound to the empty string | writing through the escaping writer, so that parsing returns the object | not executed | JsonRoundTrip.RawWriterLosesQuote | JsonRoundTrip.ParseRoundTrip |
| common/jsonpp/JSON.cpp:152-153 | the separator test is `(i + 1) < size` after `i` was already incremented | `{"a": null, "b": null}` is written as `{ "a" : null"b" : null }` | a `", "` between every two pairs | not executed | Jsonpp.TwoPairsRunTogether | Jsonpp.TwoPairsFixed |
| common/jsonpp/JSON.cpp:271-272 | the array writer has the same `(i + 1) < size()` test after `i` was already incremented | `[1, 2]` is written as `[ 12 ]` | a `", "` between every two elements | not executed | Jsonpp.TwoItemsRunTogether | Jsonpp.TwoItemsFixed |
| TnmsAuthd/src/AuthDbThread.cpp:175-176 | the user's filter and configuration are read outside the `user != NULL` test | an authentic reply for a user not in the cache, for example one whose ticket was just expired | reading them only when the user is cached | not executed | AuthDb.IsAuthenticNullUser | AuthDb.IsAuthentic |
| fwgen/src/FwZones.cpp:260-264 | the `else` meant for a found device binds to `if (this->_debug)`, so with debugging off an unknown device calls `parseInterfaces(ifs, NULL)` and a found one is ignored | an empty map and the lines `fw1 {`, `z = a`, `}`: zone `z` is never defined; with `eth0 : 10.0.0.1/24` inside the block, the port is pushed through NULL | skip an unknown device, and read the interface block of a found one | not executed | FwZones.UnknownDeviceHidesZone | FwZones.FixedKeepsZone |
| common/tcanetpp/src/CidrUtils.cpp:45 | the mask is shifted by `32 - mb`, which is 32 for `mb == 0`; on x86 the shift count wraps to 0 | `0.0.0.0/0` does not match `10.0.0.1` | a /0 prefix matches every address | not executed | Cidr.DefaultRouteX86 | Cidr.DefaultRouteMatchesAll |

=== FILE: auth_db.dfy ===
/** AuthDbThread: the decisions the authentication daemon's database thread
    takes between its SQL queries.

    The SQL session pool, the ticket store (TicketDatabase), the random ticket
    generator and the external CommandLineAuthenticator are not part of this
    model; each one appears as the answer it gives. The constants
    TICKET_MAX_RETRY, TICKET_REFRESH_INTERVAL, TICKET_GRACE_PERIOD and
    AUTHDB_METHOD_DBSTATIC are declared in a header that is not part of this
    model either, so they are fields of Config. The user cache, a std::map
    from user name to TnmsDbUser, is the Base association list; a cached
    user is keyed by its user name, so the record leaves the name out. */
module AuthDb {
  import opened Base
  import Wire

  datatype Config = Config(
    maxRetry: int,          // TICKET_MAX_RETRY
    refreshInterval: int,   // TICKET_REFRESH_INTERVAL
    gracePeriod: int,       // TICKET_GRACE_PERIOD
    staticMethod: string)   // AUTHDB_METHOD_DBSTATIC

  // ---------------------------------------------------------------------------
  // Connection-pool bounds

  datatype Pool = Pool(minConns: int, maxConns: int)

  /** AuthDbThread::setMinConns: a request above the current maximum is
      lowered to the maximum. */
  function SetMinConns(p: Pool, conns: int): (r: Pool)
    ensures r.maxConns == p.maxConns
    ensures r.minConns <= p.maxConns
    ensures r.minConns == conns || (conns > p.maxConns && r.minConns == p.maxConns)
  {
    if conns > p.maxConns then p.(minConns := p.maxConns) else p.(minConns := conns)
  }

  /** AuthDbThread::setMaxConns: a request below the current minimum is
      raised to one above the minimum. */
  function SetMaxConns(p: Pool, conns: int): (r: Pool)
    ensures r.minConns == p.minConns
    ensures r.maxConns >= p.minConns
    ensures r.maxConns == conns || (conns < p.minConns && r.maxConns == p.minConns + 1)
  {
    if conns < p.minConns then p.(maxConns := p.minConns + 1) else p.(maxConns := conns)
  }

  datatype PoolOp = SetMin(conns: int) | SetMax(conns: int)

  function ApplyPoolOps(p: Pool, ops: seq<PoolOp>): Pool
    decreases |ops|
  {
    if |ops| == 0 then p
    else
      var q := match ops[0]
        case SetMin(c) => SetMinConns(p, c)
        case SetMax(c) => SetMaxConns(p, c);
      ApplyPoolOps(q, ops[1..])
  }

  /** Whatever sequence of setMinConns/setMaxConns calls is made, a pool whose
      minimum starts at or below its maximum keeps it there, and a single
      call to either leaves the bounds ordered. */
  lemma {:induction false} PoolBoundsStayOrdered(p: Pool, ops: seq<PoolOp>)
    requires p.minConns <= p.maxConns
    ensures ApplyPoolOps(p, ops).minConns <= ApplyPoolOps(p, ops).maxConns
    decreases |ops|
  {
    if |ops| > 0 {
      var q := match ops[0]
        case SetMin(c) => SetMinConns(p, c)
        case SetMax(c) => SetMaxConns(p, c);
      assert q.minConns <= q.maxConns;
      PoolBoundsStayOrdered(q, ops[1..]);
    }
  }

  // ---------------------------------------------------------------------------
  // Authorisation filters

  /** TnmsDbFilter: an include or exclude list of subtree names. */
  datatype Filter = Filter(isInclude: bool, authorizations: seq<string>)

  /** ":name" for each authorisation, in list order. */
  function NamesText(names: seq<string>): string
    decreases |names|
  {
    if |names| == 0 then "" else ":" + names[0] + NamesText(names[1..])
  }

  /** AuthDbFilter::createFilter: "I" or "E" by polarity, then ":name" for
      each authorisation in list order. */
  function CreateFilter(f: Filter): (r: string)
    ensures |r| > 0 && (r[0] == 'I' <==> f.isInclude) && (r[0] == 'E' <==> !f.isInclude)
    ensures r[1..] == NamesText(f.authorizations)
  {
    (if f.isInclude then "I" else "E") + NamesText(f.authorizations)
  }

  /** Reads back a list rendered by NamesText: each name runs from a ':' to
      the next ':' or the end. */
  function ParseNames(s: string): (r: Option<seq<string>>)
    decreases |s|
  {
    if |s| == 0 then Some([])
    else if s[0] != ':' then None
    else
      var rest := s[1..];
      match FindFirst(rest, ':')
      case None => Some([rest])
      case Some(i) =>
        match ParseNames(rest[i..])
        case None => None
        case Some(ns) => Some([rest[..i]] + ns)
  }

  /** Reads back a filter string. */
  function ParseFilter(s: string): (r: Option<Filter>)
  {
    if |s| == 0 || (s[0] != 'I' && s[0] != 'E') then None
    else
      match ParseNames(s[1..])
      case None => None
      case Some(ns) => Some(Filter(s[0] == 'I', ns))
  }

  predicate NoColon(names: seq<string>)
  {
    forall i :: 0 <= i < |names| ==> ':' !in names[i]
  }

  /** The last name of a list reads back alone. */
  lemma NamesLast(a: string)
    requires ':' !in a
    ensures ParseNames(":" + a) == Some([a])
  {
    assert (":" + a)[1..] == a;
  }

  /** One step of ParseNames: the name up to the next ':' is read. */
  lemma ParseNamesUnfold(s: string, i: nat, ns: seq<string>)
    requires |s| > 0 && s[0] == ':' && FindFirst(s[1..], ':') == Some(i)
    requires ParseNames(s[1..][i..]) == Some(ns)
    ensures ParseNames(s) == Some([s[1..][..i]] + ns)
  {
  }

  /** Where ParseNames cuts ":" + a + t when a holds no ':' and t starts
      with one. */
  lemma ColonCut(a: string, t: string)
    requires ':' !in a && |t| > 0 && t[0] == ':'
    ensures |":" + a + t| > 0 && (":" + a + t)[0] == ':'
    ensures FindFirst((":" + a + t)[1..], ':') == Some(|a|)
    ensures (":" + a + t)[1..][..|a|] == a && (":" + a + t)[1..][|a|..] == t
  {
    var s := ":" + a + t;
    var rest := s[1..];
    assert rest == a + t by {
      assert |rest| == |a + t|;
      forall i | 0 <= i < |rest| ensures rest[i] == (a + t)[i] {
        assert rest[i] == s[i + 1];
      }
    }
    FindFirstAfter(a, ':', t);
    assert rest[..|a|] == a && rest[|a|..] == t;
  }

  /** A name and a ':' after it: the name is read and parsing goes on
      from that ':'. */
  lemma ParseNamesCons(a: string, t: string, ns: seq<string>)
    requires ':' !in a && |t| > 0 && t[0] == ':'
    requires ParseNames(t) == Some(ns)
    ensures ParseNames(":" + a + t) == Some([a] + ns)
  {
    ColonCut(a, t);
    ParseNamesUnfold(":" + a + t, |a|, ns);
  }

  lemma NamesTextCons(n: string, ns: seq<string>)
    ensures NamesText([n] + ns) == ":" + n + NamesText(ns)
  {
    assert ([n] + ns)[0] == n && ([n] + ns)[1..] == ns;
  }

  lemma {:induction false} NamesRoundTrip(names: seq<string>)
    requires NoColon(names)
    ensures ParseNames(NamesText(names)) == Some(names)
    decreases |names|
  {
    if |names| > 0 {
      var a, tail := names[0], names[1..];
      assert names == [a] + tail;
      assert NoColon(tail) by {
        forall i | 0 <= i < |tail| ensures ':' !in tail[i] { assert tail[i] == names[i + 1]; }
      }
      NamesRoundTrip(tail);
      var t := NamesText(tail);
      NamesTextCons(a, tail);
      if |tail| == 0 {
        assert tail == [] && names == [a];
        assert ":" + a + t == ":" + a;
        NamesLast(a);
      } else {
        ParseNamesCons(a, t, tail);
      }
    }
  }


  /** One name in front of a parsed remainder renders back to the input. */
  lemma NamesConsRender(s: string, i: nat, ns: seq<string>)
    requires |s| > 0 && s[0] == ':' && i < |s| - 1
    requires NamesText(ns) == s[1..][i..]
    ensures NamesText([s[1..][..i]] + ns) == s
  {
    var rest, a := s[1..], s[1..][..i];
    var names := [a] + ns;
    assert names[0] == a && names[1..] == ns;
    assert NamesText(names) == ":" + a + NamesText(ns);
    assert rest == a + rest[i..];
    assert s == [s[0]] + rest;
  }

  lemma NoColonCons(a: string, ns: seq<string>)
    requires ':' !in a && NoColon(ns)
    ensures NoColon([a] + ns)
  {
    var names := [a] + ns;
    forall j | 0 <= j < |names| ensures ':' !in names[j] {
      if j > 0 { assert names[j] == ns[j - 1]; }
    }
  }

  lemma {:induction false} NamesParsedRender(s: string, names: seq<string>)
    requires ParseNames(s) == Some(names)
    ensures NamesText(names) == s && NoColon(names)
    decreases |s|
  {
    if |s| > 0 {
      var rest := s[1..];
      var f := FindFirst(rest, ':');
      if f.None? {
        assert names == [rest];
        assert NamesText(names) == ":" + rest + "";
      } else {
        var i := f.value;
        var ns := ParseNames(rest[i..]).value;
        assert names == [rest[..i]] + ns;
        NamesParsedRender(rest[i..], ns);
        NamesConsRender(s, i, ns);
        NoColonCons(rest[..i], ns);
      }
    }
  }

  /** createFilter is undone by ParseFilter for every filter whose names hold
      no ':', and every string ParseFilter accepts is the rendering of the
      filter it returns. */
  lemma FilterRoundTrip(f: Filter)
    requires NoColon(f.authorizations)
    ensures ParseFilter(CreateFilter(f)) == Some(f)
  {
    var s := CreateFilter(f);
    NamesRoundTrip(f.authorizations);
    assert s[1..] == NamesText(f.authorizations);
  }

  lemma FilterParsedRender(s: string)
    requires ParseFilter(s).Some?
    ensures CreateFilter(ParseFilter(s).value) == s
  {
    var ns := ParseNames(s[1..]).value;
    NamesParsedRender(s[1..], ns);
    assert s == [s[0]] + s[1..];
  }

  /** One row of `SELECT subtree_name, isInclude`. */
  datatype SubtreeRow = SubtreeRow(name: string, inc: bool)

  /** The polarity step of AuthDbThread::querySubtree: the subtree joins the
      filter iff the filter is empty or of the same polarity; on a mismatch
      the step fails and the filter is unchanged. */
  function AddSubtree(f: Filter, row: SubtreeRow): (r: (bool, Filter))
    ensures r.0 <==> (|f.authorizations| == 0 || f.isInclude == row.inc)
    ensures r.0 ==> r.1 == Filter(row.inc, f.authorizations + [row.name])
    ensures !r.0 ==> r.1 == f
  {
    if |f.authorizations| == 0 || f.isInclude == row.inc then
      (true, Filter(row.inc, f.authorizations + [row.name]))
    else (false, f)
  }

  lemma {:induction false} NamesTextSnoc(names: seq<string>, a: string)
    ensures NamesText(names + [a]) == NamesText(names) + ":" + a
    decreases |names|
  {
    if |names| == 0 {
      assert names + [a] == [a];
      assert NamesText([a]) == ":" + a + "";
    } else {
      assert (names + [a])[1..] == names[1..] + [a];
      NamesTextSnoc(names[1..], a);
    }
  }

  /** An accepted step extends the rendered filter by ":name" and keeps its
      polarity letter. */
  lemma AddSubtreeExtendsRendering(f: Filter, row: SubtreeRow)
    requires |f.authorizations| > 0 && f.isInclude == row.inc
    ensures CreateFilter(AddSubtree(f, row).1) == CreateFilter(f) + ":" + row.name
  {
    NamesTextSnoc(f.authorizations, row.name);
  }

  /** Outcome of `SELECT ... FROM tnms.authorizations` for one subtree. */
  datatype SubtreeQuery = QueryFailed | Rows(rows: seq<SubtreeRow>)

  /** AuthDbThread::querySubtree: a failed query fails, an empty answer
      succeeds with nothing added, otherwise only the first row is offered to
      the filter. */
  function QuerySubtree(f: Filter, q: SubtreeQuery): (r: (bool, Filter))
    ensures q.QueryFailed? ==> r == (false, f)
    ensures q.Rows? && |q.rows| == 0 ==> r == (true, f)
    ensures q.Rows? && |q.rows| > 0 ==> r == AddSubtree(f, q.rows[0])
  {
    match q
    case QueryFailed => (false, f)
    case Rows(rows) => if |rows| == 0 then (true, f) else AddSubtree(f, rows[0])
  }

  /** The loop of AuthDbThread::queryAuthFilter: one querySubtree per subtree
      id of the group, its result ignored. */
  function BuildFilter(f: Filter, qs: seq<SubtreeQuery>): Filter
    decreases |qs|
  {
    if |qs| == 0 then f else BuildFilter(QuerySubtree(f, qs[0]).1, qs[1..])
  }

  /** The subtrees a query answer offers: the first row of each non-empty
      answer, in order. */
  function Offered(qs: seq<SubtreeQuery>): seq<SubtreeRow>
    decreases |qs|
  {
    if |qs| == 0 then []
    else if qs[0].Rows? && |qs[0].rows| > 0 then [qs[0].rows[0]] + Offered(qs[1..])
    else Offered(qs[1..])
  }

  /** Names of the offered subtrees of polarity inc, in order. */
  function Kept(rows: seq<SubtreeRow>, inc: bool): seq<string>
    decreases |rows|
  {
    if |rows| == 0 then []
    else if rows[0].inc == inc then [rows[0].name] + Kept(rows[1..], inc)
    else Kept(rows[1..], inc)
  }

  lemma {:induction false} BuildFilterKeepsPolarity(f: Filter, qs: seq<SubtreeQuery>)
    requires |f.authorizations| > 0
    ensures BuildFilter(f, qs)
      == Filter(f.isInclude, f.authorizations + Kept(Offered(qs), f.isInclude))
    decreases |qs|
  {
    if |qs| > 0 {
      var g := QuerySubtree(f, qs[0]).1;
      assert g.isInclude == f.isInclude && |g.authorizations| > 0;
      BuildFilterKeepsPolarity(g, qs[1..]);
      if qs[0].Rows? && |qs[0].rows| > 0 {
        var row := qs[0].rows[0];
        assert Offered(qs) == [row] + Offered(qs[1..]);
        if row.inc == f.isInclude {
          assert g.authorizations == f.authorizations + [row.name];
          assert Kept(Offered(qs), f.isInclude) == [row.name] + Kept(Offered(qs[1..]), f.isInclude);
        } else {
          assert g == f;
          assert Kept(Offered(qs), f.isInclude) == Kept(Offered(qs[1..]), f.isInclude);
        }
      } else {
        assert g == f && Offered(qs) == Offered(qs[1..]);
      }
    }
  }

  /** The polarity invariant: a group's filter takes the polarity of the
      first subtree offered and lists exactly the offered subtrees of that
      polarity, in order; every mismatching subtree is dropped. */
  lemma {:induction false} BuildFilterFromEmpty(f: Filter, qs: seq<SubtreeQuery>)
    requires |f.authorizations| == 0 && |Offered(qs)| > 0
    ensures BuildFilter(f, qs)
      == Filter(Offered(qs)[0].inc, Kept(Offered(qs), Offered(qs)[0].inc))
    decreases |qs|
  {
    var g := QuerySubtree(f, qs[0]).1;
    if qs[0].Rows? && |qs[0].rows| > 0 {
      var row := qs[0].rows[0];
      assert Offered(qs) == [row] + Offered(qs[1..]);
      assert g == Filter(row.inc, [row.name]);
      BuildFilterKeepsPolarity(g, qs[1..]);
      assert Kept(Offered(qs), row.inc) == [row.name] + Kept(Offered(qs[1..]), row.inc);
    } else {
      assert g == f && Offered(qs) == Offered(qs[1..]);
      BuildFilterFromEmpty(f, qs[1..]);
    }
  }

  // ---------------------------------------------------------------------------
  // Authentication methods

  /** What `SELECT password FROM tnms.users` yields inside dbAuthUser. */
  datatype PasswordLookup = PoolUnavailable | LookupFailed | NoRow | Stored(password: string)

  /** The result mapping of AuthDbThread::dbAuthUser. */
  function DbAuthUser(password: string, lookup: PasswordLookup): (r: Wire.AuthResult)
    ensures r == Wire.AuthSuccess <==> lookup == Stored(password)
    ensures r == Wire.AuthInvalid <==> (lookup.Stored? && lookup.password != password)
    ensures r == Wire.AuthNoResult <==> !lookup.Stored?
  {
    match lookup
    case Stored(p) => if password == p then Wire.AuthSuccess else Wire.AuthInvalid
    case _ => Wire.AuthNoResult
  }

  /** TnmsDbUser, the fields the decisions read. */
  datatype User = User(gid: nat, authMethod: string, authBin: string, config: string, last: int)

  /** AuthDbThread::authenticateUser: the static method asks the database,
      any other method the external authenticator, whose verdict is passed. */
  function AuthenticateUser(cfg: Config, u: User, password: string,
                            lookup: PasswordLookup, externalPass: bool): (r: Wire.AuthResult)
    ensures u.authMethod == cfg.staticMethod ==> r == DbAuthUser(password, lookup)
    ensures u.authMethod != cfg.staticMethod ==>
      (r == Wire.AuthSuccess <==> externalPass) && (r != Wire.AuthSuccess <==> r == Wire.AuthInvalid)
  {
    if u.authMethod == cfg.staticMethod then DbAuthUser(password, lookup)
    else if externalPass then Wire.AuthSuccess
    else Wire.AuthInvalid
  }

  /** Only the database method can come back without a verdict, and every
      method answers one of the three results. */
  lemma AuthenticateUserResults(cfg: Config, u: User, password: string,
                                lookup: PasswordLookup, externalPass: bool)
    ensures AuthenticateUser(cfg, u, password, lookup, externalPass)
      in {Wire.AuthNoResult, Wire.AuthSuccess, Wire.AuthInvalid}
    ensures AuthenticateUser(cfg, u, password, lookup, externalPass) == Wire.AuthNoResult
      ==> u.authMethod == cfg.staticMethod && !lookup.Stored?
  {
  }

  // ---------------------------------------------------------------------------
  // User cache

  type UserCache = seq<Entry<User>>

  /** AuthDbThread::findUser. */
  function FindUser(c: UserCache, name: string): (r: Option<User>)
    requires Sorted(c)
    ensures r.Some? <==> name in Keys(c)
    ensures r.Some? ==> exists i :: 0 <= i < |c| && c[i] == Entry(name, r.value)
  {
    Find(c, name)
  }

  /** AuthDbThread::clearUser: drops that user only. */
  function ClearUser(c: UserCache, name: string): (r: UserCache)
    requires Sorted(c)
    ensures Sorted(r) && Keys(r) == Keys(c) - {name}
    ensures FindUser(r, name) == None
    ensures forall x :: x != name ==> FindUser(r, x) == FindUser(c, x)
  {
    Remove(c, name)
  }

  /** `_userMap[name] = user`: stores or replaces one user. */
  function StoreUser(c: UserCache, name: string, u: User): (r: UserCache)
    requires Sorted(c)
    ensures Sorted(r) && Keys(r) == Keys(c) + {name}
    ensures FindUser(r, name) == Some(u)
    ensures forall x :: x != name ==> FindUser(r, x) == FindUser(c, x)
  {
    Put(Remove(c, name), name, u)
  }

  // ---------------------------------------------------------------------------
  // authenticate

  /** One call of TicketDatabase::insert. */
  datatype TicketInsert = TicketInsert(user: string, ticket: string, ipaddr: string, now: int, ttl: int)

  /** The answers of everything authenticate consults: whether a pooled
      session was acquired, what queryUser finds for a user not yet cached,
      the password lookup and the external authenticator's verdict, the k-th
      random ticket string and whether the k-th insert is accepted. */
  datatype Env = Env(
    acquired: bool,
    queried: Option<User>,
    lookup: PasswordLookup,
    externalPass: bool,
    random: nat -> string,
    accepts: nat -> bool)

  datatype AuthOutcome = AuthOutcome(
    ok: bool,
    cache: UserCache,
    result: Wire.AuthResult,
    ticket: string,
    inserts: seq<TicketInsert>)

  function Ttl(cfg: Config): int { cfg.refreshInterval + cfg.gracePeriod }

  function MaxAttempts(cfg: Config): nat { if cfg.maxRetry > 0 then cfg.maxRetry else 0 }

  /** The k-th insertion authenticate hands to the ticket store. */
  function InsertAt(cfg: Config, env: Env, user: string, ipaddr: string, now: int, k: nat): TicketInsert
  {
    TicketInsert(user, env.random(k), ipaddr, now, Ttl(cfg))
  }

  /** The user record authenticate works on: the cached one, else what
      queryUser finds, with `last` set to now. */
  function Touched(cache: UserCache, user: string, env: Env, now: int): (r: Option<User>)
    requires Sorted(cache)
    ensures r.None? <==> FindUser(cache, user).None? && env.queried.None?
    ensures FindUser(cache, user).Some? ==> r == Some(FindUser(cache, user).value.(last := now))
    ensures FindUser(cache, user).None? && env.queried.Some? ==> r == Some(env.queried.value.(last := now))
  {
    match FindUser(cache, user)
    case Some(u) => Some(u.(last := now))
    case None => if env.queried.Some? then Some(env.queried.value.(last := now)) else None
  }

  /** AuthDbThread::authenticate. Without a pooled session or an unknown user
      it returns false with no ticket activity and the cache untouched. Past
      that point the user is cached with `last` set to now and the call
      returns true whatever the password check said. Ticket insertion is
      tried only after AUTH_SUCCESS, at most TICKET_MAX_RETRY times, each
      with a fresh random ticket and the TTL refresh interval plus grace
      period, and stops at the first accepted insert. The ticket out
      parameter holds the last string generated. */
  method Authenticate(cfg: Config, cache: UserCache, user: string, password: string,
                      ipaddr: string, now: int, ticket: string, env: Env)
    returns (out: AuthOutcome)
    requires Sorted(cache)
    ensures Sorted(out.cache)
    ensures !env.acquired || (FindUser(cache, user).None? && env.queried.None?) ==>
      out == AuthOutcome(false, cache, Wire.AuthNoResult, ticket, [])
    ensures env.acquired && (FindUser(cache, user).Some? || env.queried.Some?) ==>
      out.ok && Keys(out.cache) == Keys(cache) + {user}
      && FindUser(out.cache, user) == Touched(cache, user, env, now)
      && FindUser(out.cache, user).value.last == now
      && out.result == AuthenticateUser(cfg, FindUser(out.cache, user).value, password, env.lookup, env.externalPass)
      && (forall x :: x != user ==> FindUser(out.cache, x) == FindUser(cache, x))
    ensures |out.inserts| > 0 ==> out.result == Wire.AuthSuccess
    ensures |out.inserts| <= MaxAttempts(cfg)
    ensures forall k :: 0 <= k < |out.inserts| ==> out.inserts[k] == InsertAt(cfg, env, user, ipaddr, now, k)
    ensures forall k :: 0 <= k < |out.inserts| - 1 ==> !env.accepts(k)
    ensures out.ok && out.result == Wire.AuthSuccess ==>
      |out.inserts| == MaxAttempts(cfg) || (|out.inserts| > 0 && env.accepts(|out.inserts| - 1))
    ensures out.ticket == if |out.inserts| == 0 then ticket else env.random(|out.inserts| - 1)
  {
    if !env.acquired {
      return AuthOutcome(false, cache, Wire.AuthNoResult, ticket, []);
    }
    var u: User;
    match FindUser(cache, user) {
      case Some(cached) => u := cached;
      case None =>
        match env.queried {
          case None => return AuthOutcome(false, cache, Wire.AuthNoResult, ticket, []);
          case Some(q) => u := q;
        }
    }
    u := u.(last := now);
    var c := StoreUser(cache, user, u);
    var result := AuthenticateUser(cfg, u, password, env.lookup, env.externalPass);

    var inserts: seq<TicketInsert> := [];
    var t := ticket;
    if result == Wire.AuthSuccess {
      inserts, t := InsertTickets(cfg, user, ipaddr, now, ticket, env);
    }
    out := AuthOutcome(true, c, result, t, inserts);
  }

  /** The ticket loop of authenticate: up to TICKET_MAX_RETRY inserts,
      each with a fresh random ticket, stopping at the first one the store
      accepts. t is the last ticket generated. */
  method InsertTickets(cfg: Config, user: string, ipaddr: string, now: int, ticket: string, env: Env)
    returns (inserts: seq<TicketInsert>, t: string)
    ensures |inserts| <= MaxAttempts(cfg)
    ensures forall k :: 0 <= k < |inserts| ==> inserts[k] == InsertAt(cfg, env, user, ipaddr, now, k)
    ensures forall k :: 0 <= k < |inserts| - 1 ==> !env.accepts(k)
    ensures |inserts| == MaxAttempts(cfg) || (|inserts| > 0 && env.accepts(|inserts| - 1))
    ensures t == if |inserts| == 0 then ticket else env.random(|inserts| - 1)
  {
    inserts, t := [], ticket;
    var gotit := false;
    while !gotit && |inserts| < cfg.maxRetry
      invariant |inserts| <= MaxAttempts(cfg)
      invariant forall k :: 0 <= k < |inserts| ==> inserts[k] == InsertAt(cfg, env, user, ipaddr, now, k)
      invariant forall k :: 0 <= k < |inserts| - 1 ==> !env.accepts(k)
      invariant gotit <==> |inserts| > 0 && env.accepts(|inserts| - 1)
      invariant t == if |inserts| == 0 then ticket else env.random(|inserts| - 1)
      decreases cfg.maxRetry - |inserts|
    {
      t := env.random(|inserts|);
      gotit := env.accepts(|inserts|);
      inserts := inserts + [TicketInsert(user, t, ipaddr, now, Ttl(cfg))];
    }
  }

  // ---------------------------------------------------------------------------
  // isAuthentic and expireTicket

  /** The fields of the TnmsAuthReply isAuthentic fills in. */
  datatype Reply = Reply(result: Wire.AuthResult, reason: string, data: string)

  /** isAuthentic either returns, or dereferences a NULL user, or hands a
      NULL filter to createFilter. */
  datatype ReplyOutcome = Replied(authentic: bool, reply: Reply) | NullUser | NullFilter

  /** What findAuthFilter answers for a group: the filter queryAuthFilter
      cached for it, or None for NULL, which is what a group without
      authorization rows leaves behind. */
  type FilterLookup = nat -> Option<Filter>

  /** AuthDbThread::isAuthentic, the reply variant, as written: the ticket
      store's verdict sets AUTH_SUCCESS or AUTH_INVALID; an authentic user
      found in the cache gets the group filter, rendered by createFilter, as
      reason; then the user's config is read whether or not the user was
      found. */
  function IsAuthenticAsWritten(c: UserCache, user: string, authentic: bool,
                                filterOf: FilterLookup, reply: Reply): (r: ReplyOutcome)
    requires Sorted(c)
    ensures r.NullUser? <==> authentic && FindUser(c, user).None?
    ensures r.NullFilter? <==> authentic && FindUser(c, user).Some? && filterOf(FindUser(c, user).value.gid).None?
    ensures r.Replied? ==> r.authentic == authentic
  {
    var r1 := reply.(result := if authentic then Wire.AuthSuccess else Wire.AuthInvalid);
    if !authentic then Replied(false, r1)
    else match FindUser(c, user)
      case None => NullUser
      case Some(u) =>
        match filterOf(u.gid)
        case None => NullFilter
        case Some(f) =>
          var r2 := r1.(reason := CreateFilter(f));
          Replied(true, if u.config != "" then r2.(data := u.config) else r2)
  }

  /** A valid ticket for a user no longer cached (expireTicket evicts the
      user) reaches the NULL dereference. */
  lemma IsAuthenticNullUser(filterOf: FilterLookup, reply: Reply)
    ensures IsAuthenticAsWritten([], "alice", true, filterOf, reply) == NullUser
  {
  }

  /** A cached user whose group has no authorizations gets its NULL filter
      handed to createFilter. */
  lemma IsAuthenticNullFilter(u: User, reply: Reply)
    ensures IsAuthenticAsWritten([Entry("alice", u)], "alice", true, g => None, reply) == NullFilter
  {
    assert FindUser([Entry("alice", u)], "alice") == Some(u);
  }

  /** isAuthentic with the config read moved inside the user check and a
      NULL filter left out of the reply. The result is AUTH_SUCCESS iff the
      ticket store says authentic; only an authentic cached user adds the
      filter reason, when the group has a filter, and a non-empty config. */
  function IsAuthentic(c: UserCache, user: string, authentic: bool,
                       filterOf: FilterLookup, reply: Reply): (r: ReplyOutcome)
    requires Sorted(c)
    ensures r.Replied? && r.authentic == authentic
    ensures r.reply.result == if authentic then Wire.AuthSuccess else Wire.AuthInvalid
    ensures !(authentic && FindUser(c, user).Some?) ==>
      r.reply.reason == reply.reason && r.reply.data == reply.data
    ensures authentic && FindUser(c, user).Some? ==> var u := FindUser(c, user).value;
      (r.reply.reason == (if filterOf(u.gid).Some? then CreateFilter(filterOf(u.gid).value) else reply.reason)
       && r.reply.data == (if u.config != "" then u.config else reply.data))
  {
    var r1 := reply.(result := if authentic then Wire.AuthSuccess else Wire.AuthInvalid);
    if !authentic then Replied(false, r1)
    else match FindUser(c, user)
      case None => Replied(true, r1)
      case Some(u) =>
        var r2 := if filterOf(u.gid).Some? then r1.(reason := CreateFilter(filterOf(u.gid).value)) else r1;
        Replied(true, if u.config != "" then r2.(data := u.config) else r2)
  }

  /** Wherever the code as written returns, the corrected version returns
      the same reply. */
  lemma IsAuthenticAgrees(c: UserCache, user: string, authentic: bool,
                          filterOf: FilterLookup, reply: Reply)
    requires Sorted(c)
    requires IsAuthenticAsWritten(c, user, authentic, filterOf, reply).Replied?
    ensures IsAuthentic(c, user, authentic, filterOf, reply)
      == IsAuthenticAsWritten(c, user, authentic, filterOf, reply)
  {
  }

  /** AuthDbThread::expireTicket: the user leaves the cache, then the ticket
      store's expire verdict (a parameter) is returned. */
  function ExpireTicket(c: UserCache, user: string, expired: bool): (r: (bool, UserCache))
    requires Sorted(c)
    ensures r.0 == expired && Sorted(r.1)
    ensures FindUser(r.1, user).None?
    ensures forall x :: x != user ==> FindUser(r.1, x) == FindUser(c, x)
  {
    (expired, ClearUser(c, user))
  }

  /** After expireTicket a still-valid ticket for that user makes the
      isAuthentic as written dereference NULL. */
  lemma ExpireThenIsAuthentic(c: UserCache, user: string, filterOf: FilterLookup, reply: Reply)
    requires Sorted(c)
    ensures IsAuthenticAsWritten(ExpireTicket(c, user, true).1, user, true, filterOf, reply) == NullUser
  {
  }
}

=== FILE: base.dfy ===
/** Character helpers, the std::string ordering, and the ordered associative
    container that stands in for std::map / std::set throughout the model.

    A std::map<std::string, V> iterates its keys in ascending order, so it is
    modelled as a sequence of entries whose keys are strictly increasing under
    the same ordering std::string::operator< uses. */
module Base {

  datatype Option<T> = None | Some(value: T)

  /** isspace() in the C locale. */
  predicate IsSpace(c: char)
  {
    c == ' ' || c == '\t' || c == '\n' || c == '\U{000B}' || c == '\U{000C}' || c == '\r'
  }

  /** std::string::operator<: lexicographic comparison of character codes. */
  predicate Less(a: string, b: string)
  {
    if |a| == 0 then |b| > 0
    else if |b| == 0 then false
    else if a[0] != b[0] then a[0] < b[0]
    else Less(a[1..], b[1..])
  }

  lemma {:induction false} LessIrreflexive(a: string)
    ensures !Less(a, a)
  {
    if |a| > 0 {
      LessIrreflexive(a[1..]);
    }
  }

  lemma {:induction false} LessTransitive(a: string, b: string, c: string)
    requires Less(a, b) && Less(b, c)
    ensures Less(a, c)
  {
    if |a| > 0 && |b| > 0 && |c| > 0 && a[0] == b[0] && b[0] == c[0] {
      LessTransitive(a[1..], b[1..], c[1..]);
    }
  }

  /** Any two distinct strings are ordered one way or the other. */
  lemma {:induction false} LessTotal(a: string, b: string)
    requires a != b
    ensures Less(a, b) || Less(b, a)
  {
    if |a| > 0 && |b| > 0 && a[0] == b[0] {
      assert a == [a[0]] + a[1..] && b == [b[0]] + b[1..];
      LessTotal(a[1..], b[1..]);
    }
  }

  lemma {:induction false} LessAsymmetric(a: string, b: string)
    requires Less(a, b)
    ensures !Less(b, a)
  {
    if |a| > 0 && |b| > 0 && a[0] == b[0] {
      LessAsymmetric(a[1..], b[1..]);
    }
  }

  /** Index of the first occurrence of c in s (std::string::find_first_of with
      one character, or std::find over a vector), or None for npos / end(). */
  function FindFirst<T(==)>(s: seq<T>, c: T): (r: Option<nat>)
    ensures r.None? <==> c !in s
    ensures r.Some? ==> r.value < |s| && s[r.value] == c
    ensures r.Some? ==> forall j :: 0 <= j < r.value ==> s[j] != c
  {
    if |s| == 0 then None
    else if s[0] == c then Some(0)
    else
      var rest := FindFirst(s[1..], c);
      if rest.None? then None else Some(rest.value + 1)
  }

  /** The first c in a + t is where t starts, when a holds none and t
      starts with c. */
  lemma FindFirstAfter<T>(a: seq<T>, c: T, t: seq<T>)
    requires c !in a && |t| > 0 && t[0] == c
    ensures FindFirst(a + t, c) == Some(|a|)
  {
    var s := a + t;
    assert s[|a|] == c;
    assert s[..|a|] == a;
  }

  /** Leading whitespace removed. */
  function TrimLeft(s: string): (r: string)
    ensures |r| <= |s| && r == s[|s| - |r|..]
    ensures |r| > 0 ==> !IsSpace(r[0])
    ensures forall i :: 0 <= i < |s| - |r| ==> IsSpace(s[i])
  {
    if |s| > 0 && IsSpace(s[0]) then TrimLeft(s[1..]) else s
  }

  /** Trailing whitespace removed. */
  function TrimRight(s: string): (r: string)
    ensures |r| <= |s| && r == s[..|r|]
    ensures |r| > 0 ==> !IsSpace(r[|r| - 1])
    ensures forall i :: |r| <= i < |s| ==> IsSpace(s[i])
  {
    if |s| > 0 && IsSpace(s[|s| - 1]) then TrimRight(s[..|s| - 1]) else s
  }

  /** StringUtils::trim: whitespace removed at both ends (the helper itself is
      not part of this model; this is its usual meaning). */
  function Trim(s: string): string
  {
    TrimRight(TrimLeft(s))
  }

  lemma TrimShape(s: string)
    ensures |Trim(s)| > 0 ==> !IsSpace(Trim(s)[0]) && !IsSpace(Trim(s)[|Trim(s)| - 1])
    ensures |Trim(s)| <= |s|
  {
    var l := TrimLeft(s);
    var r := TrimRight(l);
    if |r| > 0 {
      assert r[0] == l[0];
    }
  }

  // ---------------------------------------------------------------------
  // Ordered string-keyed container (std::map / std::set<std::string>).

  datatype Entry<V> = Entry(key: string, val: V)

  /** Keys strictly increasing: the iteration order of a std::map. */
  predicate Sorted<V>(m: seq<Entry<V>>)
  {
    forall i, j :: 0 <= i < j < |m| ==> Less(m[i].key, m[j].key)
  }

  function Keys<V>(m: seq<Entry<V>>): set<string>
  {
    set i | 0 <= i < |m| :: m[i].key
  }

  /** std::map::find: the value stored under k, if any. */
  function Find<V>(m: seq<Entry<V>>, k: string): (r: Option<V>)
    ensures r.Some? <==> k in Keys(m)
    ensures r.Some? ==> exists i :: 0 <= i < |m| && m[i] == Entry(k, r.value)
  {
    if |m| == 0 then None
    else if m[0].key == k then Some(m[0].val)
    else
      var r := Find(m[1..], k);
      assert Keys(m) == {m[0].key} + Keys(m[1..]) by {
        forall x | x in Keys(m) ensures x in {m[0].key} + Keys(m[1..]) {
          var i :| 0 <= i < |m| && m[i].key == x;
          if i > 0 { assert m[1..][i - 1].key == x; }
        }
      }
      assert r.Some? ==> exists i :: 0 <= i < |m| && m[i] == Entry(k, r.value) by {
        if r.Some? {
          var i :| 0 <= i < |m[1..]| && m[1..][i] == Entry(k, r.value);
          assert m[i + 1] == Entry(k, r.value);
        }
      }
      r
  }

  lemma FindSorted<V>(m: seq<Entry<V>>, i: nat)
    requires Sorted(m) && i < |m|
    ensures Find(m, m[i].key) == Some(m[i].val)
  {
    if i > 0 {
      assert m[0].key != m[i].key by { LessIrreflexive(m[0].key); }
      FindSorted(m[1..], i - 1);
    }
  }

  lemma KeysCons<V>(e: Entry<V>, m: seq<Entry<V>>)
    ensures Keys([e] + m) == {e.key} + Keys(m)
  {
    var n := [e] + m;
    forall x | x in Keys(n) ensures x in {e.key} + Keys(m) {
      var i :| 0 <= i < |n| && n[i].key == x;
      if i > 0 { assert m[i - 1].key == x; }
    }
    forall x | x in Keys(m) ensures x in Keys(n) {
      var i :| 0 <= i < |m| && m[i].key == x;
      assert n[i + 1].key == x;
    }
    assert n[0].key == e.key;
  }

  /** A sorted map's first key is below every later key. */
  lemma SortedHeadBelow<V>(m: seq<Entry<V>>, k: string)
    requires Sorted(m) && |m| > 0 && k in Keys(m[1..])
    ensures Less(m[0].key, k)
  {
    var i :| 0 <= i < |m[1..]| && m[1..][i].key == k;
    assert m[i + 1].key == k;
  }

  /** The insertion a std::map performs for a key it does not hold yet. */
  function Put<V>(m: seq<Entry<V>>, k: string, v: V): (r: seq<Entry<V>>)
    requires Sorted(m) && k !in Keys(m)
    ensures Sorted(r)
    ensures Keys(r) == Keys(m) + {k}
    ensures |r| == |m| + 1
    ensures Find(r, k) == Some(v)
    ensures forall x :: x != k ==> Find(r, x) == Find(m, x)
  {
    if |m| == 0 || Less(k, m[0].key) then
      PutFront(m, k, v);
      [Entry(k, v)] + m
    else
      PutTailPre(m, k);
      var t := Put(m[1..], k, v);
      PutCons(m, k, v, t);
      [m[0]] + t
  }

  lemma PutFront<V>(m: seq<Entry<V>>, k: string, v: V)
    requires Sorted(m) && k !in Keys(m) && (|m| == 0 || Less(k, m[0].key))
    ensures Sorted([Entry(k, v)] + m)
    ensures Keys([Entry(k, v)] + m) == Keys(m) + {k}
    ensures Find([Entry(k, v)] + m, k) == Some(v)
    ensures forall x :: x != k ==> Find([Entry(k, v)] + m, x) == Find(m, x)
  {
    var r := [Entry(k, v)] + m;
    KeysCons(Entry(k, v), m);
    assert r[1..] == m;
    assert Sorted(r) by {
      forall i, j | 0 <= i < j < |r| ensures Less(r[i].key, r[j].key) {
        if i == 0 && j > 1 {
          LessTransitive(k, m[0].key, m[j - 1].key);
        } else if i > 0 {
          assert r[i] == m[i - 1] && r[j] == m[j - 1];
        }
      }
    }
  }

  lemma PutTailPre<V>(m: seq<Entry<V>>, k: string)
    requires Sorted(m) && k !in Keys(m) && |m| > 0 && !Less(k, m[0].key)
    ensures Sorted(m[1..]) && k !in Keys(m[1..]) && Less(m[0].key, k)
  {
    assert m == [m[0]] + m[1..];
    KeysCons(m[0], m[1..]);
    LessTotal(k, m[0].key);
  }

  lemma PutCons<V>(m: seq<Entry<V>>, k: string, v: V, t: seq<Entry<V>>)
    requires Sorted(m) && |m| > 0 && k !in Keys(m) && Less(m[0].key, k)
    requires Sorted(t) && Keys(t) == Keys(m[1..]) + {k} && Find(t, k) == Some(v)
    requires forall x :: x != k ==> Find(t, x) == Find(m[1..], x)
    ensures Sorted([m[0]] + t)
    ensures Keys([m[0]] + t) == Keys(m) + {k}
    ensures Find([m[0]] + t, k) == Some(v)
    ensures forall x :: x != k ==> Find([m[0]] + t, x) == Find(m, x)
  {
    var r := [m[0]] + t;
    assert m == [m[0]] + m[1..];
    KeysCons(m[0], m[1..]);
    KeysCons(m[0], t);
    assert r[1..] == t;
    assert m[0].key != k;
    assert Sorted(r) by {
      forall i, j | 0 <= i < j < |r| ensures Less(r[i].key, r[j].key) {
        if i == 0 {
          assert r[j] == t[j - 1];
          assert r[j].key in Keys(t);
          if r[j].key != k {
            SortedHeadBelow(m, r[j].key);
          }
        } else {
          assert r[i] == t[i - 1] && r[j] == t[j - 1];
        }
      }
    }
  }

  /** std::map::erase(key): the map without k. */
  function Remove<V>(m: seq<Entry<V>>, k: string): (r: seq<Entry<V>>)
    requires Sorted(m)
    ensures Sorted(r)
    ensures Keys(r) == Keys(m) - {k}
    ensures |r| == if k in Keys(m) then |m| - 1 else |m|
    ensures Find(r, k) == None
    ensures forall x :: x != k ==> Find(r, x) == Find(m, x)
  {
    if |m| == 0 then m
    else if m[0].key == k then
      RemoveFront(m);
      m[1..]
    else
      RemoveTailPre(m);
      var t := Remove(m[1..], k);
      RemoveCons(m, k, t);
      [m[0]] + t
  }

  lemma RemoveTailPre<V>(m: seq<Entry<V>>)
    requires Sorted(m) && |m| > 0
    ensures Sorted(m[1..])
  {
  }

  lemma RemoveFront<V>(m: seq<Entry<V>>)
    requires Sorted(m) && |m| > 0
    ensures Keys(m[1..]) == Keys(m) - {m[0].key}
    ensures |m[1..]| == |m| - 1 && m[0].key in Keys(m)
    ensures Find(m[1..], m[0].key) == None
    ensures forall x :: x != m[0].key ==> Find(m[1..], x) == Find(m, x)
  {
    var k := m[0].key;
    assert m == [m[0]] + m[1..];
    KeysCons(m[0], m[1..]);
    assert k !in Keys(m[1..]) by {
      if k in Keys(m[1..]) {
        SortedHeadBelow(m, k);
        LessIrreflexive(k);
      }
    }
  }

  lemma RemoveCons<V>(m: seq<Entry<V>>, k: string, t: seq<Entry<V>>)
    requires Sorted(m) && |m| > 0 && m[0].key != k
    requires Sorted(t) && Keys(t) == Keys(m[1..]) - {k} && Find(t, k) == None
    requires |t| == if k in Keys(m[1..]) then |m| - 2 else |m| - 1
    requires forall x :: x != k ==> Find(t, x) == Find(m[1..], x)
    ensures Sorted([m[0]] + t)
    ensures Keys([m[0]] + t) == Keys(m) - {k}
    ensures |[m[0]] + t| == if k in Keys(m) then |m| - 1 else |m|
    ensures Find([m[0]] + t, k) == None
    ensures forall x :: x != k ==> Find([m[0]] + t, x) == Find(m, x)
  {
    var r := [m[0]] + t;
    assert m == [m[0]] + m[1..];
    KeysCons(m[0], m[1..]);
    KeysCons(m[0], t);
    assert r[1..] == t;
    assert Sorted(r) by {
      forall i, j | 0 <= i < j < |r| ensures Less(r[i].key, r[j].key) {
        if i == 0 {
          assert r[j] == t[j - 1];
          assert r[j].key in Keys(t);
          SortedHeadBelow(m, r[j].key);
        } else {
          assert r[i] == t[i - 1] && r[j] == t[j - 1];
        }
      }
    }
  }

  /** The two halves of a sorted concatenation are sorted, and every key of
      the first sorts below every key of the second. */
  lemma SortedSplit<V>(a: seq<Entry<V>>, b: seq<Entry<V>>)
    requires Sorted(a + b)
    ensures Sorted(a) && Sorted(b)
    ensures forall i, j :: 0 <= i < |a| && 0 <= j < |b| ==> Less(a[i].key, b[j].key)
  {
    var ab := a + b;
    forall i, j | 0 <= i < j < |a| ensures Less(a[i].key, a[j].key) {
      assert ab[i] == a[i] && ab[j] == a[j];
    }
    forall i, j | 0 <= i < j < |b| ensures Less(b[i].key, b[j].key) {
      assert ab[|a| + i] == b[i] && ab[|a| + j] == b[j];
    }
    forall i, j | 0 <= i < |a| && 0 <= j < |b| ensures Less(a[i].key, b[j].key) {
      assert ab[i] == a[i] && ab[|a| + j] == b[j];
    }
  }

  /** A key above every key of a sorted map is not among them. */
  lemma AboveAllAbsent<V>(m: seq<Entry<V>>, k: string)
    requires forall i :: 0 <= i < |m| ==> Less(m[i].key, k)
    ensures k !in Keys(m)
  {
    if k in Keys(m) {
      var i :| 0 <= i < |m| && m[i].key == k;
      LessIrreflexive(k);
    }
  }

  /** Putting a key above every key already present appends it. */
  lemma {:induction false} PutAtEnd<V>(m: seq<Entry<V>>, k: string, v: V)
    requires Sorted(m)
    requires forall i :: 0 <= i < |m| ==> Less(m[i].key, k)
    ensures k !in Keys(m)
    ensures Put(m, k, v) == m + [Entry(k, v)]
    decreases |m|
  {
    AboveAllAbsent(m, k);
    if |m| > 0 {
      LessAsymmetric(m[0].key, k);
      PutTailPre(m, k);
      PutAtEnd(m[1..], k, v);
      assert Put(m, k, v) == [m[0]] + Put(m[1..], k, v);
      ConsSnoc(m, Entry(k, v));
    }
  }

  /** Splitting off the head of s and putting it back. Kept apart from any
      ordering facts, which would make the solver's search explode. */
  lemma ConsAppend<T>(a: seq<T>, s: seq<T>)
    requires |s| > 0
    ensures a + [s[0]] + s[1..] == a + s
  {
    assert [s[0]] + s[1..] == s;
  }

  lemma ConsSnoc<T>(s: seq<T>, x: T)
    requires |s| > 0
    ensures [s[0]] + (s[1..] + [x]) == s + [x]
  {
    assert [s[0]] + s[1..] == s;
  }

  lemma Assoc<T>(a: seq<T>, b: seq<T>, c: seq<T>)
    ensures a + b + c == a + (b + c)
  {
  }

  /** A slice is its first element followed by the rest of it. */
  lemma SliceCons<T>(s: seq<T>, a: nat, b: nat)
    requires a < b <= |s|
    ensures s[a..b] == [s[a]] + s[a + 1..b]
  {
    assert s[a..b][1..] == s[a + 1..b];
  }
}

=== FILE: cidr.dfy ===
/** CidrUtils: IPv4 prefix arithmetic in the prefix notation of section 3.1
    of RFC 4632.

    An ipv4addr_t holds an address in network byte order; here it is the
    32-bit value whose most significant byte is the first octet, so the
    source's htonl(mask) is simply the mask with the top mb bits set, and the
    first byte in memory is the top byte. bitsToMask is the exception: it
    applies no htonl, and BitsToMask below is the host-order number. Prefix lengths are uint8_t, bv8
    here. The libc conversions inet_pton and inet_ntop are not part of this
    model and are parameters, as is StringUtils::fromString<uint16_t>; the
    Prefix class is not part of this model either, and a prefix is an address
    and a length. */
module Cidr {
  import opened Base

  const MAXMASKLEN: bv8 := 32

  datatype Prefix = Prefix(addr: bv32, len: bv8)

  // ---------------------------------------------------------------------------
  // Masks

  /** Bit i of x, counted from the least significant. */
  predicate Bit(x: bv32, i: bv8)
    requires i < 32
  {
    (x >> i) & 1 == 1
  }

  /** 0xffffffff shifted right and back left by 32 - mb. A shift count of
      32 leaves no bit set, which is the /0 mask. */
  function Mask(mb: bv8): bv32
    requires mb <= 32
  {
    (0xffff_ffff as bv32 >> (32 - mb)) << (32 - mb)
  }

  lemma MaskBit(mb: bv8, i: bv8)
    requires mb <= 32 && i < 32
    ensures Bit(Mask(mb), i) <==> i >= 32 - mb
  {
  }

  /** CidrUtils::bitsToMask: the number with exactly its top mb bits set.
      Unlike toBasePrefix, the source returns this host-order number as an
      ipv4addr_t without htonl, so on a little-endian host the bytes in
      memory read as a different address from the one this module's
      convention gives it (for mb = 24, 0.255.255.255 rather than
      255.255.255.0). The value here is the number, not an address. The
      source's shift count 32 - mb is only defined for mb >= 1. */
  function BitsToMask(mb: bv8): (r: bv32)
    requires 1 <= mb <= 32
    ensures forall i: bv8 :: i < 32 ==> (Bit(r, i) <==> i >= 32 - mb)
  {
    var m := Mask(mb);
    forall i: bv8 | i < 32 ensures Bit(m, i) <==> i >= 32 - mb { MaskBit(mb, i); }
    m
  }

  /** CidrUtils::toBasePrefix: zero for a length beyond 32, otherwise the
      address with every bit below the top mb cleared (ToBasePrefixBit). */
  function ToBasePrefix(addr: bv32, mb: bv8): (r: bv32)
    ensures mb > MAXMASKLEN ==> r == 0
    ensures r & addr == r
  {
    if mb > MAXMASKLEN then 0 else addr & Mask(mb)
  }

  /** Bit by bit, toBasePrefix keeps the top mb bits of the address and
      clears the rest. */
  lemma ToBasePrefixBit(addr: bv32, mb: bv8, i: bv8)
    requires mb <= MAXMASKLEN && i < 32
    ensures Bit(ToBasePrefix(addr, mb), i) <==> Bit(addr, i) && i >= 32 - mb
  {
  }

  /** toBasePrefix is idempotent. */
  lemma ToBasePrefixIdempotent(addr: bv32, mb: bv8)
    ensures ToBasePrefix(ToBasePrefix(addr, mb), mb) == ToBasePrefix(addr, mb)
  {
    if mb <= MAXMASKLEN {
      var m := Mask(mb);
      assert (addr & m) & m == addr & m;
    }
  }

  /** CidrUtils::isBasePrefix. */
  function IsBasePrefix(addr: bv32, mb: bv8): (r: bool)
    ensures r <==> ToBasePrefix(addr, mb) == addr
  {
    ToBasePrefix(addr, mb) == addr
  }

  lemma MaskClearsLow(addr: bv32, mb: bv8)
    requires mb <= MAXMASKLEN
    ensures addr & Mask(mb) == addr <==> addr << mb == 0
  {
  }

  /** An address is a base prefix of length mb <= 32 iff no bit below the
      top mb is set; beyond 32 only the zero address is one. */
  lemma BasePrefixLowBits(addr: bv32, mb: bv8)
    ensures mb <= MAXMASKLEN ==> (IsBasePrefix(addr, mb) <==> addr << mb == 0)
    ensures mb > MAXMASKLEN ==> (IsBasePrefix(addr, mb) <==> addr == 0)
  {
    if mb <= MAXMASKLEN { MaskClearsLow(addr, mb); }
  }

  /** What toBasePrefix returns is a base prefix of the same length. */
  lemma ToBasePrefixIsBase(addr: bv32, mb: bv8)
    ensures IsBasePrefix(ToBasePrefix(addr, mb), mb)
  {
    ToBasePrefixIdempotent(addr, mb);
  }

  /** CidrUtils::matchCidr: the prefix equals the address cut to the
      prefix's length. */
  function MatchCidr(p: Prefix, addr: bv32): (r: bool)
    ensures r ==> IsBasePrefix(p.addr, p.len)
  {
    var b := ToBasePrefix(addr, p.len);
    ToBasePrefixIsBase(addr, p.len);
    b == p.addr
  }

  /** A prefix of length up to 32 that matches an address agrees with it on
      each of the top len bits. */
  lemma MatchCidrTopBit(p: Prefix, addr: bv32, i: bv8)
    requires MatchCidr(p, addr) && p.len <= MAXMASKLEN && 32 - p.len <= i < 32
    ensures Bit(addr, i) <==> Bit(p.addr, i)
  {
    ToBasePrefixBit(addr, p.len, i);
  }

  /** A base prefix matches its own address, a prefix that is not a base
      prefix matches nothing, and matching only looks at the top len bits. */
  lemma MatchCidrLaws(p: Prefix, addr: bv32)
    ensures MatchCidr(p, p.addr) <==> IsBasePrefix(p.addr, p.len)
    ensures MatchCidr(p, addr) <==> MatchCidr(p, ToBasePrefix(addr, p.len))
  {
    ToBasePrefixIdempotent(addr, p.len);
  }

  // ---------------------------------------------------------------------------
  // The /0 mask on x86

  /** toBasePrefix as compiled for x86, where a 32-bit shift count is taken
      modulo 32: for mb = 0 the mask keeps every bit instead of none. */
  function ToBasePrefixX86(addr: bv32, mb: bv8): (r: bv32)
    ensures mb != 0 ==> r == ToBasePrefix(addr, mb)
    ensures mb == 0 ==> r == addr
  {
    if mb > MAXMASKLEN then 0
    else if mb == 0 then addr & 0xffff_ffff
    else addr & Mask(mb)
  }

  function MatchCidrX86(p: Prefix, addr: bv32): bool
  {
    p.addr == ToBasePrefixX86(addr, p.len)
  }

  /** The default route 0.0.0.0/0 matches 10.0.0.1 as intended, but not as
      compiled for x86. */
  lemma DefaultRouteX86()
    ensures !MatchCidrX86(Prefix(0, 0), 0x0a00_0001)
    ensures MatchCidr(Prefix(0, 0), 0x0a00_0001)
  {
    assert ToBasePrefix(0x0a00_0001, 0) == 0 by { assert Mask(0) == 0; }
  }

  /** With the intended /0 mask the default route matches every address. */
  lemma DefaultRouteMatchesAll(addr: bv32)
    ensures MatchCidr(Prefix(0, 0), addr)
  {
    assert Mask(0) == 0;
  }

  // ---------------------------------------------------------------------------
  // Octets and ranges

  function Pow2(n: nat): (r: nat)
    ensures r > 0
  {
    if n == 0 then 1 else 2 * Pow2(n - 1)
  }

  lemma {:induction false} Pow2Add(a: nat, b: nat)
    ensures Pow2(a + b) == Pow2(a) * Pow2(b)
    decreases a
  {
    if a > 0 {
      Pow2Add(a - 1, b);
      assert Pow2(a + b) == 2 * Pow2(a - 1 + b);
    }
  }

  /** CidrUtils::getCidrRange: the subnet octet position is one more than the
      number of whole octets in mb, and the range is 2 to the number of
      bits left in that octet. */
  method GetCidrRange(mb: bv8) returns (range: nat, pos: nat)
    ensures pos == 1 + mb as int / 8
    ensures range == Pow2(8 - mb as int % 8)
    ensures 2 <= range <= 256
  {
    var m := mb as int;
    pos := 1;
    while m >= 8
      invariant 0 <= m && m + 8 * (pos - 1) == mb as int
      decreases m
    {
      m := m - 8;
      pos := pos + 1;
    }
    range := Pow2(8 - m);
    Pow2Bounds(8 - m);
  }

  lemma {:induction false} Pow2Bounds(n: nat)
    requires 1 <= n <= 8
    ensures 2 <= Pow2(n) <= 256
  {
    Pow2Add(n, 8 - n);
    assert Pow2(8) == 256 by {
      assert Pow2(1) == 2 && Pow2(2) == 4 && Pow2(3) == 8 && Pow2(4) == 16;
      assert Pow2(5) == 32 && Pow2(6) == 64 && Pow2(7) == 128;
    }
  }

  /** The range times the size of the octets after the subnet octet is the
      number of addresses in a prefix of length mb. */
  lemma CidrRangeCountsBlock(mb: nat)
    requires mb < 32
    ensures Pow2(8 - mb % 8) * Pow2(8 * (4 - (1 + mb / 8))) == Pow2(32 - mb)
  {
    Pow2Add(8 - mb % 8, 8 * (4 - (1 + mb / 8)));
  }

  /** CidrUtils::subnetValue: the octet at position pos, 1 being the first
      octet; positions beyond 4 give 0. Position 0 would read before the
      octet array. */
  function SubnetValue(addr: bv32, pos: bv8): (r: bv8)
    requires pos >= 1
    ensures pos > 4 ==> r == 0
  {
    if pos > 4 then 0
    else ((addr >> (8 * (4 - pos))) & 0xff) as bv8
  }

  /** The four octets put back in order make the address. */
  lemma OctetsRecombine(addr: bv32)
    ensures (SubnetValue(addr, 1) as bv32 << 24) | (SubnetValue(addr, 2) as bv32 << 16)
      | (SubnetValue(addr, 3) as bv32 << 8) | SubnetValue(addr, 4) as bv32 == addr
  {
    assert SubnetValue(addr, 1) as bv32 == (addr >> 24) & 0xff;
    assert SubnetValue(addr, 2) as bv32 == (addr >> 16) & 0xff;
    assert SubnetValue(addr, 3) as bv32 == (addr >> 8) & 0xff;
    assert SubnetValue(addr, 4) as bv32 == addr & 0xff;
  }

  // ---------------------------------------------------------------------------
  // deAggregate

  /** CidrUtils::deAggregate as written. A prefix longer than mb or not a
      base prefix is refused with nothing appended. Otherwise
      2^(mb - len) prefixes of length mb are appended; each statement
      `octets[i] = octets[i]++` stores back the value read before the
      increment, so the octets never change and every appended prefix
      carries the original address. */
  function DeAggregate(p: Prefix, mb: bv8, v: seq<Prefix>): (r: (bool, seq<Prefix>))
    requires mb <= MAXMASKLEN
    ensures !r.0 <==> p.len > mb || !IsBasePrefix(p.addr, p.len)
    ensures !r.0 ==> r.1 == v
    ensures r.0 ==> |r.1| == |v| + Pow2((mb - p.len) as int) && r.1[..|v|] == v
    ensures r.0 ==> forall i :: |v| <= i < |r.1| ==> r.1[i].len == mb
  {
    if p.len > mb || !IsBasePrefix(p.addr, p.len) then (false, v)
    else (true, v + seq(Pow2((mb - p.len) as int), _ => Prefix(p.addr, mb)))
  }

  /** Splitting 10.0.0.0/23 into /24s yields 10.0.0.0/24 twice. */
  lemma DeAggregateRepeats()
    ensures DeAggregate(Prefix(0x0a00_0000, 23), 24, [])
      == (true, [Prefix(0x0a00_0000, 24), Prefix(0x0a00_0000, 24)])
  {
    assert Mask(23) == 0xffff_fe00;
    assert IsBasePrefix(0x0a00_0000, 23);
    assert Pow2(1) == 2;
    var x := Prefix(0x0a00_0000, 24);
    assert seq(2, _ => x) == [x, x];
  }

  // ---------------------------------------------------------------------------
  // StringToCidr

  /** StringToCidr's view of its helpers: inet_pton (None when it returns
      0 or -1) and StringUtils::fromString<uint16_t>. */
  datatype Parsers = Parsers(pton: string -> Option<bv32>, toU16: string -> bv16)

  /** CidrUtils::StringToCidr. Without '/' the whole string is the address
      and the length is 32; otherwise the address stops at the first '/'
      and the length is what follows it, replaced by 32 when outside 1..32.
      An address that fails to parse gives 0 and leaves pfx as it was. */
  function StringToCidr(s: string, pfx: Prefix, ps: Parsers): (r: (int, Prefix))
    ensures r.0 == 0 || r.0 == 1
    ensures r.0 == 0 <==> ps.pton(if '/' in s then s[..FindFirst(s, '/').value] else s).None?
    ensures r.0 == 0 ==> r.1 == pfx
    ensures r.0 == 1 ==> (1 <= r.1.len <= 32
      && Some(r.1.addr) == ps.pton(if '/' in s then s[..FindFirst(s, '/').value] else s))
    ensures r.0 == 1 && '/' !in s ==> r.1.len == 32
    ensures r.0 == 1 && '/' in s ==> var n := ps.toU16(s[FindFirst(s, '/').value + 1..]) as int;
      r.1.len as int == if 1 <= n <= 32 then n else 32
  {
    match FindFirst(s, '/')
    case None =>
      (match ps.pton(s)
       case None => (0, pfx)
       case Some(a) => (1, Prefix(a, 32)))
    case Some(i) =>
      match ps.pton(s[..i])
      case None => (0, pfx)
      case Some(a) =>
        var n := ps.toU16(s[i + 1..]);
        var mb: bv16 := if n < 1 || n > 32 then 32 else n;
        (1, Prefix(a, mb as bv8))
  }

  /** The decimal digits "%u" prints. */
  function Decimal(n: nat): (r: string)
    ensures |r| > 0 && '/' !in r
    decreases n
  {
    var d := [(('0' as int) + n % 10) as char];
    if n < 10 then d else Decimal(n / 10) + d
  }

  /** CidrUtils::toString(addr, mb): "address/length", with inet_ntop a
      parameter. */
  function CidrToString(p: Prefix, ntop: bv32 -> string): string
  {
    ntop(p.addr) + "/" + Decimal(p.len as int)
  }

  /** A prefix of length 1..32 printed by toString is read back by
      StringToCidr, as long as inet_pton undoes inet_ntop and
      fromString reads back the printed length. */
  lemma CidrStringRoundTrip(p: Prefix, ntop: bv32 -> string, ps: Parsers, old_: Prefix)
    requires 1 <= p.len <= 32 && '/' !in ntop(p.addr)
    requires ps.pton(ntop(p.addr)) == Some(p.addr)
    requires ps.toU16(Decimal(p.len as int)) == p.len as bv16
    ensures StringToCidr(CidrToString(p, ntop), old_, ps) == (1, p)
  {
    var a, t := ntop(p.addr), Decimal(p.len as int);
    var s := CidrToString(p, ntop);
    assert s == a + ("/" + t);
    FindFirstAfter(a, '/', "/" + t);
    assert s[..|a|] == a;
    assert s[|a| + 1..] == t;
  }

  /** An explicit "/0" becomes a /32. */
  lemma SlashZeroIsHost(a: string, ps: Parsers, old_: Prefix)
    requires '/' !in a && ps.pton(a).Some? && ps.toU16("0") == 0
    ensures StringToCidr(a + "/0", old_, ps) == (1, Prefix(ps.pton(a).value, 32))
  {
    FindFirstAfter(a, '/', "/0");
    assert (a + "/0")[..|a|] == a;
    assert (a + "/0")[|a| + 1..] == "0";
  }
}

=== FILE: client.dfy ===
/** TnmsClient: the per-client queues of pending adds, removes and updates,
    the send() that drains them, and the login names AuthRequestHandler
    composes.

    The pending adds and updates are std::sets of tree nodes, the pending
    removes a std::set of element names. A tree node is identified here by
    its element name, which is unique within the tree, and each set is an
    ordered set of names (the Base container with unit values). The source
    orders the node sets by pointer value; the model uses name order
    instead. That order decides which records send() hands over before the
    first rejection and which stay queued, so what is stated about those
    holds for name order. What send() reads from a node at send time is
    whether its erase flag is up: the set of flagged names is a parameter.
    TnmsSocket::sendMessage is a budget: during one send() the transport
    accepts that many messages and rejects the next one. The two
    TnmsSocket::send() flushes are parameters. */
module Client {
  import opened Base
  import Wire

  type NameSet = seq<Entry<()>>

  datatype Queues = Queues(adds: NameSet, updates: NameSet, removes: NameSet)

  predicate Valid(q: Queues)
  {
    Sorted(q.adds) && Sorted(q.updates) && Sorted(q.removes)
  }

  /** std::set::insert: no change when the name is already present. */
  function SetInsert(s: NameSet, k: string): (r: NameSet)
    requires Sorted(s)
    ensures Sorted(r) && Keys(r) == Keys(s) + {k}
  {
    if k in Keys(s) then s else Put(s, k, ())
  }

  /** TnmsClient::queueAdd: a pending remove of the same element is cancelled
      and nothing is queued; otherwise the node joins the pending adds. */
  function QueueAdd(q: Queues, name: string): (r: Queues)
    requires Valid(q)
    ensures Valid(r) && r.updates == q.updates
    ensures name in Keys(q.removes) ==>
      r.adds == q.adds && Keys(r.removes) == Keys(q.removes) - {name}
    ensures name !in Keys(q.removes) ==>
      r.removes == q.removes && Keys(r.adds) == Keys(q.adds) + {name}
  {
    if name in Keys(q.removes) then q.(removes := Remove(q.removes, name))
    else q.(adds := SetInsert(q.adds, name))
  }

  /** TnmsClient::queueRemove: the node leaves the pending adds and updates
      and its name joins the pending removes. */
  function QueueRemove(q: Queues, name: string): (r: Queues)
    requires Valid(q)
    ensures Valid(r)
    ensures Keys(r.adds) == Keys(q.adds) - {name}
    ensures Keys(r.updates) == Keys(q.updates) - {name}
    ensures Keys(r.removes) == Keys(q.removes) + {name}
  {
    Queues(Remove(q.adds, name), Remove(q.updates, name), SetInsert(q.removes, name))
  }

  /** TnmsClient::queueUpdate: the node joins the pending updates, whether or
      not it is still waiting to be added. */
  function QueueUpdate(q: Queues, name: string): (r: Queues)
    requires Valid(q)
    ensures Valid(r) && r.adds == q.adds && r.removes == q.removes
    ensures Keys(r.updates) == Keys(q.updates) + {name}
  {
    q.(updates := SetInsert(q.updates, name))
  }

  /** No element is pending both as an add and as a remove. */
  predicate Disjoint(q: Queues)
  {
    Keys(q.adds) !! Keys(q.removes)
  }

  /** All three queue operations keep adds and removes apart. */
  lemma QueuesStayDisjoint(q: Queues, name: string)
    requires Valid(q) && Disjoint(q)
    ensures Disjoint(QueueAdd(q, name))
    ensures Disjoint(QueueRemove(q, name))
    ensures Disjoint(QueueUpdate(q, name))
  {
  }

  /** Removing an element and adding it back cancels out: it is pending
      neither as an add nor as a remove, and no longer as an update. */
  lemma RemoveThenAddCancels(q: Queues, name: string)
    requires Valid(q)
    ensures var r := QueueAdd(QueueRemove(q, name), name);
      && Keys(r.adds) == Keys(q.adds) - {name}
      && Keys(r.removes) == Keys(q.removes) - {name}
      && Keys(r.updates) == Keys(q.updates) - {name}
  {
    var p := QueueRemove(q, name);
    assert name in Keys(p.removes);
  }

  // ---------------------------------------------------------------------------
  // send()

  /** The names in s whose nodes are not flagged for erasure, in order. */
  function Live(s: NameSet, erased: set<string>): (r: seq<string>)
    ensures |r| <= |s|
  {
    if |s| == 0 then []
    else
      (if s[0].key in erased then [] else [s[0].key]) + Live(s[1..], erased)
  }

  /** One drain loop of send(): what is left of the set, the names handed to
      sendMessage in order, and the last sendMessage result (true if none). */
  datatype Phase = Phase(rest: NameSet, sent: seq<string>, queued: bool)

  /** A drain loop of send() over s, with a transport that takes budget more
      messages: names in erased are dropped unsent, accepted names are
      dropped, and the first rejected name stops the loop with it and
      everything after it kept. */
  function Drain(s: NameSet, erased: set<string>, budget: nat): (r: Phase)
    ensures |r.rest| <= |s| && r.rest == s[|s| - |r.rest|..]
    ensures r.queued <==> |r.rest| == 0
    ensures r.queued ==> |r.sent| <= budget
    ensures !r.queued ==> |r.sent| == budget + 1 && r.rest[0].key !in erased
    ensures !r.queued ==> r.sent[budget] == r.rest[0].key
    decreases |s|
  {
    if |s| == 0 then Phase(s, [], true)
    else if s[0].key in erased then
      var t := Drain(s[1..], erased, budget);
      assert s[1..][|s| - 1 - |t.rest|..] == s[|s| - |t.rest|..];
      t
    else if budget > 0 then
      var t := Drain(s[1..], erased, budget - 1);
      assert s[1..][|s| - 1 - |t.rest|..] == s[|s| - |t.rest|..];
      Phase(t.rest, [s[0].key] + t.sent, t.queued)
    else
      Phase(s, [s[0].key], false)
  }

  /** The names a drain loop hands over are the live names of the set in
      order, up to the refused one; the live names after it are still
      pending. */
  lemma {:induction false} DrainSendsLive(s: NameSet, erased: set<string>, budget: nat)
    ensures SendsLive(s, erased, budget)
    decreases |s|
  {
    if |s| == 0 {
      assert Drain(s, erased, budget) == Phase(s, [], true);
    } else if s[0].key in erased {
      DrainSendsLive(s[1..], erased, budget);
      SkipStep(s, erased, budget);
    } else if budget > 0 {
      DrainSendsLive(s[1..], erased, budget - 1);
      TakeStep(s, erased, budget);
    } else {
      assert Drain(s, erased, budget) == Phase(s, [s[0].key], false);
      assert Live(s, erased) == [s[0].key] + Live(s[1..], erased);
    }
  }

  predicate SendsLive(s: NameSet, erased: set<string>, budget: nat)
  {
    var r := Drain(s, erased, budget);
    && (r.queued ==> r.sent == Live(s, erased))
    && (!r.queued ==> r.sent + Live(r.rest[1..], erased) == Live(s, erased))
  }

  lemma SkipStep(s: NameSet, erased: set<string>, budget: nat)
    requires |s| > 0 && s[0].key in erased && SendsLive(s[1..], erased, budget)
    ensures SendsLive(s, erased, budget)
  {
    assert Drain(s, erased, budget) == Drain(s[1..], erased, budget);
    assert Live(s, erased) == [] + Live(s[1..], erased) == Live(s[1..], erased);
  }

  lemma TakeStep(s: NameSet, erased: set<string>, budget: nat)
    requires |s| > 0 && s[0].key !in erased && budget > 0 && SendsLive(s[1..], erased, budget - 1)
    ensures SendsLive(s, erased, budget)
  {
    var t := Drain(s[1..], erased, budget - 1);
    var k := s[0].key;
    assert Drain(s, erased, budget) == Phase(t.rest, [k] + t.sent, t.queued);
    assert Live(s, erased) == [k] + Live(s[1..], erased);
    if !t.queued {
      Assoc([k], t.sent, Live(t.rest[1..], erased));
    }
  }

  /** What one send() did: its return value, the queues afterwards, the names
      handed to sendMessage by each loop, and whether setLastRecord ran. */
  datatype SendResult = SendResult(
    ret: int, q: Queues,
    addsSent: seq<string>, removesSent: seq<string>, updatesSent: seq<string>,
    lastRecord: bool)

  function Size(q: Queues): nat
  {
    |q.adds| + |q.removes| + |q.updates|
  }

  /** TnmsClient::send: flush, drain the adds, then the removes if no add is
      left, then the updates if no remove is left either, and flush again.
      The removes carry no erase flag. Since the loops stop for good at the
      first message the transport refuses, the transport is summed up by how
      many messages it takes before refusing one: budget. */
  function Send(q: Queues, erased: set<string>, budget: nat, flush1: int, flush2: int): (r: SendResult)
    requires Valid(q)
    ensures Valid(r.q)
    ensures |r.q.adds| <= |q.adds| && |r.q.removes| <= |q.removes| && |r.q.updates| <= |q.updates|
    ensures flush1 < 0 ==> r == SendResult(flush1, q, [], [], [], false)
    ensures flush1 >= 0 ==> r.ret == if flush2 < 0 then flush2 else flush1 + flush2
    ensures r.lastRecord <==> |q.adds| > 0 && |r.q.adds| == 0
    ensures |r.q.adds| > 0 ==> r.q.removes == q.removes && r.removesSent == []
    ensures |r.q.adds| > 0 || |r.q.removes| > 0 ==> r.q.updates == q.updates && r.updatesSent == []
  {
    if flush1 < 0 then SendResult(flush1, q, [], [], [], false)
    else
      var a := Drain(q.adds, erased, budget);
      var rm := if a.queued && |a.rest| == 0 then Drain(q.removes, {}, budget - |a.sent|)
                else Phase(q.removes, [], a.queued);
      var up := if rm.queued && |rm.rest| == 0 then Drain(q.updates, erased, budget - |a.sent| - |rm.sent|)
                else Phase(q.updates, [], rm.queued);
      SuffixSorted(q.adds, |q.adds| - |a.rest|);
      SuffixSorted(q.removes, |q.removes| - |rm.rest|);
      SuffixSorted(q.updates, |q.updates| - |up.rest|);
      SendResult(if flush2 < 0 then flush2 else flush1 + flush2,
                 Queues(a.rest, up.rest, rm.rest),
                 a.sent, rm.sent, up.sent,
                 |q.adds| > 0 && |a.rest| == 0)
  }

  /** What send() leaves of each queue is a tail of it: it only ever drops
      entries from the front, in the set's own order. */
  lemma SendKeepsTails(q: Queues, erased: set<string>, budget: nat, flush1: int, flush2: int)
    requires Valid(q)
    ensures var r := Send(q, erased, budget, flush1, flush2);
      && r.q.adds == q.adds[|q.adds| - |r.q.adds|..]
      && r.q.removes == q.removes[|q.removes| - |r.q.removes|..]
      && r.q.updates == q.updates[|q.updates| - |r.q.updates|..]
  {
  }

  lemma SuffixSorted<V>(m: seq<Entry<V>>, i: nat)
    requires Sorted(m) && i <= |m|
    ensures Sorted(m[i..])
  {
    assert forall a, b :: 0 <= a < b < |m[i..]| ==> m[i..][a] == m[i + a] && m[i..][b] == m[i + b];
  }

  /** A send() hands the transport at most one message more than it takes,
      and leaves something queued exactly when the transport refused one. */
  lemma SendStopsAtFirstReject(q: Queues, erased: set<string>, budget: nat, flush1: int, flush2: int)
    requires Valid(q) && flush1 >= 0
    ensures var r := Send(q, erased, budget, flush1, flush2);
      var n := |r.addsSent| + |r.removesSent| + |r.updatesSent|;
      && n <= budget + 1
      && (Size(r.q) > 0 <==> n == budget + 1)
  {
  }

  /** With a transport that takes every message, send() empties all three
      queues: the live adds go out in order, then every remove, then the live
      updates, and setLastRecord runs iff there were adds. */
  lemma SendAllAccepted(q: Queues, erased: set<string>, budget: nat, flush1: int, flush2: int)
    requires Valid(q) && flush1 >= 0 && budget >= Size(q)
    ensures var r := Send(q, erased, budget, flush1, flush2);
      && r.q == Queues([], [], [])
      && r.addsSent == Live(q.adds, erased)
      && r.removesSent == Live(q.removes, {})
      && r.updatesSent == Live(q.updates, erased)
      && r.lastRecord == (|q.adds| > 0)
  {
    var a := Drain(q.adds, erased, budget);
    DrainSendsLive(q.adds, erased, budget);
    var rm := Drain(q.removes, {}, budget - |a.sent|);
    DrainSendsLive(q.removes, {}, budget - |a.sent|);
    var up := Drain(q.updates, erased, budget - |a.sent| - |rm.sent|);
    DrainSendsLive(q.updates, erased, budget - |a.sent| - |rm.sent|);
  }

  // ---------------------------------------------------------------------------
  // AuthRequestHandler

  /** What the handler does with the composed names: hand a request to the
      auth service, or, with no auth handle, answer the peer itself. */
  datatype AuthAction =
    | Forward(name: string, key: string)
    | Reply(name: string, result: Wire.AuthResult)

  datatype Login = Login(login: string, authname: string, action: AuthAction)

  /** The account an agent login names when it has no "name:" prefix. */
  const DefaultAgent := "tnmsagent"

  /** TnmsClient::AuthRequestHandler. An agent's element name "a:b" is split at
      its first colon into the account a and the login b (with no colon the
      account is tnmsagent and the login is the whole name) and the auth name
      is "a@addr:b"; a client's auth name is "login@host:". */
  function AuthRequestHandler(isAgent: bool, elementName: string, agentKey: string,
                              addr: string, host: string, hasAuth: bool): (r: Login)
    ensures isAgent ==> exists account: string ::
      r.authname == account + "@" + addr + ":" + r.login
      && (':' in elementName ==> ':' !in account && account + ":" + r.login == elementName)
      && (':' !in elementName ==> account == DefaultAgent && r.login == elementName)
    ensures !isAgent ==> r.login == elementName && r.authname == elementName + "@" + host + ":"
    ensures hasAuth ==> r.action == Forward(r.authname, if isAgent then "" else agentKey)
    ensures !hasAuth ==> r.action == Reply(r.authname, Wire.AuthSuccess)
  {
    var (login, authname) :=
      if isAgent then
        match FindFirst(elementName, ':')
        case None => (elementName, DefaultAgent + "@" + addr + ":" + elementName)
        case Some(c) =>
          var account := elementName[..c];
          assert account + ":" + elementName[c + 1..] == elementName by {
            assert elementName == elementName[..c] + [elementName[c]] + elementName[c + 1..];
          }
          (elementName[c + 1..], account + "@" + addr + ":" + elementName[c + 1..])
      else (elementName, elementName + "@" + host + ":");
    var key := if isAgent then "" else agentKey;
    Login(login, authname, if hasAuth then Forward(authname, key) else Reply(authname, Wire.AuthSuccess))
  }
}

=== FILE: fw_zones.dfy ===
/** FwZones: the firewall generator's zone file and zone map.

    A zone file line, once trimmed, is a comment (starting with '#' or ';'),
    a zone definition "name = dev1 : dev2 : ...", or device information. The
    zone map is a std::map from zone name to FwZone, the Base association
    list here. parse reads the lines of a file; the file is a parameter,
    None when it cannot be opened. A device-information line goes to
    parseDeviceData. There the else meant for "device found" belongs to the
    debug test, so with debugging off (the constructors' default) a device
    that is found is ignored, and a device block "name {" whose name
    resolveDevice cannot find makes parseInterfaces read the following lines
    up to the '}' line through a NULL device: the zone definitions among
    them are lost, and a port line among them dereferences NULL. The port
    records themselves are not part of this model. StringUtils::trim and
    StringUtils::startsWith are not part of this model either and have their
    usual meaning. */
module FwZones {
  import opened Base

  /** FwZone: a zone name and its devices in file order; a device is its
      name. */
  datatype Zone = Zone(zoneName: string, devices: seq<string>)

  type ZoneMap = seq<Entry<Zone>>

  // ---------------------------------------------------------------------------
  // Zone map operations

  /** FwZones::exists. */
  function Exists(m: ZoneMap, z: string): (r: bool)
    ensures r <==> Find(m, z).Some?
  {
    z in Keys(m)
  }

  /** FwZones::find: the zone stored under z, or None for NULL. */
  function FindZone(m: ZoneMap, z: string): (r: Option<Zone>)
    ensures r.Some? <==> Exists(m, z)
    ensures r.Some? ==> exists i :: 0 <= i < |m| && m[i] == Entry(z, r.value)
  {
    Find(m, z)
  }

  /** FwZones::insert: a zone name already present is refused and the map is
      unchanged; otherwise the zone is added under that name. */
  function Insert(m: ZoneMap, z: string, zone: Zone): (r: (bool, ZoneMap))
    requires Sorted(m)
    ensures Sorted(r.1)
    ensures r.0 <==> !Exists(m, z)
    ensures !r.0 ==> r.1 == m
    ensures r.0 ==> (Keys(r.1) == Keys(m) + {z} && FindZone(r.1, z) == Some(zone)
      && forall x :: x != z ==> FindZone(r.1, x) == FindZone(m, x))
  {
    if Exists(m, z) then (false, m) else (true, Put(m, z, zone))
  }

  /** FwZones::remove: reports whether the zone exists and erases nothing. */
  function RemoveZone(m: ZoneMap, z: string): (r: (bool, ZoneMap))
    ensures r.0 <==> Exists(m, z)
    ensures r.1 == m
  {
    (Exists(m, z), m)
  }

  /** FwZones::clear. */
  function Clear(m: ZoneMap): (r: ZoneMap)
    ensures Keys(r) == {} && Sorted(r)
  {
    []
  }

  /** FwZones::size: the number of entries, which is the number of distinct
      zone names. */
  function Size(m: ZoneMap): (r: nat)
    requires Sorted(m)
    ensures r == |Keys(m)|
  {
    SortedKeysCount(m);
    |m|
  }

  lemma {:induction false} SortedKeysCount<V>(m: seq<Entry<V>>)
    requires Sorted(m)
    ensures |Keys(m)| == |m|
    decreases |m|
  {
    if |m| > 0 {
      RemoveTailPre(m);
      SortedKeysCount(m[1..]);
      KeysCons(m[0], m[1..]);
      assert [m[0]] + m[1..] == m;
      if m[0].key in Keys(m[1..]) {
        SortedHeadBelow(m, m[0].key);
        LessIrreflexive(m[0].key);
      }
    }
  }

  // ---------------------------------------------------------------------------
  // parseZoneData

  /** FwZones::parseZoneData: each piece before a ':' becomes a device,
      trimmed; what follows the last ':' becomes the last device, trimmed,
      if it is not empty before trimming. */
  function ParseZoneData(ln: string): (r: seq<string>)
    ensures ':' !in ln ==> r == (if |ln| > 0 then [Trim(ln)] else [])
    ensures ':' in ln ==> |r| > 0 && r[0] == Trim(ln[..FindFirst(ln, ':').value])
    decreases |ln|
  {
    match FindFirst(ln, ':')
    case None => if |ln| > 0 then [Trim(ln)] else []
    case Some(i) => [Trim(ln[..i])] + ParseZoneData(ln[i + 1..])
  }

  /** Device names joined by ':'. */
  function JoinColon(names: seq<string>): string
    requires |names| > 0
    decreases |names|
  {
    if |names| == 1 then names[0] else names[0] + ":" + JoinColon(names[1..])
  }

  /** A device name the zone file can carry: non-empty, no ':', and no
      whitespace at either end. */
  predicate DeviceName(n: string)
  {
    |n| > 0 && ':' !in n && !IsSpace(n[0]) && !IsSpace(n[|n| - 1])
  }

  lemma TrimKeeps(n: string)
    requires DeviceName(n)
    ensures Trim(n) == n
  {
    TrimPlain(n);
  }

  /** Joining device names with ':' and parsing the result gives the names
      back, in order. */
  lemma {:induction false} ZoneDataRoundTrip(names: seq<string>)
    requires |names| > 0
    requires forall i :: 0 <= i < |names| ==> DeviceName(names[i])
    ensures ParseZoneData(JoinColon(names)) == names
    decreases |names|
  {
    var a := names[0];
    assert DeviceName(a);
    if |names| == 1 {
      assert JoinColon(names) == a;
      TrimKeeps(a);
    } else {
      var rest := names[1..];
      var t := JoinColon(rest);
      forall i | 0 <= i < |rest| ensures DeviceName(rest[i]) {
        assert rest[i] == names[i + 1];
      }
      ZoneDataRoundTrip(rest);
      assert ParseZoneData(JoinColon(names)) == [a] + rest by {
        assert JoinColon(names) == a + ":" + t;
        ZoneDataSplit(a, t);
        TrimKeeps(a);
      }
      assert names == [a] + rest;
    }
  }

  /** The piece before the first ':' is the first device. */
  lemma ZoneDataSplit(a: string, t: string)
    requires ':' !in a
    ensures ParseZoneData(a + ":" + t) == [Trim(a)] + ParseZoneData(t)
  {
    var s := a + ":" + t;
    assert s == a + (":" + t);
    FindFirstAfter(a, ':', ":" + t);
    assert s[..|a|] == a;
    assert s[|a| + 1..] == t;
  }

  /** Each ':' yields one device, and the remainder one more iff it is not
      empty. */
  function Colons(s: string): nat
    decreases |s|
  {
    if |s| == 0 then 0 else (if s[0] == ':' then 1 else 0) + Colons(s[1..])
  }

  lemma ColonsSplit(a: string, b: string)
    ensures Colons(a + b) == Colons(a) + Colons(b)
    decreases |a|
  {
    if |a| > 0 {
      assert (a + b)[0] == a[0];
      assert (a + b)[1..] == a[1..] + b;
      ColonsSplit(a[1..], b);
    } else {
      assert a + b == b;
    }
  }

  lemma NoColons(a: string)
    requires ':' !in a
    ensures Colons(a) == 0
    decreases |a|
  {
    if |a| > 0 { NoColons(a[1..]); }
  }

  lemma ColonCount(ln: string, i: nat)
    requires FindFirst(ln, ':') == Some(i)
    ensures Colons(ln) == 1 + Colons(ln[i + 1..])
  {
    assert ln == ln[..i] + ([ln[i]] + ln[i + 1..]);
    ColonsSplit(ln[..i], [ln[i]] + ln[i + 1..]);
    ColonsSplit([ln[i]], ln[i + 1..]);
    assert Colons([ln[i]]) == 1 + Colons([]);
    NoColons(ln[..i]);
  }

  /** The text after the last ':', or the whole line. */
  function AfterLastColon(s: string): string
    decreases |s|
  {
    match FindFirst(s, ':')
    case None => s
    case Some(i) => AfterLastColon(s[i + 1..])
  }

  lemma ZoneDataStep(ln: string, i: nat)
    requires FindFirst(ln, ':') == Some(i)
    ensures i < |ln|
    ensures |ParseZoneData(ln)| == 1 + |ParseZoneData(ln[i + 1..])|
    ensures AfterLastColon(ln) == AfterLastColon(ln[i + 1..])
  {
    assert ParseZoneData(ln) == [Trim(ln[..i])] + ParseZoneData(ln[i + 1..]);
  }

  lemma {:induction false} ZoneDataCount(ln: string)
    ensures |ParseZoneData(ln)| == Colons(ln) + (if |AfterLastColon(ln)| > 0 then 1 else 0)
    decreases |ln|
  {
    match FindFirst(ln, ':')
    case None => NoColons(ln);
    case Some(i) =>
      var rest := ln[i + 1..];
      ZoneDataStep(ln, i);
      ZoneDataCount(rest);
      ColonCount(ln, i);
  }

  // ---------------------------------------------------------------------------
  // parse

  datatype Line = Comment | DeviceInfo(text: string) | ZoneLine(zone: string, rest: string)

  /** How parse reads one line: trimmed, a comment if it starts with '#' or
      ';', a zone definition if it holds '=' (the name is the trimmed text
      before the first '=', the devices what follows it), else device
      information. */
  function Classify(raw: string): (r: Line)
    ensures var ln := Trim(raw);
      r.ZoneLine? <==> '=' in ln && !(|ln| > 0 && (ln[0] == '#' || ln[0] == ';'))
    ensures var ln := Trim(raw);
      r.ZoneLine? ==> (FindFirst(ln, '=').Some? &&
        var i := FindFirst(ln, '=').value; r.zone == Trim(ln[..i]) && r.rest == ln[i + 1..])
  {
    var ln := Trim(raw);
    if |ln| > 0 && (ln[0] == '#' || ln[0] == ';') then Comment
    else
      match FindFirst(ln, '=')
      case None => DeviceInfo(ln)
      case Some(i) => ZoneLine(Trim(ln[..i]), ln[i + 1..])
  }

  /** One line as the parse loop itself handles it: a zone definition is
      inserted, anything else leaves the map as it is. */
  function ReadLine(m: ZoneMap, raw: string): (r: ZoneMap)
    requires Sorted(m)
    ensures Sorted(r) && Keys(m) <= Keys(r)
  {
    match Classify(raw)
    case ZoneLine(z, rest) => Insert(m, z, Zone(z, ParseZoneData(rest))).1
    case _ => m
  }

  /** The name parseDeviceData looks up for a device-information line: the
      trimmed text before its first '{', or None when it holds no '{'. */
  function BraceName(raw: string): (r: Option<string>)
    ensures r.Some? <==> Classify(raw).DeviceInfo? && '{' in Classify(raw).text
    ensures r.Some? ==> var t := Classify(raw).text;
      (FindFirst(t, '{').Some? && r.value == Trim(t[..FindFirst(t, '{').value]))
  {
    match Classify(raw)
    case DeviceInfo(t) =>
      (match FindFirst(t, '{')
       case None => None
       case Some(j) => Some(Trim(t[..j])))
    case _ => None
  }

  /** A device block whose device resolveDevice does not find: the line
      that calls parseInterfaces with a NULL device. */
  predicate Unresolved(m: ZoneMap, raw: string)
  {
    BraceName(raw).Some? && ResolveDevice(m, BraceName(raw).value).NotFound?
  }

  /** The number of lines parseInterfaces reads: up to and including the
      first one holding '}', or all of them when none does. */
  function BlockEnd(lines: seq<string>): (r: nat)
    ensures r <= |lines|
    ensures forall j :: 0 <= j < r - 1 ==> '}' !in lines[j]
    ensures r < |lines| ==> 0 < r && '}' in lines[r - 1]
    decreases |lines|
  {
    if |lines| == 0 then 0
    else if '}' in lines[0] then 1
    else 1 + BlockEnd(lines[1..])
  }

  /** What parseInterfaces does with a NULL device: Skipped(n) when it reads
      the n lines of the block without meeting a port line (one holding ':'),
      NullDeref(k) when line k is the first port line of the block, whose
      record is pushed through the NULL device. */
  datatype Skip = Skipped(n: nat) | NullDeref(at: nat)

  function SkipInterfaces(lines: seq<string>): (r: Skip)
    ensures r.Skipped? <==> forall j :: 0 <= j < BlockEnd(lines) && '}' !in lines[j] ==> ':' !in lines[j]
    ensures r.Skipped? ==> r.n == BlockEnd(lines)
    ensures r.NullDeref? ==> r.at < BlockEnd(lines) && ':' in lines[r.at] && '}' !in lines[r.at]
    ensures r.NullDeref? ==> forall j :: 0 <= j < r.at ==> ':' !in lines[j]
    decreases |lines|
  {
    if |lines| == 0 || '}' in lines[0] then Skipped(BlockEnd(lines))
    else if ':' in lines[0] then NullDeref(0)
    else
      var rest := SkipInterfaces(lines[1..]);
      if rest.Skipped? then Skipped(rest.n + 1) else NullDeref(rest.at + 1)
  }

  /** How parse ends: it returns ok and leaves the zone map, or the process
      dereferences NULL while handling line `line` of the file. */
  datatype Parsed = Returned(ok: bool, zones: ZoneMap) | Crashed(line: nat)

  /** A crash in the lines after the first d ones, counted in the whole
      file. */
  function After(r: Parsed, d: nat): Parsed
  {
    if r.Crashed? then Crashed(r.line + d) else r
  }

  /** The loop of FwZones::parse over the lines; each zone definition is
      inserted, so a zone defined twice keeps its first definition, and a
      block for an unknown device is consumed as parseInterfaces reads it. */
  function ParseLines(m: ZoneMap, lines: seq<string>): (r: Parsed)
    requires Sorted(m)
    ensures r.Returned? ==> r.ok && Sorted(r.zones) && Keys(m) <= Keys(r.zones)
    ensures r.Crashed? ==> r.line < |lines| && ':' in lines[r.line] && '}' !in lines[r.line]
    decreases |lines|, 1
  {
    if |lines| == 0 then Returned(true, m)
    else if Unresolved(m, lines[0]) then SkipBlock(m, lines)
    else ReadOn(m, lines)
  }

  /** parse from any other line: the line is read, then the rest. */
  function ReadOn(m: ZoneMap, lines: seq<string>): (r: Parsed)
    requires Sorted(m) && |lines| > 0
    ensures r.Returned? ==> r.ok && Sorted(r.zones) && Keys(m) <= Keys(r.zones)
    ensures r.Crashed? ==> r.line < |lines| && ':' in lines[r.line] && '}' !in lines[r.line]
    decreases |lines|, 0
  {
    After(ParseLines(ReadLine(m, lines[0]), lines[1..]), 1)
  }

  /** parse from a device block whose device is not found: parseInterfaces
      reads the block through the NULL device, and parse goes on after it
      unless a port line dereferences NULL. */
  function SkipBlock(m: ZoneMap, lines: seq<string>): (r: Parsed)
    requires Sorted(m) && |lines| > 0
    ensures r.Returned? ==> r.ok && Sorted(r.zones) && Keys(m) <= Keys(r.zones)
    ensures r.Crashed? ==> r.line < |lines| && ':' in lines[r.line] && '}' !in lines[r.line]
    decreases |lines|, 0
  {
    match SkipInterfaces(lines[1..])
    case NullDeref(k) => Crashed(k + 1)
    case Skipped(n) => After(ParseLines(m, lines[1 + n..]), 1 + n)
  }

  /** FwZones::parse: false when the file cannot be opened, else the outcome
      of reading every line into the existing map. */
  function Parse(m: ZoneMap, file: Option<seq<string>>): (r: Parsed)
    requires Sorted(m)
    ensures (r.Returned? && !r.ok) <==> file.None?
    ensures file.None? ==> r == Returned(false, m)
    ensures file.Some? ==> r == ParseLines(m, file.value)
  {
    match file
    case None => Returned(false, m)
    case Some(lines) => ParseLines(m, lines)
  }

  /** A trimmed line that is no comment and holds no '=' is device
      information. */
  lemma ClassifyDevice(raw: string)
    requires Trim(raw) == raw && '=' !in raw && !(|raw| > 0 && (raw[0] == '#' || raw[0] == ';'))
    ensures Classify(raw) == DeviceInfo(raw)
  {
  }

  /** A trimmed line that is no comment and holds its first '=' at i is a
      zone definition. */
  lemma ClassifyZone(raw: string, i: nat)
    requires Trim(raw) == raw && FindFirst(raw, '=') == Some(i)
    requires !(raw[0] == '#' || raw[0] == ';')
    ensures Classify(raw) == ZoneLine(Trim(raw[..i]), raw[i + 1..])
  {
  }

  /** The name a device line looks up when its first '{' is at j. */
  lemma BraceNameAt(raw: string, j: nat)
    requires Classify(raw) == DeviceInfo(raw) && FindFirst(raw, '{') == Some(j)
    ensures BraceName(raw) == Some(Trim(raw[..j]))
  {
  }

  /** The zone a single line defines under the name z, if it does. */
  function Defines(raw: string, z: string): Option<Zone>
  {
    match Classify(raw)
    case ZoneLine(y, rest) => if y == z then Some(Zone(z, ParseZoneData(rest))) else None
    case _ => None
  }

  /** The first zone definition of z among the lines, if any. */
  function FirstDefinition(lines: seq<string>, z: string): Option<Zone>
    decreases |lines|
  {
    if |lines| == 0 then None
    else if Defines(lines[0], z).Some? then Defines(lines[0], z)
    else FirstDefinition(lines[1..], z)
  }

  /** One line keeps a zone already present and otherwise adds the zone the
      line defines under that name, if any. */
  lemma ReadLineFind(m: ZoneMap, raw: string, z: string)
    requires Sorted(m)
    ensures FindZone(ReadLine(m, raw), z) == if Exists(m, z) then FindZone(m, z) else Defines(raw, z)
  {
  }

  /** A zone already in the map keeps its entry through parse, whatever the
      file holds, when parse returns. */
  lemma {:induction false} ParseKeepsZone(m: ZoneMap, lines: seq<string>, z: string)
    requires Sorted(m) && Exists(m, z)
    ensures ParseLines(m, lines).Returned? ==> FindZone(ParseLines(m, lines).zones, z) == FindZone(m, z)
    decreases |lines|
  {
    if |lines| > 0 {
      if Unresolved(m, lines[0]) {
        assert ParseLines(m, lines) == SkipBlock(m, lines);
        match SkipInterfaces(lines[1..])
        case NullDeref(_) =>
        case Skipped(n) => ParseKeepsZone(m, lines[1 + n..], z);
      } else {
        ParseLinesRead(m, lines);
        ReadLineFind(m, lines[0], z);
        ParseKeepsZone(ReadLine(m, lines[0]), lines[1..], z);
      }
    }
  }

  /** A device named by a zone of the map is found. */
  lemma KeyResolves(m: ZoneMap, name: string)
    requires name in Keys(m)
    ensures !ResolveDevice(m, name).NotFound?
  {
    var k :| 0 <= k < |m| && m[k].key == name;
    assert Matches(m[k], name);
  }

  /** A device block naming a zone of the map is not one for an unknown
      device. */
  lemma KnownNotUnresolved(m: ZoneMap, raw: string)
    requires BraceName(raw).Some? ==> BraceName(raw).value in Keys(m)
    ensures !Unresolved(m, raw)
  {
    if BraceName(raw).Some? {
      KeyResolves(m, BraceName(raw).value);
    }
  }

  /** parse past a line that is not a block for an unknown device. */
  lemma ParseLinesRead(m: ZoneMap, lines: seq<string>)
    requires Sorted(m) && |lines| > 0 && !Unresolved(m, lines[0])
    ensures ParseLines(m, lines) == After(ParseLines(ReadLine(m, lines[0]), lines[1..]), 1)
  {
    assert ParseLines(m, lines) == ReadOn(m, lines);
  }

  /** In a file whose device blocks all name zones already in the map, parse
      returns, a zone already in the map keeps its entry, and every other
      zone is the first definition of that name in the file, or absent when
      the file defines none. */
  lemma {:induction false} ParseFirstDefinitionWins(m: ZoneMap, lines: seq<string>, z: string)
    requires Sorted(m)
    requires forall k :: 0 <= k < |lines| && BraceName(lines[k]).Some? ==> BraceName(lines[k]).value in Keys(m)
    ensures ParseLines(m, lines).Returned?
    ensures FindZone(ParseLines(m, lines).zones, z)
      == if Exists(m, z) then FindZone(m, z) else FirstDefinition(lines, z)
    decreases |lines|
  {
    if |lines| > 0 {
      var m' := ReadLine(m, lines[0]);
      KnownNotUnresolved(m, lines[0]);
      ParseLinesRead(m, lines);
      ReadLineFind(m, lines[0], z);
      var rest := lines[1..];
      forall k | 0 <= k < |rest| && BraceName(rest[k]).Some?
        ensures BraceName(rest[k]).value in Keys(m')
      {
        assert rest[k] == lines[k + 1];
      }
      ParseFirstDefinitionWins(m', rest, z);
    }
  }

  lemma TrimPlain(s: string)
    requires |s| > 0 && !IsSpace(s[0]) && !IsSpace(s[|s| - 1])
    ensures Trim(s) == s
  {
    assert TrimLeft(s) == s;
  }

  lemma TrimOneSpace(s: string)
    requires |s| > 1 && !IsSpace(s[0]) && IsSpace(s[|s| - 1]) && !IsSpace(s[|s| - 2])
    ensures Trim(s) == s[..|s| - 1]
  {
    assert TrimLeft(s) == s;
    var t := s[..|s| - 1];
    assert TrimRight(s) == TrimRight(t);
    assert t[|t| - 1] == s[|s| - 2];
    assert TrimRight(t) == t;
  }

  /** A block for a device no zone names, holding one line without ':' or
      '}' and closed by a '}' line, is read through without effect. */
  lemma SkipsUnknownBlock(m: ZoneMap, block: string, inner: string, close: string)
    requires Sorted(m) && Unresolved(m, block)
    requires '}' !in inner && ':' !in inner && '}' in close
    ensures ParseLines(m, [block, inner, close]) == Returned(true, m)
  {
    var lines := [block, inner, close];
    assert ParseLines(m, lines) == SkipBlock(m, lines);
    assert lines[1..] == [inner, close] && [inner, close][1..] == [close];
    assert SkipInterfaces([close]) == Skipped(1);
    assert SkipInterfaces([inner, close]) == Skipped(2);
    assert lines[3..] == [];
  }

  /** A device block line defines no zone. */
  lemma FirstDefinitionAfterBlock(block: string, zl: string, close: string, z: string)
    requires BraceName(block).Some? && Defines(zl, z).Some?
    ensures FirstDefinition([block, zl, close], z) == Defines(zl, z)
  {
    var lines := [block, zl, close];
    assert lines[1..] == [zl, close];
    assert Classify(block).DeviceInfo?;
  }

  /** A block for a device no zone names hides a zone defined inside it:
      the file defines z, but parse reads the block through to its '}' line
      and never inserts z. */
  lemma UnknownDeviceHidesZone(m: ZoneMap, block: string, zl: string, close: string, z: string)
    requires Sorted(m) && Unresolved(m, block) && !Exists(m, z)
    requires Defines(zl, z).Some? && '}' !in zl && ':' !in zl && '}' in close
    ensures FirstDefinition([block, zl, close], z) == Defines(zl, z)
    ensures ParseLines(m, [block, zl, close]) == Returned(true, m)
    ensures FindZone(ParseLines(m, [block, zl, close]).zones, z).None?
  {
    FirstDefinitionAfterBlock(block, zl, close, z);
    SkipsUnknownBlock(m, block, zl, close);
  }

  /** A port line inside a block for a device no zone names is pushed
      through the NULL device. */
  lemma UnknownDeviceCrashes(m: ZoneMap, block: string, port: string, close: string)
    requires Sorted(m) && Unresolved(m, block)
    requires '}' !in port && ':' in port
    ensures ParseLines(m, [block, port, close]) == Crashed(1)
  {
    var lines := [block, port, close];
    assert ParseLines(m, lines) == SkipBlock(m, lines);
    assert lines[1..] == [port, close];
  }

  /** The lines "fw1 {", "z = a", "eth0 : 10.0.0.1/24" and "}" meet the
      conditions of the two lemmas above in an empty map. */
  lemma ExampleBlock(b: string)
    requires b == "fw1 {"
    ensures Unresolved([], b)
  {
    TrimPlain(b);
    assert b == "fw1 " + "{";
    FindFirstAfter("fw1 ", '{', "{");
    assert '=' !in b;
    ClassifyDevice(b);
    BraceNameAt(b, 4);
    assert b[..4] == "fw1 ";
    NameText("fw1 ");
  }

  lemma NameText(n: string)
    requires n == "fw1 "
    ensures Trim(n) == "fw1"
  {
    TrimOneSpace(n);
    assert n[..3] == "fw1";
  }

  lemma ExampleZone(zl: string)
    requires zl == "z = a"
    ensures Defines(zl, "z") == Some(Zone("z", ["a"]))
  {
    TrimPlain(zl);
    assert zl == "z " + "= a";
    FindFirstAfter("z ", '=', "= a");
    ClassifyZone(zl, 2);
    assert zl[..2] == "z " && zl[3..] == " a";
    ZoneNameText("z ");
    DevicesText(" a");
  }

  lemma ZoneNameText(n: string)
    requires n == "z "
    ensures Trim(n) == "z"
  {
    TrimOneSpace(n);
    assert n[..1] == "z";
  }

  lemma DevicesText(d: string)
    requires d == " a"
    ensures ParseZoneData(d) == ["a"]
  {
    assert ':' !in d;
    var a := d[1..];
    assert TrimLeft(d) == TrimLeft(a);
    TrimPlain(a);
    assert a == "a";
  }

  lemma ExampleZoneText()
    ensures '}' !in "z = a" && ':' !in "z = a"
  {
  }

  lemma ExamplePort()
    ensures '}' !in "eth0 : 10.0.0.1/24" && ':' in "eth0 : 10.0.0.1/24"
  {
    assert "eth0 : 10.0.0.1/24"[5] == ':';
  }

  lemma ExampleClose()
    ensures '}' in "}" && BraceName("}").None?
  {
    assert "}"[0] == '}';
    assert TrimLeft("}") == "}" && TrimRight("}") == "}";
    assert '=' !in "}" && '{' !in "}";
  }

  /** parse with parseDeviceData as its indentation reads: a block for an
      unknown device is skipped line by line like the rest of the file, and
      the block of a known device is read up to its '}' line. */
  function ParseLinesFixed(m: ZoneMap, lines: seq<string>): (r: ZoneMap)
    requires Sorted(m)
    ensures Sorted(r) && Keys(m) <= Keys(r)
    decreases |lines|
  {
    if |lines| == 0 then m
    else if BraceName(lines[0]).Some? && !Unresolved(m, lines[0]) then
      ParseLinesFixed(m, lines[1 + BlockEnd(lines[1..])..])
    else ParseLinesFixed(ReadLine(m, lines[0]), lines[1..])
  }

  /** With the fix, the zone defined inside a block for an unknown device
      is inserted, as the file's first definition of it. */
  lemma FixedKeepsZone(m: ZoneMap, block: string, zl: string, close: string, z: string)
    requires Sorted(m) && Unresolved(m, block) && !Exists(m, z)
    requires Defines(zl, z).Some? && BraceName(close).None?
    ensures FindZone(ParseLinesFixed(m, [block, zl, close]), z) == FirstDefinition([block, zl, close], z)
  {
    FirstDefinitionAfterBlock(block, zl, close, z);
    FixedReadsBlock(m, block, zl, close);
    var m' := ReadLine(m, zl);
    ReadLineFind(m, zl, z);
    ReadLineFind(m', close, z);
  }

  lemma FixedReadsBlock(m: ZoneMap, block: string, zl: string, close: string)
    requires Sorted(m) && Unresolved(m, block) && BraceName(zl).None? && BraceName(close).None?
    ensures ParseLinesFixed(m, [block, zl, close]) == ReadLine(ReadLine(m, zl), close)
  {
    var lines := [block, zl, close];
    var m1 := ReadLine(m, zl);
    var m2 := ReadLine(m1, close);
    assert Classify(block).DeviceInfo?;
    assert ReadLine(m, block) == m;
    assert lines[1..] == [zl, close];
    assert ParseLinesFixed(m, lines) == ParseLinesFixed(m, [zl, close]);
    assert [zl, close][1..] == [close];
    assert ParseLinesFixed(m, [zl, close]) == ParseLinesFixed(m1, [close]);
    assert [close][1..] == [];
    assert ParseLinesFixed(m1, [close]) == ParseLinesFixed(m2, []);
  }

  /** With the fix, a file without device blocks parses as before, and a
      block for an unknown device only skips its own first line. */
  lemma {:induction false} FixedAgrees(m: ZoneMap, lines: seq<string>)
    requires Sorted(m)
    requires forall k :: 0 <= k < |lines| ==> BraceName(lines[k]).None?
    ensures ParseLines(m, lines) == Returned(true, ParseLinesFixed(m, lines))
    decreases |lines|
  {
    if |lines| > 0 {
      assert forall k :: 0 <= k < |lines[1..]| ==> lines[1..][k] == lines[k + 1];
      FixedAgrees(ReadLine(m, lines[0]), lines[1..]);
    }
  }

  // ---------------------------------------------------------------------------
  // resolveDevice

  predicate Matches(e: Entry<Zone>, name: string)
  {
    e.key == name || name in e.val.devices
  }

  /** What resolveDevice returns: no device, the device at index i of the
      zone at position k of the map, or front() of an empty device list. */
  datatype Resolved = NotFound | Device(k: nat, i: nat) | FrontOfEmpty(k: nat)

  /** FwZones::resolveDevice: zones are visited in name order; a zone named
      like the device yields its first device, otherwise the zone's first
      device of that name is taken. */
  function ResolveDevice(m: ZoneMap, name: string): (r: Resolved)
    ensures r.NotFound? <==> forall k :: 0 <= k < |m| ==> !Matches(m[k], name)
    ensures !r.NotFound? ==> r.k < |m| && Matches(m[r.k], name)
    ensures !r.NotFound? ==> forall j :: 0 <= j < r.k ==> !Matches(m[j], name)
    ensures r.FrontOfEmpty? ==> m[r.k].key == name && |m[r.k].val.devices| == 0
    ensures r.Device? ==> r.i < |m[r.k].val.devices|
    ensures r.Device? && m[r.k].key == name ==> r.i == 0
    ensures r.Device? && m[r.k].key != name ==> m[r.k].val.devices[r.i] == name
    ensures r.Device? && m[r.k].key != name ==> forall j :: 0 <= j < r.i ==> m[r.k].val.devices[j] != name
    decreases |m|
  {
    if |m| == 0 then NotFound
    else if m[0].key == name then
      (if |m[0].val.devices| == 0 then FrontOfEmpty(0) else Device(0, 0))
    else if name in m[0].val.devices then Device(0, FindFirst(m[0].val.devices, name).value)
    else
      var rest := ResolveDevice(m[1..], name);
      if rest.NotFound? then NotFound
      else if rest.Device? then Device(rest.k + 1, rest.i)
      else FrontOfEmpty(rest.k + 1)
  }
}

=== FILE: json_parser.dfy ===
/** The tcajson recursive-descent parser (src/JSON.cpp), over the istream model
    of module Stream.

    Each parse routine returns its verdict together with the stream it leaves
    behind and, for objects and arrays, the container it filled. A duplicate
    key makes JsonObject::insert throw std::runtime_error; that exception
    leaves every parse routine and JSON::parse itself, and is the outcome
    Throw here. The error text and stream repositioning of setError play no
    part in the verdict and are not modelled. */
module JsonParser {
  import opened Base
  import opened Stream
  import opened JsonValue

  datatype Outcome = Ok | Fail | Throw

  datatype StrResult = StrResult(ok: bool, text: string, st: Stream)
  datatype TokResult = TokResult(text: string, st: Stream)
  datatype Flag = Flag(ok: bool, st: Stream)
  datatype Typed = Typed(tag: Tag, st: Stream)
  datatype ValResult = ValResult(out: Outcome, val: Json, st: Stream)
  datatype ObjResult = ObjResult(out: Outcome, members: Members, st: Stream)
  datatype ArrResult = ArrResult(out: Outcome, items: seq<Json>, st: Stream)

  // ---------------------------------------------------------------------
  // Strings (JSON::parseString)

  /** The character an escape sequence `\c` stands for; None for the escapes
      parseString rejects, EOF included. */
  function Unescape(s: Sym): Option<char>
  {
    if s == Ch('"') then Some('"')
    else if s == Ch('/') then Some('/')
    else if s == Ch('\\') then Some('\\')
    else if s == Ch('b') then Some('\U{0008}')
    else if s == Ch('f') then Some('\U{000C}')
    else if s == Ch('n') then Some('\n')
    else if s == Ch('r') then Some('\r')
    else if s == Ch('t') then Some('\t')
    else None
  }

  /** Every escape the writer produces is one the parser decodes back. */
  lemma UnescapeInvertsEscape(c: char)
    ensures |EscapeChar(c)| == 1 ==> EscapeChar(c) == [c] && c != '"' && c != '\\'
    ensures |EscapeChar(c)| == 2 ==> EscapeChar(c)[0] == '\\' && Unescape(Ch(EscapeChar(c)[1])) == Some(c)
    ensures |EscapeChar(c)| == 1 || |EscapeChar(c)| == 2
  {
  }

  /** What one pass of parseString's loop makes of the character c it got
      (not the closing quote): an escape is decoded with the character after
      it, anything else (EOF as 0xFF) is kept. None for a bad escape. */
  datatype CharStep = CharStep(ok: bool, c: char, st: Stream)

  function StringStep(c: Sym, st: Stream): (r: CharStep)
    requires Valid(st)
    ensures Valid(r.st) && r.st.data == st.data && Rank(r.st) <= Rank(st)
  {
    if c == Ch('\\') then
      var e := Get(st);
      match Unescape(e.sym)
      case None => CharStep(false, '\\', e.st)
      case Some(d) => CharStep(true, d, e.st)
    else CharStep(true, CharOf(c), st)
  }

  /** The loop of parseString once the opening quote is behind: stop at the
      closing quote (right away for `""`) and succeed with what was read once
      the eofbit is up. */
  function StringLoop(st: Stream, acc: string): (r: StrResult)
    requires Valid(st)
    ensures Valid(r.st) && r.st.data == st.data && Rank(r.st) <= Rank(st)
    ensures !st.eof ==> Rank(r.st) < Rank(st)
    decreases Rank(st)
  {
    if st.eof then StrResult(true, acc, st)
    else
      var g := Get(st);
      if g.sym == Ch('"') then StrResult(true, acc, g.st)
      else
        var x := StringStep(g.sym, g.st);
        if !x.ok then StrResult(false, acc, x.st)
        else StringLoop(x.st, acc + [x.c])
  }

  /** JSON::parseString: whitespace skipped, then a double quote must come
      and the loop reads the rest. With the eofbit already up after the
      whitespace, the loop never runs and the result is an empty success. */
  function ParseString(st: Stream): (r: StrResult)
    requires Valid(st)
    ensures Valid(r.st) && r.st.data == st.data && Rank(r.st) <= Rank(st)
    ensures !st.eof ==> Rank(r.st) < Rank(st)
    ensures var s := SkipWs(st); !s.eof && s.pos < |s.data| && s.data[s.pos] != '"' ==> !r.ok
  {
    var s := SkipWs(st);
    if s.eof then StrResult(true, "", s)
    else
      var g := Get(s);
      if g.sym != Ch('"') then StrResult(false, "", g.st)
      else StringLoop(g.st, "")
  }

  /** An escape outside the set parseString knows fails the string. */
  lemma BadEscapeFails(st: Stream, x: char)
    requires Valid(st) && !st.eof && At(st, ['"', '\\', x])
    requires Unescape(Ch(x)).None?
    ensures !ParseString(st).ok
  {
    AtHead(st, ['"', '\\', x]);
    AtConcat(st, ['"'], ['\\', x]);
    AtHead(Adv(st, 1), ['\\', x]);
    AtConcat(Adv(st, 1), ['\\'], [x]);
    AtHead(Adv(st, 2), [x]);
  }

  /** The closing quote ends the loop. */
  lemma StringLoopClose(st: Stream, acc: string)
    requires Valid(st) && !st.eof && st.pos < |st.data| && st.data[st.pos] == '"'
    ensures StringLoop(st, acc) == StrResult(true, acc, Adv(st, 1))
  {
  }

  /** One character of Escape's output read by the loop. */
  lemma StringLoopStep(st: Stream, c: char, acc: string)
    requires Valid(st) && !st.eof && At(st, EscapeChar(c))
    requires st.pos + |EscapeChar(c)| < |st.data|
    ensures StringLoop(st, acc) == StringLoop(Adv(st, |EscapeChar(c)|), acc + [c])
  {
    UnescapeInvertsEscape(c);
    AtHead(st, EscapeChar(c));
    if |EscapeChar(c)| == 2 {
      assert EscapeChar(c) == ['\\'] + [EscapeChar(c)[1]];
      AtConcat(st, ['\\'], [EscapeChar(c)[1]]);
      AtHead(Adv(st, 1), [EscapeChar(c)[1]]);
    }
  }

  /** The escaping writer's output reads back as the very string: the loop
      consumes Escape(s) and the closing quote and yields s. */
  lemma {:induction false} StringLoopReadsEscaped(st: Stream, s: string, e: string, acc: string)
    requires Valid(st) && !st.eof && e == Escape(s) && At(st, e + ['"'])
    ensures StringLoop(st, acc) == StrResult(true, acc + s, Adv(st, |e| + 1))
    decreases |s|
  {
    if |s| == 0 {
      assert e + ['"'] == ['"'];
      AtHead(st, ['"']);
      StringLoopClose(st, acc);
      assert acc + s == acc;
    } else {
      var c := s[0];
      EscapedSplit(st, s);
      StringLoopStep(st, c, acc);
      StringLoopReadsEscaped(Adv(st, |EscapeChar(c)|), s[1..], Escape(s[1..]), acc + [c]);
      ReadsChain(StringLoop(st, acc), StringLoop(Adv(st, |EscapeChar(c)|), acc + [c]),
        acc, s, st, |EscapeChar(c)|, |Escape(s[1..])|, |e|);
    }
  }

  /** Where the escaped text of s sits, that of its first character comes
      first and that of the rest after it. */
  lemma EscapedSplit(st: Stream, s: string)
    requires At(st, Escape(s) + ['"']) && |s| > 0
    ensures At(st, EscapeChar(s[0])) && st.pos + |EscapeChar(s[0])| < |st.data|
    ensures At(Adv(st, |EscapeChar(s[0])|), Escape(s[1..]) + ['"'])
    ensures |Escape(s)| == |EscapeChar(s[0])| + |Escape(s[1..])|
  {
    assert Escape(s) == EscapeChar(s[0]) + Escape(s[1..]);
    Assoc(EscapeChar(s[0]), Escape(s[1..]), ['"']);
    AtConcat(st, EscapeChar(s[0]), Escape(s[1..]) + ['"']);
  }

  /** The bookkeeping of the inductive step of StringLoopReadsEscaped, over
      plain values: one character and then the rest read as the whole. */
  lemma ReadsChain(a: StrResult, b: StrResult, acc: string, s: string, st: Stream, n1: nat, n2: nat, n: nat)
    requires |s| > 0 && n == n1 + n2 && a == b
    requires b == StrResult(true, acc + [s[0]] + s[1..], Adv(Adv(st, n1), n2 + 1))
    ensures a == StrResult(true, acc + s, Adv(st, n + 1))
  {
    ConsAppend(acc, s);
  }

  /** parseString at a quote: the loop from just after it. */
  lemma ParseStringOpen(st: Stream)
    requires Valid(st) && !st.eof && st.pos < |st.data| && st.data[st.pos] == '"'
    ensures ParseString(st) == StringLoop(Adv(st, 1), "")
  {
    assert SkipWs(st) == st;
  }

  /** The string round trip: parseString applied to a quoted, escaped s
      yields s and stops just after the closing quote. */
  lemma StringRoundTrip(st: Stream, s: string)
    requires Valid(st) && !st.eof && At(st, Quote(s, Escaped))
    ensures ParseString(st) == StrResult(true, s, Adv(st, |Quote(s, Escaped)|))
  {
    Assoc(['"'], Escape(s), ['"']);
    AtConcat(st, ['"'], Escape(s) + ['"']);
    AtHead(st, Quote(s, Escaped));
    ParseStringOpen(st);
    StringLoopReadsEscaped(Adv(st, 1), s, Escape(s), "");
  }

  // ---------------------------------------------------------------------
  // Numbers (JSON::parseNumber)

  /** The characters of `"-+.eE0123456789"` taken with sizeof, so the
      terminating NUL is a member too. */
  predicate InNumSet(c: char)
  {
    c == '-' || c == '+' || c == '.' || c == 'e' || c == 'E' || ('0' <= c <= '9') || c == '\U{0000}'
  }

  /** `while (!eof && numset has peek()) numstr.push_back(get())`: the
      longest run of number characters from the current position. */
  function NumberRun(st: Stream): (r: TokResult)
    requires Valid(st)
    ensures Valid(r.st) && r.st.data == st.data && Rank(r.st) <= Rank(st)
    ensures st.pos <= r.st.pos && r.text == st.data[st.pos..r.st.pos]
    ensures forall i :: st.pos <= i < r.st.pos ==> InNumSet(st.data[i])
    ensures r.st.eof || (r.st.pos < |r.st.data| && !InNumSet(r.st.data[r.st.pos]))
    ensures st.eof ==> r.st == st
    ensures |r.text| > 0 ==> Rank(r.st) < Rank(st)
    decreases Rank(st)
  {
    if st.eof then TokResult("", st)
    else
      var p := Peek(st);
      if p.sym.Ch? && InNumSet(p.sym.c) then
        var r := NumberRun(Get(p.st).st);
        assert st.data[st.pos..r.st.pos] == [p.sym.c] + st.data[st.pos + 1..r.st.pos];
        TokResult([p.sym.c] + r.text, r.st)
      else TokResult("", p.st)
  }

  /** JSON::parseNumber: whitespace skipped, then the longest run of number
      characters; an empty run fails. The text is kept, not converted. */
  function ParseNumber(st: Stream): (r: StrResult)
    requires Valid(st)
    ensures Valid(r.st) && r.st.data == st.data && Rank(r.st) <= Rank(st)
    ensures r.ok <==> |r.text| > 0
    ensures r.ok ==> Rank(r.st) < Rank(st)
    ensures forall i :: 0 <= i < |r.text| ==> InNumSet(r.text[i])
  {
    var s := SkipWs(st);
    var n := NumberRun(s);
    StrResult(|n.text| > 0, n.text, n.st)
  }

  /** The run stops exactly at the first character outside the set: any
      result meeting the contract of NumberRun ends where lex ends. */
  lemma NumberRunStops(st: Stream, lex: string, r: TokResult)
    requires Valid(st) && At(st, lex) && st.pos + |lex| < |st.data|
    requires forall i :: 0 <= i < |lex| ==> InNumSet(lex[i])
    requires !InNumSet(st.data[st.pos + |lex|])
    requires Valid(r.st) && r.st.data == st.data && st.pos <= r.st.pos
    requires forall i :: st.pos <= i < r.st.pos ==> InNumSet(st.data[i])
    requires r.st.eof || (r.st.pos < |r.st.data| && !InNumSet(r.st.data[r.st.pos]))
    ensures r.st.pos == st.pos + |lex|
  {
    var e := st.pos + |lex|;
    AtPointwise(st, lex);
    assert r.st.pos <= e by {
      assert !InNumSet(st.data[e]);
    }
    assert e <= r.st.pos by {
      assert r.st.pos < |r.st.data|;
    }
  }

  /** The contract of NumberRun pins its result down: the run is read whole
      and the stream stops right after it. */
  lemma NumberRunReads(st: Stream, lex: string)
    requires Valid(st) && At(st, lex) && st.pos + |lex| < |st.data|
    requires forall i :: 0 <= i < |lex| ==> InNumSet(lex[i])
    requires !InNumSet(st.data[st.pos + |lex|])
    ensures NumberRun(st) == TokResult(lex, Adv(st, |lex|))
  {
    var r := NumberRun(st);
    NumberRunStops(st, lex, r);
    assert r.text == lex;
    assert !r.st.eof && !st.eof;
  }

  /** A run of number characters followed by anything else is read whole. */
  lemma NumberRoundTrip(st: Stream, lex: string)
    requires Valid(st) && At(st, lex) && st.pos + |lex| < |st.data|
    requires |lex| > 0 && !IsSpace(lex[0]) && forall i :: 0 <= i < |lex| ==> InNumSet(lex[i])
    requires !InNumSet(st.data[st.pos + |lex|])
    ensures ParseNumber(st) == StrResult(true, lex, Adv(st, |lex|))
  {
    AtHead(st, lex);
    assert SkipWs(st) == st;
    NumberRunReads(st, lex);
  }

  // ---------------------------------------------------------------------
  // Literals (JSON::parseBoolean, JSON::parseLiteral, JSON::IsSeparator)

  predicate IsSepChar(c: char)
  {
    c == ',' || c == ']' || c == '}'
  }

  /** JSON::IsSeparator: the next character ends a value. */
  predicate IsSeparator(s: Sym)
  {
    s.Ch? && IsSepChar(s.c)
  }

  /** `while (!eof && !IsSeparator(buf)) { c = get(); if (!isspace(c))
      token.push_back(c); }`. Whitespace inside the token is dropped; a peek
      that runs off the end raises the eofbit, and the get that follows
      still pushes (char)EOF. */
  function TokenRun(st: Stream): (r: TokResult)
    requires Valid(st)
    ensures Valid(r.st) && r.st.data == st.data && Rank(r.st) <= Rank(st)
    ensures forall i :: 0 <= i < |r.text| ==> !IsSpace(r.text[i]) && !IsSepChar(r.text[i])
    ensures r.st.eof || (r.st.pos < |r.st.data| && IsSepChar(r.st.data[r.st.pos]))
    ensures |r.text| > 0 ==> Rank(r.st) < Rank(st)
    decreases Rank(st)
  {
    if st.eof then TokResult("", st)
    else
      var p := Peek(st);
      if IsSeparator(p.sym) then TokResult("", p.st)
      else
        var g := Get(p.st);
        var r := TokenRun(g.st);
        TokResult(if SpaceSym(g.sym) then r.text else [CharOf(g.sym)] + r.text, r.st)
  }

  /** The opening of JSON::parseBoolean and JSON::parseLiteral: whitespace
    * skipped, then the token up to a separator. */
  function Token(st: Stream): (r: TokResult)
    requires Valid(st)
    ensures Valid(r.st) && r.st.data == st.data && Rank(r.st) <= Rank(st)
    ensures forall i :: 0 <= i < |r.text| ==> !IsSpace(r.text[i]) && !IsSepChar(r.text[i])
    ensures |r.text| > 0 ==> Rank(r.st) < Rank(st)
  {
    TokenRun(SkipWs(st))
  }

  /** JSON::parseBoolean: the token must read exactly "true" or "false". */
  function ParseBoolean(st: Stream): (r: ValResult)
    requires Valid(st)
    ensures Valid(r.st) && r.st.data == st.data && Rank(r.st) <= Rank(st)
    ensures r.out != Throw
    ensures r.out == Ok <==> Token(st).text == "true" || Token(st).text == "false"
    ensures r.out == Ok ==> r.val == JBoolean(Token(st).text == "true") && Rank(r.st) < Rank(st)
  {
    var t := Token(st);
    if t.text == "true" then ValResult(Ok, JBoolean(true), t.st)
    else if t.text == "false" then ValResult(Ok, JBoolean(false), t.st)
    else ValResult(Fail, JNull, t.st)
  }

  /** JSON::parseLiteral: succeeds only for an item tagged null whose token
      reads "null". */
  function ParseLiteral(st: Stream, itemTag: Tag): (r: ValResult)
    requires Valid(st)
    ensures Valid(r.st) && r.st.data == st.data && Rank(r.st) <= Rank(st)
    ensures r.out != Throw
    ensures r.out == Ok <==> itemTag == TagNull && Token(st).text == "null"
    ensures r.out == Ok ==> r.val == JNull && Rank(r.st) < Rank(st)
  {
    var t := Token(st);
    if itemTag == TagNull && t.text == "null" then ValResult(Ok, JNull, t.st)
    else ValResult(Fail, JNull, t.st)
  }

  /** What the writer puts after a value inside a container: ", " before the
      next one, or " }" / " ]" at the end. */
  predicate After(st: Stream)
  {
    st.pos + 1 < |st.data|
    && ((st.data[st.pos] == ',' && st.data[st.pos + 1] == ' ')
        || (st.data[st.pos] == ' ' && (st.data[st.pos + 1] == '}' || st.data[st.pos + 1] == ']')))
  }

  /** A word that stops before a space swallows that space. */
  function Gap(st: Stream): nat
    requires st.pos < |st.data|
  {
    if st.data[st.pos] == ' ' then 1 else 0
  }

  /** A word without whitespace or separators, followed by what the writer
      puts after a value, reads as that word. */
  lemma {:induction false} TokenRunReads(st: Stream, w: string)
    requires Valid(st) && At(st, w) && After(Adv(st, |w|))
    requires forall i :: 0 <= i < |w| ==> !IsSpace(w[i]) && !IsSepChar(w[i])
    ensures TokenRun(st) == TokResult(w, Adv(st, |w| + Gap(Adv(st, |w|))))
    decreases |w|
  {
    if |w| == 0 {
      if st.data[st.pos] == ' ' {
        assert TokenRun(st) == TokenRun(Adv(st, 1));
      }
    } else {
      AtTail(st, w);
      TokenRunReads(Adv(st, 1), w[1..]);
      assert Adv(Adv(st, 1), |w[1..]|) == Adv(st, |w|);
      assert [w[0]] + w[1..] == w;
    }
  }

  // ---------------------------------------------------------------------
  // Punctuation (JSON::parseAssign, JSON::parseSeparator)

  /** JSON::parseAssign: after whitespace, the next character must be ':'. */
  function ParseAssign(st: Stream): (r: Flag)
    requires Valid(st)
    ensures Valid(r.st) && r.st.data == st.data && Rank(r.st) <= Rank(st)
    ensures var s := SkipWs(st); r.ok <==> !s.eof && s.pos < |s.data| && s.data[s.pos] == ':'
    ensures r.ok ==> r.st.pos == SkipWs(st).pos + 1 && Rank(r.st) < Rank(st)
  {
    var s := SkipWs(st);
    var g := Get(s);
    Flag(g.sym == Ch(':'), g.st)
  }

  /** JSON::parseSeparator: after whitespace, ',' is consumed, and ']' or '}'
      is accepted and left for the caller. */
  function ParseSeparator(st: Stream): (r: Flag)
    requires Valid(st)
    ensures Valid(r.st) && r.st.data == st.data && Rank(r.st) <= Rank(st)
    ensures var s := SkipWs(st); r.ok <==> s.pos < |s.data| && IsSepChar(s.data[s.pos])
    ensures var s := SkipWs(st); r.ok ==> r.st.pos == s.pos + (if s.data[s.pos] == ',' then 1 else 0)
    ensures r.ok ==> !r.st.eof
  {
    var s := SkipWs(st);
    var p := Peek(s);
    if p.sym == Ch(',') then Flag(true, Get(p.st).st)
    else if p.sym == Ch(']') || p.sym == Ch('}') then Flag(true, p.st)
    else Flag(false, p.st)
  }

  /** Where the writer put ", " or a space before the closing bracket,
      the separator takes one character. */
  lemma SeparatorAfter(st: Stream)
    requires Valid(st) && After(st)
    ensures ParseSeparator(st) == Flag(true, Adv(st, 1))
  {
    if st.data[st.pos] == ' ' {
      SkipWsRun(st, 1);
    }
  }

  /** At a closing bracket, ParseSeparator succeeds and leaves it. */
  lemma SeparatorAtClose(st: Stream)
    requires Valid(st) && st.pos < |st.data| && (st.data[st.pos] == '}' || st.data[st.pos] == ']')
    ensures ParseSeparator(st) == Flag(true, st)
  {
  }

  /** Any other character fails the separator. */
  lemma SeparatorFails(st: Stream)
    requires Valid(st) && st.pos < |st.data| && !IsSpace(st.data[st.pos]) && !IsSepChar(st.data[st.pos])
    ensures !ParseSeparator(st).ok
  {
  }

  // ---------------------------------------------------------------------
  // Values (JSON::ParseValueType and the switch shared by parseObject and
  // parseArray)

  /** The tag the first character after whitespace announces. */
  function LeadTag(s: Sym): Tag
  {
    if s == Ch('[') then TagArray
    else if s == Ch('{') then TagObject
    else if s == Ch('"') then TagString
    else if s.Ch? && (s.c == '-' || '0' <= s.c <= '9') then TagNumber
    else if s == Ch('t') || s == Ch('f') then TagBoolean
    else TagNull
  }

  /** JSON::ParseValueType: whitespace skipped, next character peeked. Every
      other character, 'n' included, means null; JSON_INVALID never comes
      back, so parseObject's default branch is never taken. */
  function ValueType(st: Stream): (r: Typed)
    requires Valid(st)
    ensures Valid(r.st) && r.st.data == st.data && Rank(r.st) <= Rank(st)
    ensures r.tag != TagInvalid
    ensures r.st.pos == SkipWs(st).pos
    ensures r.tag == TagObject ==> r.st.pos < |r.st.data| && r.st.data[r.st.pos] == '{'
    ensures r.tag == TagArray ==> r.st.pos < |r.st.data| && r.st.data[r.st.pos] == '['
    ensures r.tag == TagString ==> r.st.pos < |r.st.data| && r.st.data[r.st.pos] == '"'
  {
    var p := Peek(SkipWs(st));
    Typed(LeadTag(p.sym), p.st)
  }

  /** One value of the type ValueType announced. Each container is parsed
      into an empty one (parseObject's jobj and jary are cleared after every
      use) and stored as a copy. */
  function ParseValue(st: Stream): (r: ValResult)
    requires Valid(st)
    ensures Valid(r.st) && r.st.data == st.data && Rank(r.st) <= Rank(st)
    ensures r.out == Ok ==> Rank(r.st) < Rank(st)
    decreases Rank(st), 2
  {
    var t := ValueType(st);
    if t.tag == TagObject then
      var o := ParseObject(t.st, []);
      ValResult(o.out, JObject(o.members), o.st)
    else if t.tag == TagArray then
      var a := ParseArray(t.st, []);
      ValResult(a.out, JArray(a.items), a.st)
    else ParseScalar(t)
  }

  /** A value parsed successfully has the type ValueType announced. */
  lemma ParseValueTag(st: Stream)
    requires Valid(st)
    ensures ParseValue(st).out == Ok ==> TagOf(ParseValue(st).val) == ValueType(st).tag
  {
    var t := ValueType(st);
    if t.tag != TagObject && t.tag != TagArray {
      ScalarTag(t);
    }
  }

  lemma ScalarTag(t: Typed)
    requires Valid(t.st) && t.tag != TagObject && t.tag != TagArray && t.tag != TagInvalid
    requires t.tag == TagString ==> t.st.pos < |t.st.data| && t.st.data[t.st.pos] == '"'
    ensures ParseScalar(t).out == Ok ==> TagOf(ParseScalar(t).val) == t.tag
  {
  }

  /** The branches of that switch for the types that hold no values. */
  function ParseScalar(t: Typed): (r: ValResult)
    requires Valid(t.st) && t.tag != TagObject && t.tag != TagArray
    requires t.tag == TagString ==> t.st.pos < |t.st.data| && t.st.data[t.st.pos] == '"'
    ensures Valid(r.st) && r.st.data == t.st.data && Rank(r.st) <= Rank(t.st)
    ensures r.out != Throw
    ensures r.out == Ok ==> Rank(r.st) < Rank(t.st)
  {
    if t.tag == TagNumber then
      var n := ParseNumber(t.st);
      ValResult(if n.ok then Ok else Fail, JNumber(n.text), n.st)
    else if t.tag == TagString then
      var s := ParseString(t.st);
      ValResult(if s.ok then Ok else Fail, JString(s.text), s.st)
    else if t.tag == TagBoolean then
      ParseBoolean(t.st)
    else
      ParseLiteral(t.st, TagNull)
  }

  // ---------------------------------------------------------------------
  // Objects and arrays

  /** JSON::parseObject(buf, obj): '{' must come first; the pairs are
      inserted into obj, which keeps whatever it held before. */
  function ParseObject(st: Stream, obj: Members): (r: ObjResult)
    requires Valid(st) && Sorted(obj)
    ensures Valid(r.st) && r.st.data == st.data && Rank(r.st) <= Rank(st)
    ensures Sorted(r.members) && Keys(obj) <= Keys(r.members)
    ensures forall k :: k in Keys(obj) ==> Find(r.members, k) == Find(obj, k)
    ensures r.out == Ok ==> Rank(r.st) < Rank(st)
    ensures st.pos < |st.data| && st.data[st.pos] != '{' ==> r.out == Fail && r.members == obj
    decreases Rank(st), 1
  {
    var g := Get(st);
    if g.sym != Ch('{') then ObjResult(Fail, obj, g.st)
    else ObjectLoop(g.st, obj, "", true)
  }

  /** The `while (!buf.eof())` loop of parseObject. key is the name read
      and not yet given a value (the empty string meaning none, so an empty
      key can never be stored), p the flag the loop returns. */
  function ObjectLoop(st: Stream, obj: Members, key: string, p: bool): (r: ObjResult)
    requires Valid(st) && Sorted(obj)
    ensures Valid(r.st) && r.st.data == st.data && Rank(r.st) <= Rank(st)
    ensures Sorted(r.members) && Keys(obj) <= Keys(r.members)
    ensures forall k :: k in Keys(obj) ==> Find(r.members, k) == Find(obj, k)
    ensures r.out == Ok ==> Rank(r.st) < Rank(st) || st.eof
    decreases Rank(st), 4
  {
    if st.eof then ObjResult(if p then Ok else Fail, obj, st)
    else
      var pk := Peek(st);
      if SpaceSym(pk.sym) then ObjectLoop(Get(pk.st).st, obj, key, p)
      else if pk.sym == Ch('}') then ObjResult(if p then Ok else Fail, obj, Get(pk.st).st)
      else if key == "" then ObjectKey(pk.st, obj)
      else ObjectValue(pk.st, obj, key)
  }

  /** The loop's step with no key pending: a quoted name and ':'. */
  function ObjectKey(st: Stream, obj: Members): (r: ObjResult)
    requires Valid(st) && Sorted(obj)
    ensures Valid(r.st) && r.st.data == st.data && Rank(r.st) <= Rank(st)
    ensures Sorted(r.members) && Keys(obj) <= Keys(r.members)
    ensures forall k :: k in Keys(obj) ==> Find(r.members, k) == Find(obj, k)
    ensures r.out == Ok ==> Rank(r.st) < Rank(st)
    decreases Rank(st), 3
  {
    var s := ParseString(st);
    if !s.ok then ObjResult(Fail, obj, s.st)
    else
      var a := ParseAssign(s.st);
      if !a.ok then ObjResult(Fail, obj, a.st)
      else ObjectLoop(a.st, obj, s.text, false)
  }

  /** The loop's step with a key pending: its value, the insert, and the
      separator after it. */
  function ObjectValue(st: Stream, obj: Members, key: string): (r: ObjResult)
    requires Valid(st) && Sorted(obj) && key != ""
    ensures Valid(r.st) && r.st.data == st.data && Rank(r.st) <= Rank(st)
    ensures Sorted(r.members) && Keys(obj) <= Keys(r.members)
    ensures forall k :: k in Keys(obj) ==> Find(r.members, k) == Find(obj, k)
    ensures r.out == Ok ==> Rank(r.st) < Rank(st)
    decreases Rank(st), 3
  {
    var v := ParseValue(st);
    if v.out != Ok then ObjResult(v.out, obj, v.st)
    else if key in Keys(obj) then ObjResult(Throw, obj, v.st)
    else
      var obj' := Put(obj, key, v.val);
      var sep := ParseSeparator(v.st);
      if !sep.ok then ObjResult(Fail, obj', sep.st)
      else ObjectLoop(sep.st, obj', "", true)
  }

  /** JSON::parseArray(buf, ary): '[' must come first; the values are
      appended to ary. The loop ends in success when it leaves through the
      eofbit, whatever it read last. */
  function ParseArray(st: Stream, ary: seq<Json>): (r: ArrResult)
    requires Valid(st)
    ensures Valid(r.st) && r.st.data == st.data && Rank(r.st) <= Rank(st)
    ensures |r.items| >= |ary| && r.items[..|ary|] == ary
    ensures r.out == Ok ==> Rank(r.st) < Rank(st)
    ensures st.pos < |st.data| && st.data[st.pos] != '[' ==> r.out == Fail && r.items == ary
    decreases Rank(st), 1
  {
    var g := Get(st);
    if g.sym != Ch('[') then ArrResult(Fail, ary, g.st)
    else ArrayLoop(g.st, ary)
  }

  function ArrayLoop(st: Stream, ary: seq<Json>): (r: ArrResult)
    requires Valid(st)
    ensures Valid(r.st) && r.st.data == st.data && Rank(r.st) <= Rank(st)
    ensures |r.items| >= |ary| && r.items[..|ary|] == ary
    ensures r.out == Ok ==> Rank(r.st) < Rank(st) || st.eof
    decreases Rank(st), 4
  {
    if st.eof then ArrResult(Ok, ary, st)
    else
      var pk := Peek(st);
      if SpaceSym(pk.sym) then ArrayLoop(Get(pk.st).st, ary)
      else if pk.sym == Ch(']') then ArrResult(Ok, ary, Get(pk.st).st)
      else ArrayValue(pk.st, ary)
  }

  /** The array loop's step: a value and the separator after it. */
  function ArrayValue(st: Stream, ary: seq<Json>): (r: ArrResult)
    requires Valid(st)
    ensures Valid(r.st) && r.st.data == st.data && Rank(r.st) <= Rank(st)
    ensures |r.items| >= |ary| && r.items[..|ary|] == ary
    ensures r.out == Ok ==> Rank(r.st) < Rank(st)
    decreases Rank(st), 3
  {
    var v := ParseValue(st);
    if v.out != Ok then ArrResult(v.out, ary, v.st)
    else
      var ary' := ary + [v.val];
      var sep := ParseSeparator(v.st);
      if !sep.ok then ArrResult(Fail, ary', sep.st)
      else ArrayLoop(sep.st, ary')
  }

  // ---------------------------------------------------------------------
  // Entry points (JSON::parse)

  datatype Parsed = Parsed(out: Outcome, root: Members)

  /** JSON::parse(string, clear): reading starts at the first '{'; without
      one, parsing fails at once and the root is left alone. Otherwise the
      root is cleared when asked and the document is parsed into it; a
      failure part-way keeps the pairs inserted so far. */
  function Parse(str: string, root: Members, clear: bool): (r: Parsed)
    requires Sorted(root)
    ensures '{' !in str ==> r == Parsed(Fail, root)
    ensures Sorted(r.root)
    ensures !clear ==> Keys(root) <= Keys(r.root)
    ensures !clear ==> forall k :: k in Keys(root) ==> Find(r.root, k) == Find(root, k)
  {
    match FindFirst(str, '{')
    case None => Parsed(Fail, root)
    case Some(i) =>
      var o := ParseObject(Open(str[i..]), if clear then [] else root);
      Parsed(o.out, o.members)
  }

  /** `while (!buf.eof() && buf.peek() != '{') buf.get();` */
  function SeekBrace(st: Stream): (r: Stream)
    requires Valid(st)
    ensures Valid(r) && r.data == st.data && st.pos <= r.pos
    ensures forall i :: st.pos <= i < r.pos ==> st.data[i] != '{'
    ensures r.eof || (r.pos < |r.data| && r.data[r.pos] == '{')
    decreases Rank(st)
  {
    if st.eof then st
    else
      var p := Peek(st);
      if p.sym == Ch('{') then p.st
      else SeekBrace(Get(p.st).st)
  }

  /** JSON::parse(istream, clear): input before the first '{' is discarded;
      the root is cleared when asked even if no '{' comes. */
  function ParseStream(st: Stream, root: Members, clear: bool): (r: Parsed)
    requires Valid(st) && Sorted(root)
    ensures !clear ==> Keys(root) <= Keys(r.root)
    ensures '{' !in st.data[st.pos..] ==> r.out == Fail && r.root == (if clear then [] else root)
  {
    var s := SeekBrace(st);
    var o := ParseObject(s, if clear then [] else root);
    assert '{' !in st.data[st.pos..] ==> s.eof by {
      if !s.eof { assert st.data[st.pos..][s.pos - st.pos] == '{'; }
    }
    Parsed(o.out, o.members)
  }

  /** JSON::IsValidChar: an ASCII letter or a byte from 0xC0 up. */
  predicate IsValidChar(c: char)
  {
    ('A' <= c <= 'Z') || ('a' <= c <= 'z') || c >= '\U{00C0}'
  }
}

=== FILE: json_roundtrip.dfy ===
/** What the tcajson parser makes of the writer's own output.

    The writer of module JsonValue with Escaped quoting produces text that
    JSON::parse reads back as the same tree, for every tree whose keys are
    non-empty (the parser uses the empty key to mean "no key read yet") and
    whose numbers are lexemes the parser recognises. tcajson's own writer
    does not escape, and the round trip fails as soon as a string holds a
    double quote. */
module JsonRoundTrip {
  import opened Base
  import opened Stream
  import opened JsonValue
  import opened JsonParser

  /** A number lexeme that ParseValueType announces as a number and
      parseNumber reads whole. */
  predicate NumberLexeme(s: string)
  {
    |s| > 0 && (s[0] == '-' || '0' <= s[0] <= '9') && forall i :: 0 <= i < |s| ==> InNumSet(s[i])
  }

  predicate MembersEncodable(ms: seq<Entry<Json>>)
  {
    forall i :: 0 <= i < |ms| ==> ms[i].key != "" && Encodable(ms[i].val)
  }

  predicate Encodable(v: Json)
  {
    match v
    case JObject(ms) => Sorted(ms) && MembersEncodable(ms)
    case JArray(xs) => forall i :: 0 <= i < |xs| ==> Encodable(xs[i])
    case JNumber(lex) => NumberLexeme(lex)
    case _ => true
  }

  /** The escaping writer, as a value inside a container writes it. */
  function Text(v: Json): string
  {
    ToJson(v, true, Escaped)
  }

  /** Words (true, false, null) swallow the space before a closing bracket. */
  function WordGap(v: Json, st: Stream): nat
    requires st.pos < |st.data|
  {
    if v.JBoolean? || v.JNull? then Gap(st) else 0
  }

  /** Two given characters come next. */
  predicate Two(st: Stream, a: char, b: char)
  {
    st.pos + 1 < |st.data| && st.data[st.pos] == a && st.data[st.pos + 1] == b
  }

  lemma AtTwo(st: Stream, s: string)
    requires At(st, s) && |s| == 2
    ensures Two(st, s[0], s[1])
  {
    AtPointwise(st, s);
  }

  /** The first character of a value's text announces its type. */
  lemma TextLead(v: Json, t: string)
    requires Encodable(v) && t == Text(v)
    ensures |t| > 0
    ensures !IsSpace(t[0]) && t[0] != '}' && t[0] != ']'
    ensures LeadTag(Ch(t[0])) == TagOf(v)
  {
  }

  /** ParseValueType announces the type of the value written next. */
  lemma ValueTypeAt(st: Stream, v: Json, t: string)
    requires Valid(st) && Encodable(v) && t == Text(v) && At(st, t)
    ensures SkipWs(st) == st && ValueType(st) == Typed(TagOf(v), st)
  {
    TextLead(v, t);
    AtHead(st, t);
  }

  /** The writer's pair `"k" : v` followed by sep and the rest, split into its
      pieces. */
  lemma PairAt(st: Stream, q: string, tv: string, sep: string, rest: string)
    requires At(st, q + " : " + tv + sep + rest)
    ensures At(st, q) && Two(Adv(st, |q|), ' ', ':')
    ensures st.data[st.pos + |q| + 2] == ' '
    ensures At(Adv(st, |q| + 3), tv)
    ensures At(Adv(st, |q| + 3 + |tv|), sep)
    ensures At(Adv(st, |q| + 3 + |tv| + |sep|), rest)
  {
    AtConcat(st, q + " : " + tv + sep, rest);
    AtConcat(st, q + " : " + tv, sep);
    AtConcat(st, q + " : ", tv);
    AtConcat(st, q, " : ");
    AtPointwise(Adv(st, |q|), " : ");
  }

  /** Where the parts of `"k" : v` and the separator after it lie. */
  lemma SepAt(st: Stream, q: string, tv: string, sep: string, rest: string)
    requires At(st, q + " : " + tv + sep + rest) && (sep == ", " || sep == "")
    ensures At(st, q) && Two(Adv(st, |q|), ' ', ':')
    ensures st.pos + |q| + 2 < |st.data| && st.data[st.pos + |q| + 2] == ' '
    ensures At(Adv(st, |q| + 3), tv)
    ensures sep == ", " ==> Two(Adv(st, |q| + 3 + |tv|), ',', ' ') && At(Adv(st, |q| + |tv| + 5), rest)
  {
    PairAt(st, q, tv, sep, rest);
    if sep == ", " {
      AtTwo(Adv(st, |q| + 3 + |tv|), sep);
      assert Adv(st, |q| + 3 + |tv| + |sep|) == Adv(st, |q| + |tv| + 5);
    }
  }

  lemma ItemSepAt(st: Stream, tv: string, sep: string, rest: string)
    requires At(st, tv + sep + rest) && (sep == ", " || sep == "")
    ensures At(st, tv)
    ensures sep == ", " ==> Two(Adv(st, |tv|), ',', ' ') && At(Adv(st, |tv| + 2), rest)
  {
    AtConcat(st, tv + sep, rest);
    AtConcat(st, tv, sep);
    if sep == ", " {
      AtTwo(Adv(st, |tv|), sep);
    }
  }

  /** A bracketed body `o mid c` as the writer lays out objects and arrays. */
  lemma BracketAt(st: Stream, o: string, mid: string, c: string)
    requires At(st, o + mid + c) && |o| == 2 && |c| == 2
    ensures Two(st, o[0], o[1]) && At(Adv(st, 2), mid) && Two(Adv(st, 2 + |mid|), c[0], c[1])
  {
    AtConcat(st, o + mid, c);
    AtConcat(st, o, mid);
    AtTwo(st, o);
    AtTwo(Adv(st, 2 + |mid|), c);
  }

  /** After a value, ParseSeparator leaves the stream one past its text,
      whether or not a word swallowed the space. */
  lemma AfterValue(st: Stream, g: nat)
    requires Valid(st) && After(st) && (g == 0 || g == Gap(st))
    ensures ParseSeparator(Adv(st, g)) == Flag(true, Adv(st, 1))
  {
    if g == 0 {
      SeparatorAfter(st);
    } else {
      SeparatorAtClose(Adv(st, 1));
    }
  }

  // ---------------------------------------------------------------------
  // Single steps of the object loop

  lemma LoopSkipSpace(st: Stream, obj: Members, key: string, p: bool)
    requires Valid(st) && Sorted(obj) && st.pos < |st.data| && st.data[st.pos] == ' '
    ensures ObjectLoop(st, obj, key, p) == ObjectLoop(Adv(st, 1), obj, key, p)
  {
  }

  lemma LoopClose(st: Stream, obj: Members, key: string, p: bool)
    requires Valid(st) && Sorted(obj) && st.pos < |st.data| && st.data[st.pos] == '}'
    ensures ObjectLoop(st, obj, key, p) == ObjResult(if p then Ok else Fail, obj, Adv(st, 1))
  {
  }

  lemma AssignAt(st: Stream)
    requires Valid(st) && Two(st, ' ', ':')
    ensures ParseAssign(st) == Flag(true, Adv(st, 2))
  {
    SkipWsRun(st, 1);
  }

  /** With no key pending, a quote starts the key branch of the loop. */
  lemma LoopToKey(st: Stream, obj: Members, p: bool)
    requires Valid(st) && Sorted(obj) && st.pos < |st.data| && st.data[st.pos] == '"'
    ensures ObjectLoop(st, obj, "", p) == ObjectKey(st, obj)
  {
    assert Peek(st) == Read(Ch('"'), st);
  }

  /** A quoted key and the colon after it: the loop now holds the key. */
  lemma KeyReads(st: Stream, obj: Members, k: string, q: string)
    requires Valid(st) && Sorted(obj) && k != "" && q == Quote(k, Escaped)
    requires At(st, q) && Two(Adv(st, |q|), ' ', ':')
    ensures ObjectKey(st, obj) == ObjectLoop(Adv(st, |q| + 2), obj, k, false)
  {
    var a := Adv(st, |q|);
    assert !st.eof && Valid(a) && Two(a, ' ', ':') && Adv(a, 2) == Adv(st, |q| + 2);
    StringRoundTrip(st, k);
    AssignAt(a);
    assert ParseString(st) == StrResult(true, k, a);
    assert ParseAssign(a) == Flag(true, Adv(st, |q| + 2));
  }

  lemma LoopKey(st: Stream, obj: Members, k: string, p: bool, q: string)
    requires Valid(st) && Sorted(obj) && k != "" && q == Quote(k, Escaped)
    requires At(st, q) && Two(Adv(st, |q|), ' ', ':')
    ensures ObjectLoop(st, obj, "", p) == ObjectLoop(Adv(st, |q| + 2), obj, k, false)
  {
    AtHead(st, q);
    assert q[0] == '"';
    LoopToKey(st, obj, p);
    KeyReads(st, obj, k, q);
  }

  /** The key, its colon and the space after it. */
  lemma KeyThenSpace(st: Stream, obj: Members, k: string, p: bool, q: string)
    requires Valid(st) && Sorted(obj) && k != "" && q == Quote(k, Escaped)
    requires At(st, q) && Two(Adv(st, |q|), ' ', ':')
    requires st.pos + |q| + 2 < |st.data| && st.data[st.pos + |q| + 2] == ' '
    ensures ObjectLoop(st, obj, "", p) == ObjectLoop(Adv(st, |q| + 3), obj, k, false)
  {
    var s1 := Adv(st, |q| + 2);
    assert Valid(s1) && s1.pos < |s1.data| && s1.data[s1.pos] == ' ' && Adv(s1, 1) == Adv(st, |q| + 3);
    LoopKey(st, obj, k, p, q);
    LoopSkipSpace(s1, obj, k, false);
  }

  /** With a key pending, anything but a space or a brace starts the value
      branch of the loop. */
  lemma LoopToValue(st: Stream, obj: Members, k: string, p: bool)
    requires Valid(st) && Sorted(obj) && k != ""
    requires st.pos < |st.data| && !IsSpace(st.data[st.pos]) && st.data[st.pos] != '}'
    ensures ObjectLoop(st, obj, k, p) == ObjectValue(st, obj, k)
  {
    assert Peek(st) == Read(Ch(st.data[st.pos]), st);
  }

  /** A value read and a separator after it: the pair is stored and the
      loop goes on with no key pending. */
  lemma ValueStore(st: Stream, obj: Members, k: string, v: Json, a: Stream, b: Stream)
    requires Valid(st) && Sorted(obj) && k != "" && k !in Keys(obj)
    requires ParseValue(st) == ValResult(Ok, v, a) && ParseSeparator(a) == Flag(true, b)
    ensures ObjectValue(st, obj, k) == ObjectLoop(b, Put(obj, k, v), "", true)
  {
  }

  /** The value read, and the separator after it, for a value the escaping
      writer put down. */
  lemma {:induction false} ValueThenSeparator(st: Stream, v: Json, t: string)
    requires Valid(st) && Encodable(v) && t == Text(v) && At(st, t) && After(Adv(st, |t|))
    ensures |t| > 0 && !IsSpace(st.data[st.pos]) && st.data[st.pos] != '}' && st.data[st.pos] != ']'
    ensures ParseValue(st).out == Ok && ParseValue(st).val == v
    ensures ParseSeparator(ParseValue(st).st) == Flag(true, Adv(st, |t| + 1))
    decreases v, 6
  {
    var a := Adv(st, |t|);
    var g := WordGap(v, a);
    TextLead(v, t);
    AtHead(st, t);
    ValueReads(st, v, t);
    var r := ParseValue(st);
    assert r.st == Adv(a, g);
    AfterValue(a, g);
    assert Adv(a, 1) == Adv(st, |t| + 1);
  }

  /** A value and what follows it: the value is stored under the pending key
      and the separator consumed. */
  lemma {:induction false} LoopValue(st: Stream, obj: Members, k: string, v: Json, t: string)
    requires Valid(st) && Sorted(obj) && k != "" && k !in Keys(obj)
    requires Encodable(v) && t == Text(v) && At(st, t) && After(Adv(st, |t|))
    ensures ObjectLoop(st, obj, k, false) == ObjectLoop(Adv(st, |t| + 1), Put(obj, k, v), "", true)
    decreases v, 7
  {
    ValueThenSeparator(st, v, t);
    var r := ParseValue(st);
    assert r == ValResult(Ok, v, r.st);
    LoopToValue(st, obj, k, false);
    ValueStore(st, obj, k, v, r.st, Adv(st, |t| + 1));
  }

  /** The same step when the key is already present: insert throws. */
  lemma {:induction false} LoopValueDuplicate(st: Stream, obj: Members, k: string, v: Json, t: string)
    requires Valid(st) && Sorted(obj) && k != "" && k in Keys(obj)
    requires Encodable(v) && t == Text(v) && At(st, t) && After(Adv(st, |t|))
    ensures ObjectLoop(st, obj, k, false).out == Throw
    ensures ObjectLoop(st, obj, k, false).members == obj
  {
    ValueThenSeparator(st, v, t);
    var r := ParseValue(st);
    assert r == ValResult(Ok, v, r.st);
    LoopToValue(st, obj, k, false);
    assert ObjectValue(st, obj, k) == ObjResult(Throw, obj, r.st);
  }

  /** One pair `"k" : v` and its separator. */
  lemma {:induction false} MemberStep(st: Stream, obj: Members, k: string, v: Json, q: string, tv: string)
    requires Valid(st) && Sorted(obj) && k != "" && k !in Keys(obj) && Encodable(v)
    requires q == Quote(k, Escaped) && tv == Text(v)
    requires At(st, q) && Two(Adv(st, |q|), ' ', ':')
    requires st.pos + |q| + 2 < |st.data| && st.data[st.pos + |q| + 2] == ' '
    requires At(Adv(st, |q| + 3), tv) && After(Adv(st, |q| + 3 + |tv|))
    ensures ObjectLoop(st, obj, "", true) == ObjectLoop(Adv(st, |q| + |tv| + 4), Put(obj, k, v), "", true)
    decreases v, 8
  {
    var s2 := Adv(st, |q| + 3);
    assert Valid(s2) && At(s2, tv) && Adv(s2, |tv|) == Adv(st, |q| + 3 + |tv|);
    assert Adv(s2, |tv| + 1) == Adv(st, |q| + |tv| + 4);
    KeyThenSpace(st, obj, k, true, q);
    LoopValue(s2, obj, k, v, tv);
  }

  /** A pair whose key is already present: the loop ends in a throw with
      the members untouched. */
  lemma MemberDuplicate(st: Stream, obj: Members, k: string, v: Json, q: string, tv: string)
    requires Valid(st) && Sorted(obj) && k != "" && k in Keys(obj) && Encodable(v)
    requires q == Quote(k, Escaped) && tv == Text(v)
    requires At(st, q) && Two(Adv(st, |q|), ' ', ':')
    requires st.pos + |q| + 2 < |st.data| && st.data[st.pos + |q| + 2] == ' '
    requires At(Adv(st, |q| + 3), tv) && After(Adv(st, |q| + 3 + |tv|))
    ensures ObjectLoop(st, obj, "", true).out == Throw
    ensures ObjectLoop(st, obj, "", true).members == obj
  {
    var s2 := Adv(st, |q| + 3);
    assert Valid(s2) && At(s2, tv) && Adv(s2, |tv|) == Adv(st, |q| + 3 + |tv|);
    KeyThenSpace(st, obj, k, true, q);
    LoopValueDuplicate(s2, obj, k, v, tv);
  }

  /** A pair followed by ", ": the loop is at the next pair. */
  lemma {:induction false} MemberThen(st: Stream, obj: Members, k: string, v: Json, q: string, tv: string)
    requires Valid(st) && Sorted(obj) && k != "" && k !in Keys(obj) && Encodable(v)
    requires q == Quote(k, Escaped) && tv == Text(v)
    requires At(st, q) && Two(Adv(st, |q|), ' ', ':')
    requires st.pos + |q| + 2 < |st.data| && st.data[st.pos + |q| + 2] == ' '
    requires At(Adv(st, |q| + 3), tv) && Two(Adv(st, |q| + 3 + |tv|), ',', ' ')
    ensures ObjectLoop(st, obj, "", true) == ObjectLoop(Adv(st, |q| + |tv| + 5), Put(obj, k, v), "", true)
    decreases v, 9
  {
    var w, s := Adv(st, |q| + 3 + |tv|), Adv(st, |q| + |tv| + 4);
    assert After(w) && Valid(s) && s.pos < |s.data| && s.data[s.pos] == ' ';
    assert Adv(s, 1) == Adv(st, |q| + |tv| + 5);
    MemberStep(st, obj, k, v, q, tv);
    LoopSkipSpace(s, Put(obj, k, v), "", true);
  }

  /** The last pair, followed by " }": the loop ends in success. */
  lemma {:induction false} MemberLast(st: Stream, obj: Members, k: string, v: Json, q: string, tv: string)
    requires Valid(st) && Sorted(obj) && k != "" && k !in Keys(obj) && Encodable(v)
    requires q == Quote(k, Escaped) && tv == Text(v)
    requires At(st, q) && Two(Adv(st, |q|), ' ', ':')
    requires st.pos + |q| + 2 < |st.data| && st.data[st.pos + |q| + 2] == ' '
    requires At(Adv(st, |q| + 3), tv) && Two(Adv(st, |q| + 3 + |tv|), ' ', '}')
    ensures ObjectLoop(st, obj, "", true) == ObjResult(Ok, Put(obj, k, v), Adv(st, |q| + |tv| + 5))
    decreases v, 9
  {
    var w, s := Adv(st, |q| + 3 + |tv|), Adv(st, |q| + |tv| + 4);
    assert After(w) && Valid(s) && s.pos < |s.data| && s.data[s.pos] == '}';
    assert Adv(s, 1) == Adv(st, |q| + |tv| + 5);
    MemberStep(st, obj, k, v, q, tv);
    LoopClose(s, Put(obj, k, v), "", true);
  }

  // ---------------------------------------------------------------------
  // Single steps of the array loop

  lemma ArraySkipSpace(st: Stream, ary: seq<Json>)
    requires Valid(st) && st.pos < |st.data| && st.data[st.pos] == ' '
    ensures ArrayLoop(st, ary) == ArrayLoop(Adv(st, 1), ary)
  {
  }

  lemma ArrayClose(st: Stream, ary: seq<Json>)
    requires Valid(st) && st.pos < |st.data| && st.data[st.pos] == ']'
    ensures ArrayLoop(st, ary) == ArrResult(Ok, ary, Adv(st, 1))
  {
  }

  lemma ArrayToValue(st: Stream, ary: seq<Json>)
    requires Valid(st) && st.pos < |st.data| && !IsSpace(st.data[st.pos]) && st.data[st.pos] != ']'
    ensures ArrayLoop(st, ary) == ArrayValue(st, ary)
  {
    assert Peek(st) == Read(Ch(st.data[st.pos]), st);
  }

  lemma ItemStore(st: Stream, ary: seq<Json>, v: Json, a: Stream, b: Stream)
    requires Valid(st) && ParseValue(st) == ValResult(Ok, v, a) && ParseSeparator(a) == Flag(true, b)
    ensures ArrayValue(st, ary) == ArrayLoop(b, ary + [v])
  {
  }

  lemma {:induction false} ArrayItem(st: Stream, ary: seq<Json>, v: Json, t: string)
    requires Valid(st) && Encodable(v) && t == Text(v) && At(st, t) && After(Adv(st, |t|))
    ensures ArrayLoop(st, ary) == ArrayLoop(Adv(st, |t| + 1), ary + [v])
    decreases v, 7
  {
    ValueThenSeparator(st, v, t);
    var r := ParseValue(st);
    assert r == ValResult(Ok, v, r.st);
    ArrayToValue(st, ary);
    ItemStore(st, ary, v, r.st, Adv(st, |t| + 1));
  }

  /** An element followed by ", ": the loop is at the next element. */
  lemma {:induction false} ItemThen(st: Stream, ary: seq<Json>, v: Json, t: string)
    requires Valid(st) && Encodable(v) && t == Text(v) && At(st, t) && Two(Adv(st, |t|), ',', ' ')
    ensures ArrayLoop(st, ary) == ArrayLoop(Adv(st, |t| + 2), ary + [v])
    decreases v, 8
  {
    var w, s := Adv(st, |t|), Adv(st, |t| + 1);
    assert After(w) && Valid(s) && s.pos < |s.data| && s.data[s.pos] == ' ';
    assert Adv(s, 1) == Adv(st, |t| + 2);
    ArrayItem(st, ary, v, t);
    ArraySkipSpace(s, ary + [v]);
  }

  /** The last element, followed by " ]": the loop ends in success. */
  lemma {:induction false} ItemLast(st: Stream, ary: seq<Json>, v: Json, t: string)
    requires Valid(st) && Encodable(v) && t == Text(v) && At(st, t) && Two(Adv(st, |t|), ' ', ']')
    ensures ArrayLoop(st, ary) == ArrResult(Ok, ary + [v], Adv(st, |t| + 2))
    decreases v, 8
  {
    var w, s := Adv(st, |t|), Adv(st, |t| + 1);
    assert After(w) && Valid(s) && s.pos < |s.data| && s.data[s.pos] == ']';
    assert Adv(s, 1) == Adv(st, |t| + 2);
    ArrayItem(st, ary, v, t);
    ArrayClose(s, ary + [v]);
  }

  // ---------------------------------------------------------------------
  // The round trip, by induction over the tree

  /** Every encodable value, followed by what a container writes after it,
      parses back to itself. */
  lemma {:induction false} ValueReads(st: Stream, v: Json, t: string)
    requires Valid(st) && Encodable(v) && t == Text(v) && At(st, t) && After(Adv(st, |t|))
    ensures ParseValue(st) == ValResult(Ok, v, Adv(st, |t| + WordGap(v, Adv(st, |t|))))
    decreases v, 5
  {
    match v
    case JObject(ms) => ObjectValueReads(st, ms, t);
    case JArray(xs) => ArrayValueReads(st, xs, t);
    case JNumber(lex) => NumberValueReads(st, lex);
    case JString(s) => StringValueReads(st, s, t);
    case JBoolean(b) => BooleanValueReads(st, b, t);
    case JNull => NullValueReads(st, t);
  }

  lemma {:induction false} ObjectValueReads(st: Stream, ms: seq<Entry<Json>>, t: string)
    requires Valid(st) && Encodable(JObject(ms)) && t == Text(JObject(ms)) && At(st, t)
    ensures ParseValue(st) == ValResult(Ok, JObject(ms), Adv(st, |t|))
    decreases ms, 5
  {
    ValueTypeAt(st, JObject(ms), t);
    assert [] + ms == ms;
    ObjectReads(st, ms, [], t);
  }

  lemma {:induction false} ArrayValueReads(st: Stream, xs: seq<Json>, t: string)
    requires Valid(st) && Encodable(JArray(xs)) && t == Text(JArray(xs)) && At(st, t)
    ensures ParseValue(st) == ValResult(Ok, JArray(xs), Adv(st, |t|))
    decreases xs, 5
  {
    ValueTypeAt(st, JArray(xs), t);
    assert [] + xs == xs;
    ArrayReads(st, xs, [], t);
  }

  lemma NumberValueReads(st: Stream, lex: string)
    requires Valid(st) && NumberLexeme(lex) && At(st, lex) && After(Adv(st, |lex|))
    ensures ParseValue(st) == ValResult(Ok, JNumber(lex), Adv(st, |lex|))
  {
    ValueTypeAt(st, JNumber(lex), lex);
    NumberRoundTrip(st, lex);
  }

  /** A string needs nothing after it: its closing quote ends it. */
  lemma StringValueReads(st: Stream, s: string, t: string)
    requires Valid(st) && t == Quote(s, Escaped) && At(st, t)
    ensures ParseValue(st) == ValResult(Ok, JString(s), Adv(st, |t|))
  {
    ValueTypeAt(st, JString(s), t);
    StringRoundTrip(st, s);
  }

  lemma BooleanValueReads(st: Stream, b: bool, t: string)
    requires Valid(st) && t == Text(JBoolean(b)) && At(st, t) && After(Adv(st, |t|))
    ensures ParseValue(st) == ValResult(Ok, JBoolean(b), Adv(st, |t| + Gap(Adv(st, |t|))))
  {
    BooleanWord(b);
    ValueTypeAt(st, JBoolean(b), t);
    TokenRunReads(st, t);
    var e := Adv(st, |t| + Gap(Adv(st, |t|)));
    assert Token(st) == TokResult(t, e);
    assert ParseBoolean(st) == ValResult(Ok, JBoolean(b), e);
    assert ParseValue(st) == ParseScalar(Typed(TagBoolean, st));
  }

  /** The words the writer puts down for a boolean. */
  lemma BooleanWord(b: bool)
    ensures Text(JBoolean(b)) == if b then "true" else "false"
    ensures (Text(JBoolean(b)) == "true") == b
    ensures forall i :: 0 <= i < |Text(JBoolean(b))| ==>
      !IsSpace(Text(JBoolean(b))[i]) && !IsSepChar(Text(JBoolean(b))[i])
  {
    assert |"false"| != |"true"|;
  }

  lemma NullValueReads(st: Stream, t: string)
    requires Valid(st) && t == Text(JNull) && At(st, t) && After(Adv(st, |t|))
    ensures ParseValue(st) == ValResult(Ok, JNull, Adv(st, |t| + Gap(Adv(st, |t|))))
  {
    assert t == "null";
    ValueTypeAt(st, JNull, t);
    TokenRunReads(st, t);
    var e := Adv(st, |t| + Gap(Adv(st, |t|)));
    assert Token(st) == TokResult(t, e);
    assert ParseLiteral(st, TagNull) == ValResult(Ok, JNull, e);
    assert ParseValue(st) == ParseScalar(Typed(TagNull, st));
  }

  /** An object written by the escaping writer parses back, into obj, as obj
      followed by its pairs, provided they all sort after obj's keys. */
  lemma {:induction false} ObjectReads(st: Stream, ms: seq<Entry<Json>>, obj: Members, t: string)
    requires Valid(st) && Sorted(obj + ms) && MembersEncodable(ms)
    requires t == Text(JObject(ms)) && At(st, t)
    ensures Sorted(obj)
    ensures ParseObject(st, obj) == ObjResult(Ok, obj + ms, Adv(st, |t|))
    decreases ms, 4
  {
    SortedSplit(obj, ms);
    var mt := MembersText(ms, 1, |ms|, Escaped);
    assert t == "{ " + mt + " }";
    var all := obj + ms;
    BracketAt(st, "{ ", mt, " }");
    var s1, s2 := Adv(st, 1), Adv(st, 2);
    assert Get(st) == Read(Ch('{'), s1);
    assert Valid(s1) && s1.pos < |s1.data| && s1.data[s1.pos] == ' ' && Adv(s1, 1) == s2;
    assert Valid(s2) && At(s2, mt) && Adv(s2, |mt|) == Adv(st, 2 + |mt|);
    assert Adv(s2, |mt| + 2) == Adv(st, |t|);
    LoopSkipSpace(s1, obj, "", true);
    MembersReads(s2, ms, obj, mt, all);
  }

  /** The writers' loops depend on the position only through how many
      items are left after it. */
  lemma {:induction false} MembersTextShift(ms: seq<Entry<Json>>, i: nat, n: nat, j: nat, m: nat, q: Quoting)
    requires n - i == m - j
    ensures MembersText(ms, i, n, q) == MembersText(ms, j, m, q)
    decreases ms
  {
    if |ms| > 0 {
      MembersTextShift(ms[1..], i + 1, n, j + 1, m, q);
    }
  }

  lemma {:induction false} ItemsTextShift(xs: seq<Json>, i: nat, n: nat, j: nat, m: nat, q: Quoting)
    requires n - i == m - j
    ensures ItemsText(xs, i, n, q) == ItemsText(xs, j, m, q)
    decreases xs
  {
    if |xs| > 0 {
      ItemsTextShift(xs[1..], i + 1, n, j + 1, m, q);
    }
  }

  /** A whole object's pairs: the first pair, a separator unless it is the
      last, then the rest written as a whole. */
  lemma MembersTextHead(ms: seq<Entry<Json>>)
    requires |ms| > 0
    ensures MembersText(ms, 1, |ms|, Escaped)
      == Quote(ms[0].key, Escaped) + " : " + Text(ms[0].val) + (if 1 < |ms| then ", " else "")
         + MembersText(ms[1..], 1, |ms[1..]|, Escaped)
  {
    MembersTextShift(ms[1..], 2, |ms|, 1, |ms[1..]|, Escaped);
  }

  lemma ItemsTextHead(xs: seq<Json>)
    requires |xs| > 0
    ensures ItemsText(xs, 1, |xs|, Escaped)
      == Text(xs[0]) + (if 1 < |xs| then ", " else "") + ItemsText(xs[1..], 1, |xs[1..]|, Escaped)
  {
    ItemsTextShift(xs[1..], 2, |xs|, 1, |xs[1..]|, Escaped);
  }

  /** The object loop over the pairs ms, written as a whole object's pairs
      are, up to the closing " }". all is what the object holds at the end. */
  lemma {:induction false} MembersReads(st: Stream, ms: seq<Entry<Json>>, obj: Members, mt: string, all: Members)
    requires Valid(st) && Sorted(obj) && Sorted(all) && all == obj + ms && MembersEncodable(ms)
    requires mt == MembersText(ms, 1, |ms|, Escaped) && At(st, mt) && Two(Adv(st, |mt|), ' ', '}')
    ensures ObjectLoop(st, obj, "", true) == ObjResult(Ok, all, Adv(st, |mt| + 2))
    decreases ms, 3
  {
    if |ms| == 0 {
      assert Adv(Adv(st, 1), 1) == Adv(st, 2);
      LoopSkipSpace(st, obj, "", true);
      LoopClose(Adv(st, 1), obj, "", true);
      assert all == obj;
    } else {
      MembersNext(st, ms, obj, mt, all);
    }
  }

  /** The first pair is encodable, and so are the rest. */
  lemma EncodableSplit(ms: seq<Entry<Json>>)
    requires MembersEncodable(ms) && |ms| > 0
    ensures ms[0].key != "" && Encodable(ms[0].val) && MembersEncodable(ms[1..])
  {
    forall j | 0 <= j < |ms| - 1 ensures ms[1..][j].key != "" && Encodable(ms[1..][j].val) {
      assert ms[1..][j] == ms[j + 1];
    }
  }

  /** The pair a loop step stores, and what remains, still make up all. */
  lemma NextPair(obj: Members, ms: seq<Entry<Json>>, all: Members)
    requires Sorted(all) && all == obj + ms && |ms| > 0
    ensures ms[0].key !in Keys(obj) && Sorted(obj) && Sorted(Put(obj, ms[0].key, ms[0].val))
    ensures all == Put(obj, ms[0].key, ms[0].val) + ms[1..]
  {
    CopyStep(obj, ms);
  }

  /** The first of the remaining pairs, then the rest. */
  lemma {:induction false} MembersNext(st: Stream, ms: seq<Entry<Json>>, obj: Members, mt: string, all: Members)
    requires Valid(st) && Sorted(obj) && Sorted(all) && all == obj + ms && MembersEncodable(ms) && |ms| > 0
    requires mt == MembersText(ms, 1, |ms|, Escaped) && At(st, mt) && Two(Adv(st, |mt|), ' ', '}')
    ensures ObjectLoop(st, obj, "", true) == ObjResult(Ok, all, Adv(st, |mt| + 2))
    decreases ms, 2
  {
    var k, v := ms[0].key, ms[0].val;
    var q, tv := Quote(k, Escaped), Text(v);
    var sep := if 1 < |ms| then ", " else "";
    var mt' := MembersText(ms[1..], 1, |ms[1..]|, Escaped);
    MembersTextHead(ms);
    assert mt == q + " : " + tv + sep + mt';
    SepAt(st, q, tv, sep, mt');
    NextPair(obj, ms, all);
    EncodableSplit(ms);
    var obj' := Put(obj, k, v);
    if 1 < |ms| {
      assert |mt| == |q| + |tv| + 5 + |mt'|;
      MembersNextMore(st, obj, ms, q, tv, mt', all, |mt|);
    } else {
      assert |mt'| == 0 && Adv(st, |q| + 3 + |tv|) == Adv(st, |mt|) && all == obj';
      MemberLast(st, obj, k, v, q, tv);
    }
  }

  /** A pair followed by ", " and the remaining pairs. */
  lemma {:induction false} MembersNextMore(st: Stream, obj: Members, ms: seq<Entry<Json>>, q: string, tv: string,
                                           mt: string, all: Members, n: nat)
    requires |ms| > 1 && Valid(st) && Sorted(obj) && ms[0].key != "" && ms[0].key !in Keys(obj)
    requires Encodable(ms[0].val) && q == Quote(ms[0].key, Escaped) && tv == Text(ms[0].val)
    requires At(st, q) && Two(Adv(st, |q|), ' ', ':')
    requires st.pos + |q| + 2 < |st.data| && st.data[st.pos + |q| + 2] == ' '
    requires At(Adv(st, |q| + 3), tv) && Two(Adv(st, |q| + 3 + |tv|), ',', ' ')
    requires n == |q| + |tv| + 5 + |mt|
    requires At(Adv(st, |q| + |tv| + 5), mt) && Two(Adv(st, n), ' ', '}')
    requires Sorted(Put(obj, ms[0].key, ms[0].val)) && Sorted(all)
    requires all == Put(obj, ms[0].key, ms[0].val) + ms[1..]
    requires MembersEncodable(ms[1..]) && mt == MembersText(ms[1..], 1, |ms[1..]|, Escaped)
    ensures ObjectLoop(st, obj, "", true) == ObjResult(Ok, all, Adv(st, n + 2))
    decreases ms, 1
  {
    var k, v := ms[0].key, ms[0].val;
    var s' := Adv(st, |q| + |tv| + 5);
    assert Adv(s', |mt|) == Adv(st, n);
    assert Adv(s', |mt| + 2) == Adv(st, n + 2);
    MembersReads(s', ms[1..], Put(obj, k, v), mt, all);
    MemberThen(st, obj, k, v, q, tv);
  }

  /** An array written by the escaping writer parses back, appended to ary. */
  lemma {:induction false} ArrayReads(st: Stream, xs: seq<Json>, ary: seq<Json>, t: string)
    requires Valid(st) && (forall i :: 0 <= i < |xs| ==> Encodable(xs[i]))
    requires t == Text(JArray(xs)) && At(st, t)
    ensures ParseArray(st, ary) == ArrResult(Ok, ary + xs, Adv(st, |t|))
    decreases xs, 4
  {
    var it := ItemsText(xs, 1, |xs|, Escaped);
    assert t == "[ " + it + " ]";
    BracketAt(st, "[ ", it, " ]");
    var s1, s2 := Adv(st, 1), Adv(st, 2);
    assert Get(st) == Read(Ch('['), s1);
    assert Valid(s1) && s1.pos < |s1.data| && s1.data[s1.pos] == ' ' && Adv(s1, 1) == s2;
    assert Valid(s2) && At(s2, it) && Adv(s2, |it|) == Adv(st, 2 + |it|);
    assert Adv(s2, |it| + 2) == Adv(st, |t|);
    ArraySkipSpace(s1, ary);
    ItemsReads(s2, xs, ary, it);
  }

  /** The array loop over the elements xs, written as a whole array's
      elements are, up to the closing " ]". */
  lemma {:induction false} ItemsReads(st: Stream, xs: seq<Json>, ary: seq<Json>, it: string)
    requires Valid(st) && (forall j :: 0 <= j < |xs| ==> Encodable(xs[j]))
    requires it == ItemsText(xs, 1, |xs|, Escaped) && At(st, it) && Two(Adv(st, |it|), ' ', ']')
    ensures ArrayLoop(st, ary) == ArrResult(Ok, ary + xs, Adv(st, |it| + 2))
    decreases xs, 3
  {
    if |xs| == 0 {
      assert Adv(Adv(st, 1), 1) == Adv(st, 2);
      ArraySkipSpace(st, ary);
      ArrayClose(Adv(st, 1), ary);
      assert ary + xs == ary;
    } else {
      ItemsNext(st, xs, ary, it);
    }
  }

  /** The first of the remaining elements, then the rest. */
  lemma {:induction false} ItemsNext(st: Stream, xs: seq<Json>, ary: seq<Json>, it: string)
    requires Valid(st) && (forall j :: 0 <= j < |xs| ==> Encodable(xs[j])) && |xs| > 0
    requires it == ItemsText(xs, 1, |xs|, Escaped) && At(st, it) && Two(Adv(st, |it|), ' ', ']')
    ensures ArrayLoop(st, ary) == ArrResult(Ok, ary + xs, Adv(st, |it| + 2))
    decreases xs, 2
  {
    var v := xs[0];
    var tv := Text(v);
    var sep := if 1 < |xs| then ", " else "";
    var it' := ItemsText(xs[1..], 1, |xs[1..]|, Escaped);
    ItemsTextHead(xs);
    assert it == tv + sep + it';
    ItemSepAt(st, tv, sep, it');
    ConsAppend(ary, xs);
    assert forall j :: 0 <= j < |xs[1..]| ==> xs[1..][j] == xs[j + 1];
    if 1 < |xs| {
      var s' := Adv(st, |tv| + 2);
      assert Valid(s') && Adv(s', |it'|) == Adv(st, |it|) && Adv(s', |it'| + 2) == Adv(st, |it| + 2);
      ItemsReads(s', xs[1..], ary + [v], it');
      ItemThen(st, ary, v, tv);
    } else {
      assert |it'| == 0 && Adv(st, |tv|) == Adv(st, |it|) && ary + [v] + xs[1..] == ary + [v];
      ItemLast(st, ary, v, tv);
    }
  }

  // ---------------------------------------------------------------------
  // JSON::parse on whole documents

  /** A document the writer produced starts with its brace. */
  lemma DocumentStart(str: string, mt: string)
    requires str == "{ " + mt + " }"
    ensures FindFirst(str, '{') == Some(0) && str[0..] == str
    ensures Valid(Open(str)) && At(Open(str), str)
  {
    assert str[0] == '{';
    assert str[0..|str|] == str;
  }

  /** The round trip for a whole document: the escaping writer's text of an
      encodable object parses, into a cleared root, to that object. */
  lemma ParseRoundTrip(ms: Members, root: Members)
    requires Sorted(root) && Encodable(JObject(ms))
    ensures Parse(Text(JObject(ms)), root, true) == Parsed(Ok, ms)
  {
    var str := Text(JObject(ms));
    DocumentStart(str, MembersText(ms, 1, |ms|, Escaped));
    assert [] + ms == ms;
    ObjectReads(Open(str), ms, [], str);
  }

  /** Parsing without clearing adds the document's pairs to the root and
      keeps the pairs it held, when the new keys all sort after them. */
  lemma ParseMerges(ms: Members, root: Members)
    requires Sorted(root) && Sorted(root + ms) && MembersEncodable(ms)
    ensures Parse(Text(JObject(ms)), root, false) == Parsed(Ok, root + ms)
  {
    var str := Text(JObject(ms));
    DocumentStart(str, MembersText(ms, 1, |ms|, Escaped));
    ObjectReads(Open(str), ms, root, str);
  }

  /** An object of one pair, as either writer puts it. */
  lemma OnePairText(k: string, v: Json, qu: Quoting)
    ensures ToJson(JObject([Entry(k, v)]), true, qu) == "{ " + Quote(k, qu) + " : " + ToJson(v, true, qu) + " }"
  {
    var ms := [Entry(k, v)];
    var m := Quote(k, qu) + " : " + ToJson(v, true, qu);
    assert ms[1..] == [] && |ms| == 1 && ms[0].key == k && ms[0].val == v;
    assert MembersText(ms[1..], 2, 1, qu) == "";
    assert MembersText(ms, 1, 1, qu) == m + "" + "";
    assert m + "" + "" == m;
    assert ToJson(JObject(ms), true, qu) == "{ " + MembersText(ms, 1, 1, qu) + " }";
  }

  /** Where the parts of a one-pair document lie. */
  lemma OnePairAt(str: string, q: string, tv: string)
    requires str == "{ " + q + " : " + tv + " }"
    ensures FindFirst(str, '{') == Some(0) && str[0..] == str
    ensures Valid(Open(str)) && Two(Open(str), '{', ' ')
    ensures At(Adv(Open(str), 2), q) && Two(Adv(Open(str), |q| + 2), ' ', ':') && str[|q| + 4] == ' '
    ensures At(Adv(Open(str), |q| + 5), tv) && Two(Adv(Open(str), |q| + 5 + |tv|), ' ', '}')
  {
    OnePairHead(str, q, tv);
    OnePairKey(str, q, tv);
    OnePairValue(str, q, tv);
  }

  lemma OnePairHead(str: string, q: string, tv: string)
    requires str == "{ " + q + " : " + tv + " }"
    ensures FindFirst(str, '{') == Some(0) && str[0..] == str
    ensures Valid(Open(str)) && Two(Open(str), '{', ' ')
  {
    assert str[0] == '{' && str[1] == ' ';
  }

  lemma OnePairKey(str: string, q: string, tv: string)
    requires str == "{ " + q + " : " + tv + " }"
    ensures At(Adv(Open(str), 2), q) && Two(Adv(Open(str), |q| + 2), ' ', ':') && str[|q| + 4] == ' '
  {
    var st := Open(str);
    var a, b, c := "{ " + q, "{ " + q + " : ", "{ " + q + " : " + tv;
    assert str[0..|str|] == str && At(st, str);
    AtParts(st, c, " }", |q| + 5 + |tv|);
    AtParts(st, b, tv, |q| + 5);
    AtParts(st, a, " : ", |q| + 2);
    AtParts(st, "{ ", q, 2);
    AtPointwise(Adv(st, |q| + 2), " : ");
  }

  lemma OnePairValue(str: string, q: string, tv: string)
    requires str == "{ " + q + " : " + tv + " }"
    ensures At(Adv(Open(str), |q| + 5), tv) && Two(Adv(Open(str), |q| + 5 + |tv|), ' ', '}')
  {
    var st := Open(str);
    var b, c := "{ " + q + " : ", "{ " + q + " : " + tv;
    assert str[0..|str|] == str && At(st, str);
    AtParts(st, c, " }", |q| + 5 + |tv|);
    AtParts(st, b, tv, |q| + 5);
    AtTwo(Adv(st, |q| + 5 + |tv|), " }");
  }

  /** Parsing without clearing, a key the root already holds makes
      JsonObject::insert throw, and the root keeps exactly its old pairs. */
  lemma ParseDuplicateThrows(k: string, v: Json, root: Members)
    requires Sorted(root) && k in Keys(root) && k != "" && Encodable(v)
    ensures Parse(Text(JObject([Entry(k, v)])), root, false) == Parsed(Throw, root)
  {
    var str := Text(JObject([Entry(k, v)]));
    var q, tv := Quote(k, Escaped), Text(v);
    OnePairText(k, v, Escaped);
    OnePairStream(str, q, tv);
    var st := Open(str);
    var s1, s2 := Adv(st, 1), Adv(st, 2);
    LoopSkipSpace(s1, root, "", true);
    MemberDuplicate(s2, root, k, v, q, tv);
  }

  /** A one-pair document as the object loop sees it, from just after the
      '{' and from the key. */
  lemma OnePairStream(str: string, q: string, tv: string)
    requires str == "{ " + q + " : " + tv + " }"
    ensures FindFirst(str, '{') == Some(0) && str[0..] == str
    ensures Valid(Open(str)) && Get(Open(str)) == Read(Ch('{'), Adv(Open(str), 1))
    ensures Valid(Adv(Open(str), 1)) && str[1] == ' ' && Adv(Adv(Open(str), 1), 1) == Adv(Open(str), 2)
    ensures var s2 := Adv(Open(str), 2);
      Valid(s2) && At(s2, q) && Two(Adv(s2, |q|), ' ', ':')
      && s2.pos + |q| + 2 < |s2.data| && s2.data[s2.pos + |q| + 2] == ' '
      && At(Adv(s2, |q| + 3), tv) && After(Adv(s2, |q| + 3 + |tv|))
  {
    OnePairAt(str, q, tv);
    var st := Open(str);
    var s2, w := Adv(st, 2), Adv(st, |q| + 5 + |tv|);
    assert Get(st) == Read(Ch('{'), Adv(st, 1));
    assert Adv(s2, |q|) == Adv(st, |q| + 2);
    assert Adv(s2, |q| + 3) == Adv(st, |q| + 5);
    assert Adv(s2, |q| + 3 + |tv|) == w;
  }

  // ---------------------------------------------------------------------
  // tcajson's own writer

  /** Without quotes or backslashes anywhere, tcajson's writer (no escaping)
      is read back exactly too. */
  lemma PlainRoundTrip(ms: Members, root: Members)
    requires Sorted(root) && Encodable(JObject(ms)) && PlainTree(JObject(ms))
    ensures Parse(ObjectToString(ms), root, true) == Parsed(Ok, ms)
  {
    RawAgreesOnPlain(JObject(ms), true);
    ParseRoundTrip(ms, root);
  }

  /** Two double quotes read as the empty string. */
  lemma EmptyStringAt(st: Stream)
    requires Valid(st) && Two(st, '"', '"')
    ensures ParseValue(st) == ValResult(Ok, JString(""), Adv(st, 2))
  {
    var s1 := Adv(st, 1);
    assert SkipWs(st) == st;
    assert Get(st) == Read(Ch('"'), s1);
    StringLoopClose(s1, "");
    assert ParseString(st) == StrResult(true, "", Adv(s1, 1));
    assert Adv(s1, 1) == Adv(st, 2);
    assert ValueType(st) == Typed(TagString, st);
    assert ParseValue(st) == ParseScalar(Typed(TagString, st));
  }

  /** A value read, then no separator: the loop fails, keeping the pair. */
  lemma LoopValueThenFail(st: Stream, obj: Members, k: string, r: ValResult)
    requires Valid(st) && Sorted(obj) && k != "" && k !in Keys(obj)
    requires st.pos < |st.data| && !IsSpace(st.data[st.pos]) && st.data[st.pos] != '}'
    requires ParseValue(st) == r && r.out == Ok && !ParseSeparator(r.st).ok
    ensures ObjectLoop(st, obj, k, false).out == Fail
    ensures ObjectLoop(st, obj, k, false).members == Put(obj, k, r.val)
  {
  }

  /** A pair whose value is `""` followed by a stray quote: the empty string
      is stored, and the stray quote, being no separator, fails the loop. */
  lemma StrayQuoteFails(st: Stream, k: string, q: string)
    requires Valid(st) && k != "" && q == Quote(k, Escaped)
    requires At(st, q) && Two(Adv(st, |q|), ' ', ':')
    requires st.pos + |q| + 2 < |st.data| && st.data[st.pos + |q| + 2] == ' '
    requires Two(Adv(st, |q| + 3), '"', '"')
    requires st.pos + |q| + 5 < |st.data| && st.data[st.pos + |q| + 5] == '"'
    ensures ObjectLoop(st, [], "", true).out == Fail
    ensures ObjectLoop(st, [], "", true).members == [Entry(k, JString(""))]
  {
    var s3, s5 := Adv(st, |q| + 3), Adv(st, |q| + 5);
    assert Valid(s3) && Adv(s3, 2) == s5 && Valid(s5) && s5.pos < |s5.data| && s5.data[s5.pos] == '"';
    assert !IsSpace('"') && !IsSepChar('"') && '"' != '}';
    KeyThenSpace(st, [], k, true, q);
    EmptyStringAt(s3);
    SeparatorFails(s5);
    assert Put([], k, JString("")) == [Entry(k, JString(""))];
    LoopValueThenFail(s3, [], k, ParseValue(s3));
  }

  /** What tcajson's writer puts down for one string holding a double
      quote, under a key with nothing to escape. */
  lemma RawWriterText(k: string)
    requires Escape(k) == k
    ensures ObjectToString([Entry(k, JString("\""))]) == "{ \"" + k + "\" : \"\"\" }"
    ensures ObjectToString([Entry(k, JString("\""))]) == "{ " + Quote(k, Escaped) + " : " + "\"\"\"" + " }"
  {
    OnePairText(k, JString("\""), Raw);
    var q := Quote(k, Raw);
    assert q == Quote(k, Escaped) && Quote("\"", Raw) == "\"\"\"";
    var lhs := "{ " + q + " : " + "\"\"\"" + " }";
    var rhs := "{ \"" + k + "\" : \"\"\" }";
    assert |lhs| == |rhs| == |k| + 12;
    forall i | 0 <= i < |lhs| ensures lhs[i] == rhs[i] {
      if 3 <= i < |k| + 3 {
        assert lhs[i] == q[i - 2] == k[i - 3];
      }
    }
  }

  /** Where the characters of `{ q : """ }` sit, as seen from the stream
      opened on it. */
  lemma StrayQuoteLayout(str: string, q: string)
    requires str == "{ " + q + " : " + "\"\"\"" + " }"
    ensures FindFirst(str, '{') == Some(0) && str[0..] == str
    ensures Valid(Open(str)) && Get(Open(str)) == Read(Ch('{'), Adv(Open(str), 1))
    ensures Valid(Adv(Open(str), 1)) && str[1] == ' ' && Adv(Adv(Open(str), 1), 1) == Adv(Open(str), 2)
    ensures Valid(Adv(Open(str), 2)) && At(Adv(Open(str), 2), q)
    ensures Two(Adv(Open(str), |q| + 2), ' ', ':') && str[|q| + 4] == ' '
    ensures Two(Adv(Open(str), |q| + 5), '"', '"') && |q| + 7 < |str| && str[|q| + 7] == '"'
  {
    var tv := "\"\"\"";
    OnePairAt(str, q, tv);
    var st := Open(str);
    AtPointwise(Adv(st, |q| + 5), tv);
    assert Get(st) == Read(Ch('{'), Adv(st, 1));
  }

  /** tcajson's writer on a string holding one double quote, under any key
      with nothing to escape: the text `{ "k" : """ }` reads back as an
      empty string followed by a stray quote where a separator must come.
      Parsing fails, and the root is left holding the wrong value. */
  lemma RawWriterLosesQuote(k: string)
    requires k != "" && Escape(k) == k
    ensures ObjectToString([Entry(k, JString("\""))]) == "{ \"" + k + "\" : \"\"\" }"
    ensures Parse(ObjectToString([Entry(k, JString("\""))]), [], true) == Parsed(Fail, [Entry(k, JString(""))])
  {
    var str := ObjectToString([Entry(k, JString("\""))]);
    var q := Quote(k, Escaped);
    RawWriterText(k);
    StrayQuoteLayout(str, q);
    var st := Open(str);
    var s1, s2 := Adv(st, 1), Adv(st, 2);
    LoopSkipSpace(s1, [], "", true);
    assert Adv(s2, |q| + 3) == Adv(st, |q| + 5);
    StrayQuoteFails(s2, k, q);
  }

}

=== FILE: json_value.dfy ===
/** The tcajson value tree: JsonObject (a std::map from key to value, so keys
    are unique and iterate in ascending order), JsonArray (a std::deque, so
    insertion order is kept), and the literal types of JsonLiteral.hpp.

    Numbers are kept as the lexeme the parser read; the conversion to double
    and its printing are not part of this model. */
module JsonValue {
  import opened Base

  /** json_t, the tag every JsonType carries. */
  datatype Tag = TagObject | TagArray | TagNumber | TagString | TagBoolean | TagNull | TagInvalid

  datatype Json =
    | JObject(members: seq<Entry<Json>>)
    | JArray(items: seq<Json>)
    | JNumber(lexeme: string)
    | JString(text: string)
    | JBoolean(b: bool)
    | JNull

  /** JsonType::getType() of each node. */
  function TagOf(v: Json): Tag
  {
    match v
    case JObject(_) => TagObject
    case JArray(_) => TagArray
    case JNumber(_) => TagNumber
    case JString(_) => TagString
    case JBoolean(_) => TagBoolean
    case JNull => TagNull
  }

  /** Every object in the tree is a proper std::map: strictly sorted keys. */
  predicate WellFormed(v: Json)
  {
    match v
    case JObject(ms) => Sorted(ms) && forall i :: 0 <= i < |ms| ==> WellFormed(ms[i].val)
    case JArray(xs) => forall i :: 0 <= i < |xs| ==> WellFormed(xs[i])
    case _ => true
  }

  // ---------------------------------------------------------------------
  // JsonObject (src/JsonObject.cpp)

  type Members = seq<Entry<Json>>

  datatype Inserted = Inserted(members: Members) | AlreadyExists

  /** JsonObject::insert: a key already present throws (the map is left as
      it was); otherwise exactly one pair is added. */
  function ObjectInsert(m: Members, key: string, item: Json): (r: Inserted)
    requires Sorted(m)
    ensures r.AlreadyExists? <==> key in Keys(m)
    ensures r.Inserted? ==> Sorted(r.members) && Keys(r.members) == Keys(m) + {key}
    ensures r.Inserted? ==> |r.members| == |m| + 1 && Find(r.members, key) == Some(item)
    ensures r.Inserted? ==> forall k :: k != key ==> Find(r.members, k) == Find(m, k)
  {
    if key in Keys(m) then AlreadyExists else Inserted(Put(m, key, item))
  }

  /** JsonObject::operator[]: the stored item, or NULL (None) for a missing
      key; the map is not touched. */
  function ObjectGet(m: Members, key: string): (r: Option<Json>)
    requires Sorted(m)
    ensures r.None? <==> key !in Keys(m)
    ensures r.Some? ==> exists i :: 0 <= i < |m| && m[i] == Entry(key, r.value)
  {
    Find(m, key)
  }

  /** JsonObject::find: an iterator, modelled as a position, |m| for end(). */
  function ObjectFind(m: Members, key: string): (r: nat)
    requires Sorted(m)
    ensures r <= |m|
    ensures r < |m| <==> key in Keys(m)
    ensures r < |m| ==> m[r].key == key
  {
    if |m| == 0 then 0
    else if m[0].key == key then 0
    else
      assert m == [m[0]] + m[1..];
      KeysCons(m[0], m[1..]);
      1 + ObjectFind(m[1..], key)
  }

  /** JsonObject::exists: find(key) != end(). */
  function ObjectExists(m: Members, key: string): bool
    requires Sorted(m)
  {
    ObjectFind(m, key) != |m|
  }

  lemma ObjectExistsIffKey(m: Members, key: string)
    requires Sorted(m)
    ensures ObjectExists(m, key) <==> key in Keys(m)
    ensures ObjectExists(m, key) <==> ObjectGet(m, key).Some?
  {
  }

  /** JsonObject::erase(key): the number of pairs removed, and only that key
      gone. */
  function ObjectEraseKey(m: Members, key: string): (r: (Members, nat))
    requires Sorted(m)
    ensures Sorted(r.0)
    ensures r.1 == (if key in Keys(m) then 1 else 0)
    ensures Keys(r.0) == Keys(m) - {key}
    ensures forall k :: k != key ==> Find(r.0, k) == Find(m, k)
  {
    (Remove(m, key), if key in Keys(m) then 1 else 0)
  }

  /** JsonObject::erase(iterator): end() is a no-op that returns end();
      otherwise the pair at that position goes and the iterator to the next
      pair comes back. */
  function ObjectEraseAt(m: Members, at: nat): (r: (Members, nat))
    requires Sorted(m) && at <= |m|
    ensures at == |m| ==> r == (m, |m|)
    ensures at < |m| ==> r.0 == m[..at] + m[at + 1..] && r.1 == at
    ensures Sorted(r.0) && r.1 <= |r.0|
  {
    if at == |m| then (m, |m|)
    else
      var n := m[..at] + m[at + 1..];
      assert Sorted(n) by {
        forall i, j | 0 <= i < j < |n| ensures Less(n[i].key, n[j].key) {
          var i' := if i < at then i else i + 1;
          var j' := if j < at then j else j + 1;
          assert n[i] == m[i'] && n[j] == m[j'];
        }
      }
      (n, at)
  }

  /** JsonObject::erase(first, last): the pairs in [first, last) go and the
      iterator to what followed them comes back. */
  function ObjectEraseRange(m: Members, first: nat, last: nat): (r: (Members, nat))
    requires Sorted(m) && first <= last <= |m|
    ensures r.0 == m[..first] + m[last..] && r.1 == first
    ensures Sorted(r.0) && Keys(r.0) <= Keys(m)
  {
    var n := m[..first] + m[last..];
    assert Sorted(n) by {
      forall i, j | 0 <= i < j < |n| ensures Less(n[i].key, n[j].key) {
        var i' := if i < first then i else i + last - first;
        var j' := if j < first then j else j + last - first;
        assert n[i] == m[i'] && n[j] == m[j'];
      }
    }
    assert Keys(n) <= Keys(m) by {
      forall k | k in Keys(n) ensures k in Keys(m) {
        var i :| 0 <= i < |n| && n[i].key == k;
        assert n[i] == m[if i < first then i else i + last - first];
      }
    }
    (n, first)
  }

  /** JsonObject::operator=: clear, then insert a copy of every pair in the
      source's iteration order. The result is an equal object: same keys,
      same values, same order. */
  function ObjectAssign(src: Members): (r: Members)
    requires Sorted(src)
    ensures r == src
  {
    CopyInto([], src)
  }

  /** Inserting the pairs of src, one by one in order, into dst, whose keys
      all sort below them: each lands at the end. */
  function CopyInto(dst: Members, src: Members): (r: Members)
    requires Sorted(dst + src)
    ensures r == dst + src
    decreases |src|
  {
    if |src| == 0 then dst
    else
      CopyStep(dst, src);
      CopyInto(Put(dst, src[0].key, src[0].val), src[1..])
  }

  /** One step of the copy: the first pair of src goes to the end of dst. */
  lemma CopyStep(dst: Members, src: Members)
    requires Sorted(dst + src) && |src| > 0
    ensures Sorted(dst) && src[0].key !in Keys(dst)
    ensures Put(dst, src[0].key, src[0].val) + src[1..] == dst + src
  {
    SortedSplit(dst, src);
    PutAtEnd(dst, src[0].key, src[0].val);
    ConsAppend(dst, src);
  }

  /** JsonObject::clear. */
  function ObjectClear(m: Members): (r: Members)
    ensures |r| == 0 && Keys(r) == {}
  {
    []
  }

  // ---------------------------------------------------------------------
  // JsonArray (src/JsonArray.cpp)

  /** JsonArray::insert(item): appended at the end. */
  function ArrayAppend(a: seq<Json>, item: Json): (r: seq<Json>)
    ensures |r| == |a| + 1 && r[..|a|] == a && r[|a|] == item
  {
    a + [item]
  }

  /** JsonArray::insert(item, at): placed immediately before position at. */
  function ArrayInsertAt(a: seq<Json>, item: Json, at: nat): (r: seq<Json>)
    requires at <= |a|
    ensures |r| == |a| + 1 && r[at] == item
    ensures r[..at] == a[..at] && r[at + 1..] == a[at..]
  {
    a[..at] + [item] + a[at..]
  }

  /** JsonArray::erase(at): exactly that element goes; the rest keep order. */
  function ArrayErase(a: seq<Json>, at: nat): (r: seq<Json>)
    requires at < |a|
    ensures |r| == |a| - 1
    ensures forall i :: 0 <= i < at ==> r[i] == a[i]
    ensures forall i :: at <= i < |r| ==> r[i] == a[i + 1]
  {
    a[..at] + a[at + 1..]
  }

  /** JsonArray::at: std::deque::at throws std::out_of_range past the end. */
  function ArrayAt(a: seq<Json>, i: nat): (r: Option<Json>)
    ensures r.Some? <==> i < |a|
    ensures r.Some? ==> r.value == a[i]
  {
    if i < |a| then Some(a[i]) else None
  }

  /** JsonArray::operator[]: the deque's unchecked subscript, so an index
      past the end is the caller's error; inside the bounds it answers what
      at does. */
  function ArrayIndex(a: seq<Json>, i: nat): (r: Json)
    requires i < |a|
    ensures ArrayAt(a, i) == Some(r)
    ensures r in a
  {
    a[i]
  }

  /** JsonArray::clear. */
  function ArrayClear(a: seq<Json>): (r: seq<Json>)
    ensures |r| == 0
  {
    []
  }

  /** JsonArray::operator=: clear, then append a copy of every element in
      order. */
  function ArrayAssign(src: seq<Json>): (r: seq<Json>)
    ensures |r| == |src| && forall i :: 0 <= i < |src| ==> r[i] == src[i]
  {
    AppendAll([], src)
  }

  function AppendAll(dst: seq<Json>, src: seq<Json>): (r: seq<Json>)
    ensures r == dst + src
    decreases |src|
  {
    if |src| == 0 then dst else AppendAll(ArrayAppend(dst, src[0]), src[1..])
  }

  // ---------------------------------------------------------------------
  // JsonLiteral<T> and its subclasses (include/JsonLiteral.hpp)

  datatype Literal<T> = Literal(value: T, tag: Tag)

  /** The tags the constructors give when none is passed. */
  const LiteralDefaultTag: Tag := TagNull
  const StringDefaultTag: Tag := TagString
  const NumberDefaultTag: Tag := TagNumber
  const IntegerDefaultTag: Tag := TagNumber
  const LongDefaultTag: Tag := TagNumber
  const BooleanDefaultTag: Tag := TagBoolean

  /** JsonLiteral<T>::operator=: value and tag copied. */
  function LiteralAssign<T>(dst: Literal<T>, src: Literal<T>): (r: Literal<T>)
    ensures r.value == src.value && r.tag == src.tag
  {
    src
  }

  /** JsonLiteral<T>::operator==: the values alone decide. */
  predicate LiteralEquals<T(==)>(a: Literal<T>, b: Literal<T>)
  {
    a.value == b.value
  }

  /** Equality ignores the tags, and is an equivalence on values. */
  lemma LiteralEqualsIgnoresTag<T>(v: T, t1: Tag, t2: Tag)
    ensures LiteralEquals(Literal(v, t1), Literal(v, t2))
    ensures t1 != t2 ==> Literal(v, t1) != Literal(v, t2)
  {
  }

  /** JsonLiteral<T>::toString: "null" for the null tag, otherwise the value as
      the stream prints it (show). */
  function LiteralToString<T>(lit: Literal<T>, show: T -> string): (r: string)
    ensures lit.tag == TagNull ==> r == "null"
    ensures lit.tag != TagNull ==> r == show(lit.value)
  {
    if lit.tag == TagNull then "null" else show(lit.value)
  }

  /** JsonString::toString(asJson): the raw value, wrapped in quotes only when
      asJson; nothing is escaped. */
  function StringToString(lit: Literal<string>, asJson: bool): (r: string)
    ensures asJson ==> r == ['"'] + lit.value + ['"']
    ensures !asJson ==> r == lit.value
  {
    if asJson then ['"'] + lit.value + ['"'] else lit.value
  }

  /** The default of asJson for JsonString::toString. */
  const StringAsJsonDefault: bool := false

  /** JsonBoolean::toString(asJson): "true" or "false"; asJson plays no part. */
  function BooleanToString(lit: Literal<bool>, asJson: bool): (r: string)
    ensures r == (if lit.value then "true" else "false")
  {
    if lit.value then "true" else "false"
  }

  // ---------------------------------------------------------------------
  // Serialisation (JSON::ToString, JsonObject::toString, JsonArray::toString)

  /** JSON::TypeToString. JSON_BOOLEAN falls through to JSON_NULL's label;
      any other tag yields the empty string. */
  function TypeToString(t: Tag): (r: string)
    ensures t == TagBoolean || t == TagNull ==> r == "JSON Literal"
    ensures t == TagInvalid <==> r == ""
  {
    match t
    case TagObject => "JSON Object"
    case TagArray => "JSON Array"
    case TagNumber => "JSON Number"
    case TagString => "JSON String"
    case TagBoolean => "JSON Literal"
    case TagNull => "JSON Literal"
    case TagInvalid => ""
  }

  /** How a string is written between quotes. tcajson writes it raw; the
      escaping variant is the one a reader of the output can undo. */
  datatype Quoting = Raw | Escaped

  /** The inverse of what JSON::parseString decodes: '"' and '\' and the five
      control characters the parser knows are written as escapes. */
  function Escape(s: string): (r: string)
    ensures |r| >= |s|
  {
    if |s| == 0 then ""
    else EscapeChar(s[0]) + Escape(s[1..])
  }

  function EscapeChar(c: char): string
  {
    if c == '"' then "\\\""
    else if c == '\\' then "\\\\"
    else if c == '\U{0008}' then "\\b"
    else if c == '\U{000C}' then "\\f"
    else if c == '\n' then "\\n"
    else if c == '\r' then "\\r"
    else if c == '\t' then "\\t"
    else [c]
  }

  /** A string Escape leaves alone. */
  predicate Plain(s: string)
  {
    forall i :: 0 <= i < |s| ==> EscapeChar(s[i]) == [s[i]]
  }

  lemma {:induction false} EscapePlain(s: string)
    requires Plain(s)
    ensures Escape(s) == s
  {
    if |s| > 0 {
      assert EscapeChar(s[0]) == [s[0]];
      EscapePlain(s[1..]);
      assert s == [s[0]] + s[1..];
    }
  }

  function Quote(s: string, q: Quoting): string
  {
    ['"'] + (if q.Raw? then s else Escape(s)) + ['"']
  }

  /** JSON::ToString(item, asJson): objects and arrays by their own toString,
      strings quoted only when asJson, booleans "true"/"false", null "null". */
  function ToJson(v: Json, asJson: bool, q: Quoting): string
  {
    match v
    case JObject(ms) => "{ " + MembersText(ms, 1, |ms|, q) + " }"
    case JArray(xs) => "[ " + ItemsText(xs, 1, |xs|, q) + " ]"
    case JNumber(lex) => lex
    case JString(s) => if asJson then Quote(s, q) else s
    case JBoolean(b) => if b then "true" else "false"
    case JNull => "null"
  }

  /** The loop of JsonObject::toString from its i-th pair (counting from 1)
      of n: `"key" : value`, followed by ", " while i < n. */
  function MembersText(ms: seq<Entry<Json>>, i: nat, n: nat, q: Quoting): string
  {
    if |ms| == 0 then ""
    else
      Quote(ms[0].key, q) + " : " + ToJson(ms[0].val, true, q)
      + (if i < n then ", " else "") + MembersText(ms[1..], i + 1, n, q)
  }

  /** The loop of JsonArray::toString from its i-th element of n. */
  function ItemsText(xs: seq<Json>, i: nat, n: nat, q: Quoting): string
  {
    if |xs| == 0 then ""
    else ToJson(xs[0], true, q) + (if i < n then ", " else "") + ItemsText(xs[1..], i + 1, n, q)
  }

  /** JsonObject::toString as tcajson writes it. */
  function ObjectToString(ms: Members): string
  {
    ToJson(JObject(ms), true, Raw)
  }

  /** JsonArray::toString as tcajson writes it. */
  function ArrayToString(xs: seq<Json>): string
  {
    ToJson(JArray(xs), true, Raw)
  }

  /** An independent description of the layout: the parts with sep between
      each neighbouring pair and none after the last. */
  function Join(parts: seq<string>, sep: string): string
  {
    if |parts| == 0 then ""
    else if |parts| == 1 then parts[0]
    else parts[0] + sep + Join(parts[1..], sep)
  }

  function PairTexts(ms: seq<Entry<Json>>, q: Quoting): (r: seq<string>)
    ensures |r| == |ms|
  {
    if |ms| == 0 then [] else [Quote(ms[0].key, q) + " : " + ToJson(ms[0].val, true, q)] + PairTexts(ms[1..], q)
  }

  function ItemTexts(xs: seq<Json>, q: Quoting): (r: seq<string>)
    ensures |r| == |xs|
  {
    if |xs| == 0 then [] else [ToJson(xs[0], true, q)] + ItemTexts(xs[1..], q)
  }

  /** Counting from i of n, a separator follows every pair but the last. */
  lemma {:induction false} MembersTextJoins(ms: seq<Entry<Json>>, i: nat, n: nat, q: Quoting)
    requires i >= 1 && i + |ms| == n + 1
    ensures MembersText(ms, i, n, q) == Join(PairTexts(ms, q), ", ")
    decreases |ms|
  {
    if |ms| > 1 {
      MembersTextJoins(ms[1..], i + 1, n, q);
      assert PairTexts(ms, q)[1..] == PairTexts(ms[1..], q);
    } else if |ms| == 1 {
      assert ms[1..] == [];
    }
  }

  lemma {:induction false} ItemsTextJoins(xs: seq<Json>, i: nat, n: nat, q: Quoting)
    requires i >= 1 && i + |xs| == n + 1
    ensures ItemsText(xs, i, n, q) == Join(ItemTexts(xs, q), ", ")
    decreases |xs|
  {
    if |xs| > 1 {
      ItemsTextJoins(xs[1..], i + 1, n, q);
      assert ItemTexts(xs, q)[1..] == ItemTexts(xs[1..], q);
    } else if |xs| == 1 {
      assert xs[1..] == [];
    }
  }

  /** JsonObject::toString: "{ ", the pairs `"key" : value` joined by ", ",
      then " }". */
  lemma ObjectToStringLayout(ms: Members)
    ensures ObjectToString(ms) == "{ " + Join(PairTexts(ms, Raw), ", ") + " }"
  {
    MembersTextJoins(ms, 1, |ms|, Raw);
  }

  /** JsonArray::toString: "[ ", the elements joined by ", ", then " ]". */
  lemma ArrayToStringLayout(xs: seq<Json>)
    ensures ArrayToString(xs) == "[ " + Join(ItemTexts(xs, Raw), ", ") + " ]"
  {
    ItemsTextJoins(xs, 1, |xs|, Raw);
  }

  /** When every key and string in the tree is plain, the escaping writer and
      tcajson's raw writer agree. */
  predicate PlainTree(v: Json)
  {
    match v
    case JObject(ms) => forall i :: 0 <= i < |ms| ==> Plain(ms[i].key) && PlainTree(ms[i].val)
    case JArray(xs) => forall i :: 0 <= i < |xs| ==> PlainTree(xs[i])
    case JString(s) => Plain(s)
    case _ => true
  }

  lemma {:induction false} RawAgreesOnPlain(v: Json, asJson: bool)
    requires PlainTree(v)
    ensures ToJson(v, asJson, Raw) == ToJson(v, asJson, Escaped)
    decreases v, 1
  {
    match v
    case JObject(ms) => RawAgreesMembers(ms, 1, |ms|);
    case JArray(xs) => RawAgreesItems(xs, 1, |xs|);
    case JString(s) => EscapePlain(s);
    case _ =>
  }

  lemma {:induction false} RawAgreesMembers(ms: seq<Entry<Json>>, i: nat, n: nat)
    requires forall j :: 0 <= j < |ms| ==> Plain(ms[j].key) && PlainTree(ms[j].val)
    ensures MembersText(ms, i, n, Raw) == MembersText(ms, i, n, Escaped)
    decreases ms, 0
  {
    if |ms| > 0 {
      EscapePlain(ms[0].key);
      RawAgreesOnPlain(ms[0].val, true);
      RawAgreesMembers(ms[1..], i + 1, n);
    }
  }

  lemma {:induction false} RawAgreesItems(xs: seq<Json>, i: nat, n: nat)
    requires forall j :: 0 <= j < |xs| ==> PlainTree(xs[j])
    ensures ItemsText(xs, i, n, Raw) == ItemsText(xs, i, n, Escaped)
    decreases xs, 0
  {
    if |xs| > 0 {
      RawAgreesOnPlain(xs[0], true);
      RawAgreesItems(xs[1..], i + 1, n);
    }
  }
}

=== FILE: jsonpp.dfy ===
/** The legacy jsonpp parser and writer (common/jsonpp/JSON.cpp), the older
    sibling of tcajson.

    The stream model, the string loop after the first character, the number
    run, parseAssign and parseSeparator read exactly as tcajson's, and are
    taken from module JsonParser. What differs is modelled here: the value
    types (separate tags for true and false, JSON_INVALID for anything
    unknown), the string reader that stores the character after the opening
    quote unconditionally, the literal reader that stops only at ',', the
    per-loop scratch containers that nested values are parsed into and then
    copied from, and the writer's separator rule.

    JsonBoolean, JsonNumber and the default JsonItem are declared in a header
    that is not part of this model; what their default constructors set is a
    parameter (Defaults). */
module Jsonpp {
  import opened Base
  import opened Stream
  import JsonValue
  import JsonParser

  /** JsonValueType. */
  datatype Kind = ItemKind | ObjectKind | ArrayKind | NumberKind | StringKind
                | TrueKind | FalseKind | NullKind | InvalidKind

  /** A jsonpp item. A bare JsonItem carries only its type (JSON_NULL for the
      null literal); a boolean carries the type and value its default
      constructor gave it, since parseBoolean never changes either. Numbers
      keep their text. */
  datatype Value =
    | Item(kind: Kind)
    | Object(members: seq<Entry<Value>>)
    | Array(items: seq<Value>)
    | Number(lex: string)
    | Str(text: string)
    | Boolean(kind: Kind, b: bool)

  type Members = seq<Entry<Value>>

  /** What the default constructors of JsonBoolean and JsonItem set. */
  datatype Defaults = Defaults(boolKind: Kind, boolValue: bool, itemKind: Kind)

  function KindOf(v: Value): Kind
  {
    match v
    case Item(k) => k
    case Object(_) => ObjectKind
    case Array(_) => ArrayKind
    case Number(_) => NumberKind
    case Str(_) => StringKind
    case Boolean(k, _) => k
  }

  // ---------------------------------------------------------------------
  // JsonObject (insert, operator[]) and the copy constructors

  /** JsonObject::insert: None when the key is present (the source throws
      and the map is left as it was), otherwise the map with one more pair. */
  function Insert(m: Members, key: string, item: Value): (r: Option<Members>)
    requires Sorted(m)
    ensures r.None? <==> key in Keys(m)
    ensures r.Some? ==> Sorted(r.value) && Keys(r.value) == Keys(m) + {key} && |r.value| == |m| + 1
    ensures r.Some? ==> Find(r.value, key) == Some(item)
    ensures r.Some? ==> forall k :: k != key ==> Find(r.value, k) == Find(m, k)
  {
    if key in Keys(m) then None else Some(Put(m, key, item))
  }

  /** The non-const JsonObject::operator[]: a missing key is inserted with a
      default-constructed JsonItem, which is returned. */
  function Subscript(m: Members, key: string, d: Defaults): (r: (Members, Value))
    requires Sorted(m)
    ensures Sorted(r.0) && Keys(r.0) == Keys(m) + {key}
    ensures Find(r.0, key) == Some(r.1)
    ensures forall k :: k != key ==> Find(r.0, k) == Find(m, k)
    ensures key in Keys(m) ==> r.0 == m
    ensures key !in Keys(m) ==> r.1 == Item(d.itemKind) && |r.0| == |m| + 1
  {
    match Find(m, key)
    case Some(v) => (m, v)
    case None => (Put(m, key, Item(d.itemKind)), Item(d.itemKind))
  }

  /** The const JsonObject::operator[]: None where the source throws. */
  function SubscriptConst(m: Members, key: string): (r: Option<Value>)
    requires Sorted(m)
    ensures r.None? <==> key !in Keys(m)
    ensures r.Some? ==> exists i :: 0 <= i < |m| && m[i] == Entry(key, r.value)
  {
    Find(m, key)
  }

  /** The copy of one item that JsonObject::operator= inserts: objects are
      copied deeply; a JsonArray's copy constructor loops over the new,
      empty array and so copies nothing; items of a type the assignment has
      no branch for (a bare JSON_ITEM, JSON_INVALID) are skipped. */
  function CopyValue(v: Value): (r: Option<Value>)
    ensures r.Some? <==> Copyable(v)
    ensures r.Some? ==> KindOf(r.value) == KindOf(v) && Copyable(r.value)
    ensures r.Some? && !v.Object? && !v.Array? ==> r.value == v
    ensures v.Array? ==> r == Some(Array([]))
  {
    match v
    case Object(ms) => Some(Object(CopyMembers(ms)))
    case Array(_) => Some(Array([]))
    case Number(_) => Some(v)
    case Str(_) => Some(v)
    case Boolean(k, _) => if k == TrueKind || k == FalseKind then Some(v) else None
    case Item(k) => if k == NullKind then Some(Item(NullKind)) else None
  }

  /** An item operator= knows how to copy. */
  predicate Copyable(v: Value)
  {
    match v
    case Boolean(k, _) => k == TrueKind || k == FalseKind
    case Item(k) => k == NullKind
    case _ => true
  }

  predicate AllCopyable(ms: Members)
  {
    forall i :: 0 <= i < |ms| ==> Copyable(ms[i].val)
  }

  /** The JsonObject copy constructor (operator= into an empty object): the
      pairs in key order, each copied, the uncopyable ones left out. */
  function CopyMembers(ms: Members): (r: Members)
    ensures Keys(r) <= Keys(ms) && |r| <= |ms|
    ensures Sorted(ms) ==> Sorted(r)
    ensures AllCopyable(ms) ==> Keys(r) == Keys(ms)
    ensures forall i :: 0 <= i < |r| ==> Copyable(r[i].val)
  {
    if |ms| == 0 then []
    else
      var t := CopyMembers(ms[1..]);
      match CopyValue(ms[0].val)
      case None =>
        DropUncopied(ms, t);
        t
      case Some(c) =>
        ConsCopied(ms, t, c);
        [Entry(ms[0].key, c)] + t
  }

  /** The copy of ms is the head's copy, if it has one, before the copy of
      the rest. */
  function CopyHead(ms: Members): (h: Members)
    requires |ms| > 0
    ensures |h| <= 1 && (|h| == 1 <==> CopyValue(ms[0].val).Some?)
    ensures |h| == 1 ==> h[0] == Entry(ms[0].key, CopyValue(ms[0].val).value)
    ensures CopyMembers(ms) == h + CopyMembers(ms[1..])
  {
    match CopyValue(ms[0].val)
    case None => assert [] + CopyMembers(ms[1..]) == CopyMembers(ms[1..]); []
    case Some(c) => [Entry(ms[0].key, c)]
  }

  /** Every pair of r is the copy of a pair of ms under the same key. */
  predicate CopiedFromPairs(ms: Members, r: Members)
  {
    forall i :: 0 <= i < |r| ==>
      exists j :: 0 <= j < |ms| && ms[j].key == r[i].key && CopyValue(ms[j].val) == Some(r[i].val)
  }

  /** r holds the pairs of ms in the same places, each value copied. */
  predicate CopiedInPlaces(ms: Members, r: Members)
  {
    |r| == |ms| && forall i :: 0 <= i < |r| ==> r[i].key == ms[i].key && CopyValue(ms[i].val) == Some(r[i].val)
  }

  /** Every pair of the copy is a copy of a pair of ms under the same key. */
  lemma {:induction false} CopiedPairs(ms: Members)
    ensures CopiedFromPairs(ms, CopyMembers(ms))
  {
    if |ms| > 0 {
      CopiedPairs(ms[1..]);
      CopiedFrom(ms, CopyMembers(ms[1..]), CopyHead(ms));
    }
  }

  /** When every value is copyable, the copy keeps every pair in place,
      each value copied. */
  lemma {:induction false} CopiedInOrder(ms: Members)
    ensures AllCopyable(ms) ==> CopiedInPlaces(ms, CopyMembers(ms))
  {
    if |ms| > 0 {
      CopiedInOrder(ms[1..]);
      CopiedInPlace(ms, CopyMembers(ms[1..]), CopyHead(ms));
    }
  }

  /** Every pair of the copy of ms[1..] comes from ms, and when the head is
      copied into h, so does h's pair. */
  lemma CopiedFrom(ms: Members, t: Members, h: Members)
    requires |ms| > 0 && |h| <= 1
    requires |h| == 1 <==> CopyValue(ms[0].val).Some?
    requires |h| == 1 ==> h[0] == Entry(ms[0].key, CopyValue(ms[0].val).value)
    requires CopiedFromPairs(ms[1..], t)
    ensures CopiedFromPairs(ms, h + t)
  {
    var r := h + t;
    forall i | 0 <= i < |r|
      ensures exists j :: 0 <= j < |ms| && ms[j].key == r[i].key && CopyValue(ms[j].val) == Some(r[i].val)
    {
      if i < |h| {
        assert ms[0].key == r[i].key && CopyValue(ms[0].val) == Some(r[i].val);
      } else {
        assert r[i] == t[i - |h|];
        var j :| 0 <= j < |ms[1..]| && ms[1..][j].key == t[i - |h|].key && CopyValue(ms[1..][j].val) == Some(t[i - |h|].val);
        assert ms[j + 1] == ms[1..][j];
      }
    }
  }

  /** When every pair is copyable, the head's copy and the copy of ms[1..]
      keep every pair in place. */
  lemma CopiedInPlace(ms: Members, t: Members, h: Members)
    requires |ms| > 0 && |h| <= 1
    requires |h| == 1 <==> CopyValue(ms[0].val).Some?
    requires |h| == 1 ==> h[0] == Entry(ms[0].key, CopyValue(ms[0].val).value)
    requires AllCopyable(ms[1..]) ==> CopiedInPlaces(ms[1..], t)
    ensures AllCopyable(ms) ==> CopiedInPlaces(ms, h + t)
  {
    var r := h + t;
    if AllCopyable(ms) {
      assert AllCopyable(ms[1..]) by {
        forall i | 0 <= i < |ms[1..]| ensures Copyable(ms[1..][i].val) {
          assert ms[1..][i] == ms[i + 1];
        }
      }
      assert |h| == 1 by { assert Copyable(ms[0].val); }
      forall i | 0 <= i < |r| ensures r[i].key == ms[i].key && CopyValue(ms[i].val) == Some(r[i].val) {
        if i > 0 {
          assert r[i] == t[i - 1] && ms[1..][i - 1] == ms[i];
        }
      }
    }
  }

  /** An item with no array at any depth and nothing operator= skips. */
  predicate Plain(v: Value)
  {
    match v
    case Object(ms) => forall i :: 0 <= i < |ms| ==> Plain(ms[i].val)
    case Array(_) => false
    case _ => Copyable(v)
  }

  /** Copying a plain item gives the item back: every number, string,
      boolean and null is copied as it is, and every object pair by pair. */
  lemma {:induction false} CopyPlain(v: Value)
    requires Plain(v)
    ensures CopyValue(v) == Some(v)
    decreases v, 1
  {
    if v.Object? {
      CopyPlainMembers(v.members);
    }
  }

  /** The copy constructor on plain pairs is the identity. */
  lemma {:induction false} CopyPlainMembers(ms: Members)
    requires forall i :: 0 <= i < |ms| ==> Plain(ms[i].val)
    ensures CopyMembers(ms) == ms
    decreases ms, 0
  {
    if |ms| > 0 {
      PlainTail(ms);
      CopyPlain(ms[0].val);
      CopyPlainMembers(ms[1..]);
      CopyMembersHead(ms, ms[0].val);
      HeadTail(ms);
    }
  }

  lemma PlainTail(ms: Members)
    requires |ms| > 0 && forall i :: 0 <= i < |ms| ==> Plain(ms[i].val)
    ensures Plain(ms[0].val) && forall i :: 0 <= i < |ms[1..]| ==> Plain(ms[1..][i].val)
  {
    assert forall i :: 0 <= i < |ms[1..]| ==> ms[1..][i] == ms[i + 1];
  }

  lemma HeadTail(ms: Members)
    requires |ms| > 0
    ensures [Entry(ms[0].key, ms[0].val)] + ms[1..] == ms
  {
    assert [Entry(ms[0].key, ms[0].val)] == [ms[0]];
  }

  /** A copied first pair heads the copy. */
  lemma CopyMembersHead(ms: Members, c: Value)
    requires |ms| > 0 && CopyValue(ms[0].val) == Some(c)
    ensures CopyMembers(ms) == [Entry(ms[0].key, c)] + CopyMembers(ms[1..])
  {
  }

  /** A first pair operator= cannot copy is left out. */
  lemma DropUncopied(ms: Members, t: Members)
    requires |ms| > 0 && !Copyable(ms[0].val) && Keys(t) <= Keys(ms[1..])
    ensures Keys(t) <= Keys(ms) && !AllCopyable(ms)
  {
    KeysCons(ms[0], ms[1..]);
    assert ms == [ms[0]] + ms[1..];
  }

  /** A copied first pair goes before the copy of the rest. */
  lemma ConsCopied(ms: Members, t: Members, c: Value)
    requires |ms| > 0 && Copyable(c)
    requires Keys(t) <= Keys(ms[1..]) && |t| <= |ms| - 1
    requires Sorted(ms[1..]) ==> Sorted(t)
    requires AllCopyable(ms[1..]) ==> Keys(t) == Keys(ms[1..])
    requires forall i :: 0 <= i < |t| ==> Copyable(t[i].val)
    ensures var r := [Entry(ms[0].key, c)] + t;
      Keys(r) <= Keys(ms) && (Sorted(ms) ==> Sorted(r))
      && (AllCopyable(ms) ==> Keys(r) == Keys(ms))
      && forall i :: 0 <= i < |r| ==> Copyable(r[i].val)
  {
    var r := [Entry(ms[0].key, c)] + t;
    KeysCons(ms[0], ms[1..]);
    assert ms == [ms[0]] + ms[1..];
    KeysCons(Entry(ms[0].key, c), t);
    CopiedHeadSorted(ms, t, c);
    if AllCopyable(ms) {
      forall i | 0 <= i < |ms[1..]| ensures Copyable(ms[1..][i].val) {
        assert ms[1..][i] == ms[i + 1];
      }
    }
    forall i | 0 <= i < |r| ensures Copyable(r[i].val) {
      if i > 0 { assert r[i] == t[i - 1]; }
    }
  }

  lemma CopiedHeadSorted(ms: Members, t: Members, c: Value)
    requires |ms| > 0 && Keys(t) <= Keys(ms[1..]) && (Sorted(ms[1..]) ==> Sorted(t))
    ensures Sorted(ms) ==> Sorted([Entry(ms[0].key, c)] + t)
  {
    if Sorted(ms) {
      var r := [Entry(ms[0].key, c)] + t;
      forall i, j | 0 <= i < j < |r| ensures Less(r[i].key, r[j].key) {
        if i == 0 {
          assert r[j] == t[j - 1] && r[j].key in Keys(t);
          SortedHeadBelow(ms, r[j].key);
        } else {
          assert r[i] == t[i - 1] && r[j] == t[j - 1];
        }
      }
    }
  }

  // ---------------------------------------------------------------------
  // Strings (JSON::parseString)

  /** JSON::parseString: whitespace skipped, a double quote must come, and
      the character after it is stored whatever it is (a second quote
      included; an escape is decoded); the loop then runs to the closing
      quote, or succeeds with what it has once the eofbit is up. */
  function ParseString(st: Stream): (r: JsonParser.StrResult)
    requires Valid(st)
    ensures Valid(r.st) && r.st.data == st.data && Rank(r.st) <= Rank(st)
    ensures !st.eof ==> Rank(r.st) < Rank(st)
    ensures var s := SkipWs(st); s.eof ==> r.ok && r.text == ""
    ensures var s := SkipWs(st); !s.eof && s.pos < |s.data| && s.data[s.pos] != '"' ==> !r.ok
  {
    var s := SkipWs(st);
    if s.eof then JsonParser.StrResult(true, "", s)
    else
      var g := Get(s);
      if g.sym != Ch('"') then JsonParser.StrResult(false, "", g.st)
      else
        var h := Get(g.st);
        var x := JsonParser.StringStep(h.sym, h.st);
        if !x.ok then JsonParser.StrResult(false, "", x.st)
        else JsonParser.StringLoop(x.st, [x.c])
  }

  /** jsonpp does not know the empty string: at `"""` it stores the second
      quote and closes at the third, where tcajson reads the empty string and
      stops after the second. */
  lemma EmptyQuotesNotEmpty(st: Stream)
    requires Valid(st) && !st.eof && At(st, "\"\"\"")
    ensures ParseString(st) == JsonParser.StrResult(true, "\"", Adv(st, 3))
    ensures JsonParser.ParseString(st) == JsonParser.StrResult(true, "", Adv(st, 2))
  {
    AtPointwise(st, "\"\"\"");
    assert SkipWs(st) == st;
    var g := Get(st);
    assert g.st == Adv(st, 1);
    var h := Get(g.st);
    assert h == Read(Ch('"'), Adv(st, 2));
    var x := JsonParser.StringStep(h.sym, h.st);
    assert x == JsonParser.CharStep(true, '"', Adv(st, 2));
    JsonParser.StringLoopClose(Adv(st, 2), "\"");
    JsonParser.StringLoopClose(Adv(st, 1), "");
  }

  /** At an opening quote, jsonpp stores the next character whatever it is.
      Unless that is a second quote, this is what tcajson's loop does, so
      the two parsers agree; at a second quote tcajson has read the empty
      string, while jsonpp keeps the quote and reads on as the loop does. */
  lemma ParseStringAgainstTcajson(st: Stream)
    requires Valid(st) && !st.eof && At(st, ['"'])
    ensures !At(Adv(st, 1), ['"']) ==> ParseString(st) == JsonParser.ParseString(st)
    ensures At(Adv(st, 1), ['"']) ==>
      ParseString(st) == JsonParser.StringLoop(Adv(st, 2), ['"'])
      && JsonParser.ParseString(st) == JsonParser.StrResult(true, "", Adv(st, 2))
  {
    if At(Adv(st, 1), ['"']) {
      SecondQuote(st);
    } else {
      OtherSecond(st);
    }
  }

  lemma SecondQuote(st: Stream)
    requires Valid(st) && !st.eof && At(st, ['"']) && At(Adv(st, 1), ['"'])
    ensures ParseString(st) == JsonParser.StringLoop(Adv(st, 2), ['"'])
    ensures JsonParser.ParseString(st) == JsonParser.StrResult(true, "", Adv(st, 2))
  {
    AtHead(st, ['"']);
    assert SkipWs(st) == st;
    JsonParser.ParseStringOpen(st);
    var s1 := Adv(st, 1);
    AtHead(s1, ['"']);
    JsonParser.StringLoopClose(s1, "");
  }

  lemma OtherSecond(st: Stream)
    requires Valid(st) && !st.eof && At(st, ['"']) && !At(Adv(st, 1), ['"'])
    ensures ParseString(st) == JsonParser.ParseString(st)
  {
    AtHead(st, ['"']);
    assert SkipWs(st) == st;
    JsonParser.ParseStringOpen(st);
    var s1 := Adv(st, 1);
    assert !(s1.pos < |s1.data| && s1.data[s1.pos] == '"');
    var h := Get(s1);
    assert h.sym != Ch('"');
    var x := JsonParser.StringStep(h.sym, h.st);
    assert "" + [x.c] == [x.c];
    assert JsonParser.StringLoop(s1, "") == if !x.ok then JsonParser.StrResult(false, "", x.st)
      else JsonParser.StringLoop(x.st, [x.c]);
  }

  /** A non-empty string quoted and escaped by the writer reads back as
      itself, ending after the closing quote. */
  lemma StringRoundTrip(st: Stream, s: string)
    requires Valid(st) && !st.eof && At(st, JsonValue.Quote(s, JsonValue.Escaped)) && |s| > 0
    ensures ParseString(st) == JsonParser.StrResult(true, s, Adv(st, |JsonValue.Quote(s, JsonValue.Escaped)|))
  {
    var e := JsonValue.Escape(s);
    assert e == JsonValue.EscapeChar(s[0]) + JsonValue.Escape(s[1..]);
    assert JsonValue.Quote(s, JsonValue.Escaped) == ['"'] + (e + ['"']);
    AtConcat(st, ['"'], e + ['"']);
    AtHead(Adv(st, 1), e + ['"']);
    assert (e + ['"'])[0] == JsonValue.EscapeChar(s[0])[0] != '"';
    ParseStringAgainstTcajson(st);
    JsonParser.StringRoundTrip(st, s);
  }

  // ---------------------------------------------------------------------
  // Literals (JSON::parseBoolean, JSON::parseLiteral)

  /** The characters of s that are not whitespace, in order. */
  function NonSpace(s: string): (r: string)
    ensures |r| <= |s|
  {
    if |s| == 0 then "" else (if IsSpace(s[0]) then "" else [s[0]]) + NonSpace(s[1..])
  }

  lemma {:induction false} NonSpaceAppend(a: string, b: string)
    ensures NonSpace(a + b) == NonSpace(a) + NonSpace(b)
    decreases |a|
  {
    if |a| > 0 {
      assert (a + b)[1..] == a[1..] + b;
      NonSpaceAppend(a[1..], b);
    } else {
      assert a + b == b;
    }
  }

  /** `while (!eof && peek() != ',') { c = get(); if (!isspace(c))
      token.push_back(c); }`: only a comma stops the token, so a closing
      brace or bracket is swallowed; a peek that runs off the end raises the
      eofbit and the get that follows pushes (char)EOF. */
  function CommaRun(st: Stream): (r: JsonParser.TokResult)
    requires Valid(st)
    ensures Valid(r.st) && r.st.data == st.data && Rank(r.st) <= Rank(st)
    ensures st.pos <= r.st.pos
    ensures forall i :: st.pos <= i < r.st.pos ==> st.data[i] != ','
    ensures r.st.eof || (r.st.pos < |r.st.data| && r.st.data[r.st.pos] == ',')
    ensures |r.text| > 0 ==> Rank(r.st) < Rank(st)
    decreases Rank(st)
  {
    if st.eof then JsonParser.TokResult("", st)
    else
      var p := Peek(st);
      if p.sym == Ch(',') then JsonParser.TokResult("", p.st)
      else
        var g := Get(p.st);
        var r := CommaRun(g.st);
        JsonParser.TokResult(if SpaceSym(g.sym) then r.text else [CharOf(g.sym)] + r.text, r.st)
  }

  /** One more character in front of a collected run. */
  lemma NonSpaceCons(c: char, rest: string, t: string, e: string)
    requires t == NonSpace(rest) + e
    ensures (if IsSpace(c) then "" else [c]) + t == NonSpace([c] + rest) + e
  {
    var x := if IsSpace(c) then "" else [c];
    assert ([c] + rest)[1..] == rest;
    assert NonSpace([c] + rest) == x + NonSpace(rest);
    Assoc(x, NonSpace(rest), e);
  }

  /** What CommaRun collects: the non-space characters it passed, and
      (char)EOF when it ran off the end. */
  lemma {:induction false} CommaRunText(st: Stream)
    requires Valid(st)
    ensures var r := CommaRun(st);
      r.text == NonSpace(st.data[st.pos..r.st.pos]) + (if r.st.eof && !st.eof then [EofChar] else [])
    decreases Rank(st)
  {
    if !st.eof {
      var p := Peek(st);
      if p.sym != Ch(',') {
        var g := Get(p.st);
        var r' := CommaRun(g.st);
        CommaRunText(g.st);
        if g.sym.EOF? {
          assert CommaRun(st) == JsonParser.TokResult([EofChar] + r'.text, r'.st);
          assert r'.st == g.st && st.data[st.pos..r'.st.pos] == "";
        } else {
          var c := g.sym.c;
          var rest := st.data[st.pos + 1..r'.st.pos];
          var x := if IsSpace(c) then "" else [c];
          var e: string := if r'.st.eof then [EofChar] else [];
          assert p.st == st && c == st.data[st.pos] && g.st == Adv(st, 1) && !g.st.eof;
          assert CommaRun(st) == JsonParser.TokResult(x + r'.text, r'.st);
          SliceCons(st.data, st.pos, r'.st.pos);
          NonSpaceCons(c, rest, r'.text, e);
        }
      }
    }
  }

  /** The token parseBoolean and parseLiteral compare: whitespace skipped,
      then the run up to a comma. */
  function CommaToken(st: Stream): (r: JsonParser.TokResult)
    requires Valid(st)
    ensures Valid(r.st) && r.st.data == st.data && Rank(r.st) <= Rank(st)
    ensures |r.text| > 0 ==> Rank(r.st) < Rank(st)
  {
    CommaRun(SkipWs(st))
  }

  /** JSON::parseBoolean(buf, b): succeeds iff the token is the literal the
      target's own type names. The type announced by parseValueType is not
      consulted, and the target keeps its value. */
  function ParseBoolean(st: Stream, kind: Kind): (r: JsonParser.Flag)
    requires Valid(st)
    ensures Valid(r.st) && r.st.data == st.data && Rank(r.st) <= Rank(st)
    ensures r.ok <==>
      ((kind == TrueKind && CommaToken(st).text == "true")
       || (kind == FalseKind && CommaToken(st).text == "false"))
    ensures r.ok ==> Rank(r.st) < Rank(st)
  {
    var t := CommaToken(st);
    JsonParser.Flag((kind == TrueKind && t.text == "true") || (kind == FalseKind && t.text == "false"), t.st)
  }

  /** JSON::parseLiteral(buf, item) with the JSON_NULL item of parseObject
      and parseArray: the token must be "null". */
  function ParseLiteral(st: Stream): (r: JsonParser.Flag)
    requires Valid(st)
    ensures Valid(r.st) && r.st.data == st.data && Rank(r.st) <= Rank(st)
    ensures r.ok <==> CommaToken(st).text == "null"
    ensures r.ok ==> Rank(r.st) < Rank(st)
  {
    var t := CommaToken(st);
    JsonParser.Flag(t.text == "null", t.st)
  }

  /** A non-space character of s survives in NonSpace(s). */
  lemma {:induction false} NonSpaceKeeps(s: string, i: nat)
    requires i < |s| && !IsSpace(s[i])
    ensures s[i] in NonSpace(s)
    decreases i
  {
    if i > 0 {
      NonSpaceKeeps(s[1..], i - 1);
    }
  }

  /** A literal right before the closing brace never parses in jsonpp: the
      token runs on over the brace. tcajson stops at the brace and accepts. */
  lemma LiteralBeforeBraceFails(st: Stream, kind: Kind)
    requires Valid(st) && !st.eof && At(st, "true }")
    ensures !ParseBoolean(st, kind).ok
    ensures JsonParser.ParseBoolean(st).out == JsonParser.Ok
  {
    AtPointwise(st, "true }");
    assert SkipWs(st) == st;
    BraceInToken(st);
    assert '}' !in "true" && '}' !in "false";
    TcajsonStopsAtBrace(st);
  }

  /** A result meeting the contract of CommaRun runs at least past the n
      characters ahead when none of them is a comma. */
  lemma CommaRunPast(st: Stream, r: JsonParser.TokResult, n: nat)
    requires Valid(st) && st.pos + n <= |st.data|
    requires forall i :: st.pos <= i < st.pos + n ==> st.data[i] != ','
    requires Valid(r.st) && r.st.data == st.data && st.pos <= r.st.pos
    requires r.st.eof || (r.st.pos < |r.st.data| && r.st.data[r.st.pos] == ',')
    ensures r.st.pos >= st.pos + n
  {
  }

  /** CommaRun over "true }" keeps the brace in its token. */
  lemma BraceInToken(st: Stream)
    requires Valid(st) && !st.eof && At(st, "true }")
    ensures '}' in CommaRun(st).text
  {
    AtPointwise(st, "true }");
    AtAvoids(st, "true }", ',');
    var r := CommaRun(st);
    CommaRunText(st);
    CommaRunPast(st, r, 6);
    var a := st.data[st.pos..r.st.pos];
    assert a[5] == st.data[st.pos + 5] == '}';
    NonSpaceKeeps(a, 5);
  }

  lemma TcajsonStopsAtBrace(st: Stream)
    requires Valid(st) && !st.eof && At(st, "true }")
    ensures JsonParser.ParseBoolean(st).out == JsonParser.Ok
  {
    AtPointwise(st, "true }");
    assert SkipWs(st) == st;
    assert JsonParser.After(Adv(st, 4));
    AtConcat(st, "true", " }");
    assert "true" + " }" == "true }";
    JsonParser.TokenRunReads(st, "true");
  }

  // ---------------------------------------------------------------------
  // Values (JSON::parseValueType and the switch of parseObject/parseArray)

  /** The type a peeked character announces; (char)EOF and every character
      outside the switch give JSON_INVALID. */
  function KindAt(c: char): Kind
  {
    if c == '[' then ArrayKind
    else if c == '{' then ObjectKind
    else if c == '"' then StringKind
    else if c == '-' || '0' <= c <= '9' then NumberKind
    else if c == 't' then TrueKind
    else if c == 'f' then FalseKind
    else if c == 'n' then NullKind
    else InvalidKind
  }

  datatype Typed = Typed(kind: Kind, st: Stream)

  /** JSON::parseValueType: whitespace skipped, the next character peeked
      and not consumed. */
  function ValueType(st: Stream): (r: Typed)
    requires Valid(st)
    ensures Valid(r.st) && r.st.data == st.data && Rank(r.st) <= Rank(st)
    ensures r.st.pos == SkipWs(st).pos
    ensures r.kind != InvalidKind ==> !r.st.eof && r.st.pos < |r.st.data| && KindAt(r.st.data[r.st.pos]) == r.kind
    ensures r.kind != ItemKind
  {
    var p := Peek(SkipWs(st));
    Typed(KindAt(CharOf(p.sym)), p.st)
  }

  /** jsonpp's classification against tcajson's: the same for containers,
      strings and numbers; 't' and 'f' split the boolean type; and what
      tcajson calls null is null in jsonpp only at an 'n' and JSON_INVALID
      otherwise. */
  lemma ValueTypeAgainstTcajson(st: Stream)
    requires Valid(st)
    ensures var j, t := ValueType(st), JsonParser.ValueType(st);
      j.st == t.st
      && (j.kind == ObjectKind <==> t.tag == JsonValue.TagObject)
      && (j.kind == ArrayKind <==> t.tag == JsonValue.TagArray)
      && (j.kind == StringKind <==> t.tag == JsonValue.TagString)
      && (j.kind == NumberKind <==> t.tag == JsonValue.TagNumber)
      && (j.kind == TrueKind || j.kind == FalseKind <==> t.tag == JsonValue.TagBoolean)
      && (j.kind == NullKind || j.kind == InvalidKind <==> t.tag == JsonValue.TagNull)
      && (j.kind == NullKind <==> t.tag == JsonValue.TagNull && !j.st.eof && j.st.data[j.st.pos] == 'n')
  {
  }

  datatype ItemResult = ItemResult(out: JsonParser.Outcome, val: Value, jobj: Members, jary: seq<Value>, st: Stream)

  /** One arm of the switch in parseObject and parseArray. Nested objects
      and arrays are parsed into the loop's scratch jobj and jary, which are
      never emptied, and what is stored is a copy of them: the whole
      accumulated object, and for an array an empty one. */
  function ParseItem(st: Stream, kind: Kind, jobj: Members, jary: seq<Value>, d: Defaults): (r: ItemResult)
    requires Valid(st) && Sorted(jobj)
    ensures Valid(r.st) && r.st.data == st.data && Rank(r.st) <= Rank(st)
    ensures r.out == JsonParser.Ok && !st.eof ==> Rank(r.st) < Rank(st)
    ensures Sorted(r.jobj) && Keys(jobj) <= Keys(r.jobj)
    ensures forall k :: k in Keys(jobj) ==> Find(r.jobj, k) == Find(jobj, k)
    ensures AllCopyable(jobj) ==> AllCopyable(r.jobj)
    ensures r.out == JsonParser.Ok ==> Copyable(r.val) && KindOf(r.val) == (if kind == TrueKind || kind == FalseKind then d.boolKind else kind)
    ensures r.out == JsonParser.Ok && kind == ObjectKind ==> r.val == Object(CopyMembers(r.jobj))
    ensures r.out == JsonParser.Ok && kind == ArrayKind ==> r.val == Array([])
    ensures kind == InvalidKind || kind == ItemKind ==> r.out == JsonParser.Fail
    decreases Rank(st), 2
  {
    match kind
    case ObjectKind =>
      var o := ParseObject(st, jobj, d);
      ItemResult(o.out, Object(CopyMembers(o.members)), o.members, jary, o.st)
    case ArrayKind =>
      var a := ParseArray(st, jary, d);
      ItemResult(a.out, Array([]), jobj, a.items, a.st)
    case NumberKind =>
      var n := JsonParser.ParseNumber(st);
      ItemResult(if n.ok then JsonParser.Ok else JsonParser.Fail, Number(n.text), jobj, jary, n.st)
    case StringKind =>
      var s := ParseString(st);
      ItemResult(if s.ok then JsonParser.Ok else JsonParser.Fail, Str(s.text), jobj, jary, s.st)
    case TrueKind =>
      var b := ParseBoolean(st, d.boolKind);
      ItemResult(if b.ok then JsonParser.Ok else JsonParser.Fail, Boolean(d.boolKind, d.boolValue), jobj, jary, b.st)
    case FalseKind =>
      var b := ParseBoolean(st, d.boolKind);
      ItemResult(if b.ok then JsonParser.Ok else JsonParser.Fail, Boolean(d.boolKind, d.boolValue), jobj, jary, b.st)
    case NullKind =>
      var l := ParseLiteral(st);
      ItemResult(if l.ok then JsonParser.Ok else JsonParser.Fail, Item(NullKind), jobj, jary, l.st)
    case _ => ItemResult(JsonParser.Fail, Item(NullKind), jobj, jary, st)
  }

  // ---------------------------------------------------------------------
  // Objects and arrays (JSON::parseObject, JSON::parseArray)

  datatype ObjResult = ObjResult(out: JsonParser.Outcome, members: Members, st: Stream)
  datatype ArrResult = ArrResult(out: JsonParser.Outcome, items: seq<Value>, st: Stream)

  /** JSON::parseObject(buf, obj): '{' must come first; pairs are inserted
      into obj, which keeps what it held. Each call has scratch containers of
      its own, empty at the start. */
  function ParseObject(st: Stream, obj: Members, d: Defaults): (r: ObjResult)
    requires Valid(st) && Sorted(obj)
    ensures Valid(r.st) && r.st.data == st.data && Rank(r.st) <= Rank(st)
    ensures Sorted(r.members) && Keys(obj) <= Keys(r.members)
    ensures forall k :: k in Keys(obj) ==> Find(r.members, k) == Find(obj, k)
    ensures AllCopyable(obj) ==> AllCopyable(r.members)
    ensures r.out == JsonParser.Ok ==> Rank(r.st) < Rank(st)
    ensures st.pos < |st.data| && st.data[st.pos] != '{' ==> r.out == JsonParser.Fail && r.members == obj
    decreases Rank(st), 1
  {
    var g := Get(st);
    if CharOf(g.sym) != '{' then ObjResult(JsonParser.Fail, obj, g.st)
    else ObjectLoop(g.st, obj, "", true, [], [], d)
  }

  /** The `while (!buf.eof())` loop of parseObject: key is the name read and
      not yet given a value, p the flag returned when the loop ends, jobj and
      jary the scratch containers. */
  function ObjectLoop(st: Stream, obj: Members, key: string, p: bool, jobj: Members, jary: seq<Value>, d: Defaults): (r: ObjResult)
    requires Valid(st) && Sorted(obj) && Sorted(jobj)
    ensures Valid(r.st) && r.st.data == st.data && Rank(r.st) <= Rank(st)
    ensures Sorted(r.members) && Keys(obj) <= Keys(r.members)
    ensures forall k :: k in Keys(obj) ==> Find(r.members, k) == Find(obj, k)
    ensures AllCopyable(obj) && AllCopyable(jobj) ==> AllCopyable(r.members)
    decreases Rank(st), 4
  {
    if st.eof then ObjResult(if p then JsonParser.Ok else JsonParser.Fail, obj, st)
    else
      var pk := Peek(st);
      var c := CharOf(pk.sym);
      if IsSpace(c) then ObjectLoop(Get(pk.st).st, obj, key, p, jobj, jary, d)
      else if c == '}' then ObjResult(if p then JsonParser.Ok else JsonParser.Fail, obj, Get(pk.st).st)
      else if key == "" then ObjectKey(pk.st, obj, jobj, jary, d)
      else ObjectValue(pk.st, obj, key, jobj, jary, d)
  }

  /** The loop's step with no key pending: a string and ':'. */
  function ObjectKey(st: Stream, obj: Members, jobj: Members, jary: seq<Value>, d: Defaults): (r: ObjResult)
    requires Valid(st) && Sorted(obj) && Sorted(jobj)
    ensures Valid(r.st) && r.st.data == st.data && Rank(r.st) <= Rank(st)
    ensures Sorted(r.members) && Keys(obj) <= Keys(r.members)
    ensures forall k :: k in Keys(obj) ==> Find(r.members, k) == Find(obj, k)
    ensures AllCopyable(obj) && AllCopyable(jobj) ==> AllCopyable(r.members)
    decreases Rank(st), 3
  {
    var s := ParseString(st);
    if !s.ok then ObjResult(JsonParser.Fail, obj, s.st)
    else
      var a := JsonParser.ParseAssign(s.st);
      if !a.ok then ObjResult(JsonParser.Fail, obj, a.st)
      else ObjectLoop(a.st, obj, s.text, false, jobj, jary, d)
  }

  /** The loop's step with a key pending: the value, the insert (which
      throws on a key already present), and the separator. */
  function ObjectValue(st: Stream, obj: Members, key: string, jobj: Members, jary: seq<Value>, d: Defaults): (r: ObjResult)
    requires Valid(st) && Sorted(obj) && Sorted(jobj)
    ensures Valid(r.st) && r.st.data == st.data && Rank(r.st) <= Rank(st)
    ensures Sorted(r.members) && Keys(obj) <= Keys(r.members)
    ensures forall k :: k in Keys(obj) ==> Find(r.members, k) == Find(obj, k)
    ensures AllCopyable(obj) && AllCopyable(jobj) ==> AllCopyable(r.members)
    decreases Rank(st), 3
  {
    var t := ValueType(st);
    var x := ParseItem(t.st, t.kind, jobj, jary, d);
    if x.out != JsonParser.Ok then ObjResult(x.out, obj, x.st)
    else match Insert(obj, key, x.val)
      case None => ObjResult(JsonParser.Throw, obj, x.st)
      case Some(obj') =>
        assert AllCopyable(obj) ==> AllCopyable(obj') by {
          if AllCopyable(obj) { PutCopyable(obj, key, x.val); }
        }
        var sep := JsonParser.ParseSeparator(x.st);
        if !sep.ok then ObjResult(JsonParser.Fail, obj', sep.st)
        else ObjectLoop(sep.st, obj', "", true, x.jobj, x.jary, d)
  }

  /** Every value in the map after an insert is an old one or the new one. */
  lemma PutCopyable(m: Members, k: string, v: Value)
    requires Sorted(m) && k !in Keys(m) && AllCopyable(m) && Copyable(v)
    ensures AllCopyable(Put(m, k, v))
  {
    var r := Put(m, k, v);
    forall i | 0 <= i < |r| ensures Copyable(r[i].val) {
      FindSorted(r, i);
      if r[i].key != k {
        var j :| 0 <= j < |m| && m[j] == Entry(r[i].key, r[i].val);
      }
    }
  }

  /** JSON::parseArray(buf, ary): '[' must come first; values are appended. */
  function ParseArray(st: Stream, ary: seq<Value>, d: Defaults): (r: ArrResult)
    requires Valid(st)
    ensures Valid(r.st) && r.st.data == st.data && Rank(r.st) <= Rank(st)
    ensures |r.items| >= |ary| && r.items[..|ary|] == ary
    ensures r.out == JsonParser.Ok ==> Rank(r.st) < Rank(st)
    ensures st.pos < |st.data| && st.data[st.pos] != '[' ==> r.out == JsonParser.Fail && r.items == ary
    decreases Rank(st), 1
  {
    var g := Get(st);
    if CharOf(g.sym) != '[' then ArrResult(JsonParser.Fail, ary, g.st)
    else ArrayLoop(g.st, ary, [], [], d)
  }

  /** The loop of parseArray; it returns true whenever it leaves through
      the eofbit or a ']'. */
  function ArrayLoop(st: Stream, ary: seq<Value>, jobj: Members, jary: seq<Value>, d: Defaults): (r: ArrResult)
    requires Valid(st) && Sorted(jobj)
    ensures Valid(r.st) && r.st.data == st.data && Rank(r.st) <= Rank(st)
    ensures |r.items| >= |ary| && r.items[..|ary|] == ary
    ensures r.out == JsonParser.Ok ==> Rank(r.st) < Rank(st) || st.eof
    decreases Rank(st), 4
  {
    if st.eof then ArrResult(JsonParser.Ok, ary, st)
    else
      var pk := Peek(st);
      var c := CharOf(pk.sym);
      if IsSpace(c) then ArrayLoop(Get(pk.st).st, ary, jobj, jary, d)
      else if c == ']' then ArrResult(JsonParser.Ok, ary, Get(pk.st).st)
      else ArrayValue(pk.st, ary, jobj, jary, d)
  }

  function ArrayValue(st: Stream, ary: seq<Value>, jobj: Members, jary: seq<Value>, d: Defaults): (r: ArrResult)
    requires Valid(st) && Sorted(jobj)
    ensures Valid(r.st) && r.st.data == st.data && Rank(r.st) <= Rank(st)
    ensures |r.items| >= |ary| && r.items[..|ary|] == ary
    ensures r.out == JsonParser.Ok ==> Rank(r.st) < Rank(st)
    decreases Rank(st), 3
  {
    var t := ValueType(st);
    var x := ParseItem(t.st, t.kind, jobj, jary, d);
    if x.out != JsonParser.Ok then ArrResult(x.out, ary, x.st)
    else
      var ary' := ary + [x.val];
      assert ary'[..|ary|] == ary;
      var sep := JsonParser.ParseSeparator(x.st);
      if !sep.ok then ArrResult(JsonParser.Fail, ary', sep.st)
      else
        var r := ArrayLoop(sep.st, ary', x.jobj, x.jary, d);
        assert r.items[..|ary|] == r.items[..|ary'|][..|ary|];
        r
  }

  datatype Parsed = Parsed(out: JsonParser.Outcome, root: Members)

  /** JSON::parse: from the first '{', into the root, which is never
      cleared; without a '{' nothing happens and the result is false. */
  function Parse(str: string, root: Members, d: Defaults): (r: Parsed)
    requires Sorted(root)
    ensures '{' !in str ==> r == Parsed(JsonParser.Fail, root)
    ensures Sorted(r.root) && Keys(root) <= Keys(r.root)
    ensures forall k :: k in Keys(root) ==> Find(r.root, k) == Find(root, k)
    ensures AllCopyable(root) ==> AllCopyable(r.root)
  {
    match FindFirst(str, '{')
    case None => Parsed(JsonParser.Fail, root)
    case Some(i) =>
      var o := ParseObject(Open(str[i..]), root, d);
      Parsed(o.out, o.members)
  }

  // ---------------------------------------------------------------------
  // Properties of the object parser

  /** An unknown value character ends parseObject with false at once, and
      nothing is inserted. */
  lemma InvalidValueFails(st: Stream, obj: Members, key: string, jobj: Members, jary: seq<Value>, d: Defaults)
    requires Valid(st) && Sorted(obj) && Sorted(jobj)
    requires ValueType(st).kind == InvalidKind
    ensures ObjectValue(st, obj, key, jobj, jary, d).out == JsonParser.Fail
    ensures ObjectValue(st, obj, key, jobj, jary, d).members == obj
  {
  }

  /** Every object parseObject stores holds all the pairs of the objects
      stored before it in the same loop: the scratch object only grows. */
  lemma NestedObjectAccumulates(st: Stream, jobj: Members, jary: seq<Value>, d: Defaults)
    requires Valid(st) && Sorted(jobj) && AllCopyable(jobj)
    ensures var x := ParseItem(st, ObjectKind, jobj, jary, d);
      x.out == JsonParser.Ok ==> x.val.Object? && Keys(jobj) <= Keys(x.val.members) && Keys(x.val.members) == Keys(x.jobj)
  {
    var x := ParseItem(st, ObjectKind, jobj, jary, d);
    if x.out == JsonParser.Ok {
      assert x.val == Object(CopyMembers(x.jobj));
      assert AllCopyable(x.jobj);
    }
  }

  /** A repeated key in one object throws, and the map stays as it was. */
  lemma DuplicateThrows(st: Stream, obj: Members, key: string, jobj: Members, jary: seq<Value>, d: Defaults)
    requires Valid(st) && Sorted(obj) && Sorted(jobj) && key in Keys(obj)
    requires ParseItem(ValueType(st).st, ValueType(st).kind, jobj, jary, d).out == JsonParser.Ok
    ensures ObjectValue(st, obj, key, jobj, jary, d).out == JsonParser.Throw
    ensures ObjectValue(st, obj, key, jobj, jary, d).members == obj
  {
  }

  // ---------------------------------------------------------------------
  // Serialisation (JSON::ToString, JsonObject::toString, JsonArray::toString)

  /** JSON::ToString of one item. `fixed` chooses the separator rule: false
      is the source's `(i + 1) < size()`, true the rule of a separator after
      every entry but the last. Strings are written between quotes without
      escaping; a boolean goes through JsonType<bool>::toString, which streams
      the bool as 1 or 0. */
  function ValueText(v: Value, fixed: bool): string
  {
    match v
    case Item(k) => if k == NullKind then "null" else if k == ItemKind then "UNKNOWN" else "Invalid type"
    case Object(ms) => "{ " + PairsText(ms, 1, |ms|, fixed) + " }"
    case Array(xs) => "[ " + ElemsText(xs, 1, |xs|, fixed) + " ]"
    case Number(lex) => lex
    case Str(s) => "\"" + s + "\""
    case Boolean(_, b) => if b then "1" else "0"
  }

  /** The separator after the i-th entry (from 1) of n. */
  predicate SepAfter(i: nat, n: nat, fixed: bool)
  {
    if fixed then i < n else i + 1 < n
  }

  function PairText(e: Entry<Value>, fixed: bool): string
  {
    "\"" + e.key + "\"" + " : " + ValueText(e.val, fixed)
  }

  /** The loop of JsonObject::toString from its i-th pair of n. */
  function PairsText(ms: Members, i: nat, n: nat, fixed: bool): string
  {
    if |ms| == 0 then ""
    else PairText(ms[0], fixed) + (if SepAfter(i, n, fixed) then ", " else "") + PairsText(ms[1..], i + 1, n, fixed)
  }

  /** The loop of JsonArray::toString from its i-th element of n. */
  function ElemsText(xs: seq<Value>, i: nat, n: nat, fixed: bool): string
  {
    if |xs| == 0 then ""
    else ValueText(xs[0], fixed) + (if SepAfter(i, n, fixed) then ", " else "") + ElemsText(xs[1..], i + 1, n, fixed)
  }

  /** JsonObject::toString as written. */
  function ObjectToString(ms: Members): string
  {
    ValueText(Object(ms), false)
  }

  /** JsonObject::toString with a separator between every two pairs. */
  function ObjectToStringFixed(ms: Members): string
  {
    ValueText(Object(ms), true)
  }

  function PairTexts(ms: Members, fixed: bool): (r: seq<string>)
    ensures |r| == |ms|
    ensures forall i :: 0 <= i < |ms| ==> r[i] == PairText(ms[i], fixed)
  {
    if |ms| == 0 then [] else [PairText(ms[0], fixed)] + PairTexts(ms[1..], fixed)
  }

  /** With the fixed rule, the pairs joined by ", ". */
  lemma {:induction false} PairsTextJoins(ms: Members, i: nat, n: nat)
    requires i >= 1 && i + |ms| == n + 1
    ensures PairsText(ms, i, n, true) == JsonValue.Join(PairTexts(ms, true), ", ")
    decreases |ms|
  {
    if |ms| > 1 {
      PairsTextJoins(ms[1..], i + 1, n);
      assert PairTexts(ms, true)[1..] == PairTexts(ms[1..], true);
    } else if |ms| == 1 {
      assert ms[1..] == [];
    }
  }

  /** As written, the separator is missing exactly between the last two
      pairs: the pairs but the last joined by ", ", then the last glued on. */
  lemma {:induction false} PairsTextAsWritten(ms: Members, i: nat, n: nat)
    requires i >= 1 && i + |ms| == n + 1 && |ms| >= 2
    ensures PairsText(ms, i, n, false)
      == JsonValue.Join(PairTexts(ms, false)[..|ms| - 1], ", ") + PairText(ms[|ms| - 1], false)
    decreases |ms|
  {
    var ts := PairTexts(ms, false);
    var t := ts[..|ms| - 1];
    var p0, last := PairText(ms[0], false), PairText(ms[|ms| - 1], false);
    if |ms| == 2 {
      assert ms[1..][1..] == [] && ms[1..][0] == ms[1];
      assert PairsText(ms[1..], i + 1, n, false) == last + "" + "";
      assert last + "" + "" == last;
      assert PairsText(ms, i, n, false) == p0 + "" + last;
      assert p0 + "" + last == p0 + last;
      assert t == [p0];
    } else {
      var rest := PairsText(ms[1..], i + 1, n, false);
      var j' := JsonValue.Join(PairTexts(ms[1..], false)[..|ms| - 2], ", ");
      PairsTextAsWritten(ms[1..], i + 1, n);
      assert ms[1..][|ms| - 2] == ms[|ms| - 1];
      assert rest == j' + last;
      assert PairsText(ms, i, n, false) == p0 + ", " + rest;
      assert t[1..] == PairTexts(ms[1..], false)[..|ms| - 2];
      assert t[0] == p0;
      assert JsonValue.Join(t, ", ") == p0 + ", " + j';
      Assoc(p0 + ", ", j', last);
    }
  }

  /** The fixed writer's layout. */
  lemma ObjectToStringFixedLayout(ms: Members)
    ensures ObjectToStringFixed(ms) == "{ " + JsonValue.Join(PairTexts(ms, true), ", ") + " }"
  {
    PairsTextJoins(ms, 1, |ms|);
  }

  /** The writer as written: for two or more pairs the last two run
      together. */
  lemma ObjectToStringLayout(ms: Members)
    requires |ms| >= 2
    ensures ObjectToString(ms) == "{ " + JsonValue.Join(PairTexts(ms, false)[..|ms| - 1], ", ") + PairText(ms[|ms| - 1], false) + " }"
  {
    var j, p := JsonValue.Join(PairTexts(ms, false)[..|ms| - 1], ", "), PairText(ms[|ms| - 1], false);
    PairsTextAsWritten(ms, 1, |ms|);
    assert PairsText(ms, 1, |ms|, false) == j + p;
    assert ObjectToString(ms) == "{ " + (j + p) + " }";
    Assoc("{ ", j, p);
  }

  function ElemTexts(xs: seq<Value>, fixed: bool): (r: seq<string>)
    ensures |r| == |xs|
    ensures forall i :: 0 <= i < |xs| ==> r[i] == ValueText(xs[i], fixed)
  {
    if |xs| == 0 then [] else [ValueText(xs[0], fixed)] + ElemTexts(xs[1..], fixed)
  }

  /** With the fixed rule, the elements joined by ", ". */
  lemma {:induction false} ElemsTextJoins(xs: seq<Value>, i: nat, n: nat)
    requires i >= 1 && i + |xs| == n + 1
    ensures ElemsText(xs, i, n, true) == JsonValue.Join(ElemTexts(xs, true), ", ")
    decreases |xs|
  {
    if |xs| > 1 {
      ElemsTextJoins(xs[1..], i + 1, n);
      assert ElemTexts(xs, true)[1..] == ElemTexts(xs[1..], true);
    } else if |xs| == 1 {
      assert xs[1..] == [];
    }
  }

  /** JsonArray::toString has the same `(i + 1) < size()` test: the
      separator is missing exactly between the last two elements. */
  lemma {:induction false} ElemsTextAsWritten(xs: seq<Value>, i: nat, n: nat)
    requires i >= 1 && i + |xs| == n + 1 && |xs| >= 2
    ensures ElemsText(xs, i, n, false)
      == JsonValue.Join(ElemTexts(xs, false)[..|xs| - 1], ", ") + ValueText(xs[|xs| - 1], false)
    decreases |xs|
  {
    var ts := ElemTexts(xs, false);
    var t := ts[..|xs| - 1];
    var p0, last := ValueText(xs[0], false), ValueText(xs[|xs| - 1], false);
    if |xs| == 2 {
      LastTwo(xs, i, n);
      assert t == [p0];
    } else {
      var rest := ElemsText(xs[1..], i + 1, n, false);
      var j' := JsonValue.Join(ElemTexts(xs[1..], false)[..|xs| - 2], ", ");
      ElemsTextAsWritten(xs[1..], i + 1, n);
      assert xs[1..][|xs| - 2] == xs[|xs| - 1];
      assert rest == j' + last;
      assert ElemsText(xs, i, n, false) == p0 + ", " + rest;
      assert t[1..] == ElemTexts(xs[1..], false)[..|xs| - 2];
      assert t[0] == p0;
      assert JsonValue.Join(t, ", ") == p0 + ", " + j';
      Assoc(p0 + ", ", j', last);
    }
  }

  /** Two elements with the rule as written: nothing between them. */
  lemma LastTwo(xs: seq<Value>, i: nat, n: nat)
    requires i >= 1 && i + |xs| == n + 1 && |xs| == 2
    ensures ElemsText(xs, i, n, false) == ValueText(xs[0], false) + ValueText(xs[1], false)
  {
    var p0, last := ValueText(xs[0], false), ValueText(xs[1], false);
    assert xs[1..][1..] == [] && xs[1..][0] == xs[1];
    assert ElemsText(xs[1..], i + 1, n, false) == last + "" + "";
    assert last + "" + "" == last;
    assert ElemsText(xs, i, n, false) == p0 + "" + last;
    assert p0 + "" + last == p0 + last;
  }

  /** The array writer as written: for two or more elements the last two
      run together. */
  lemma ArrayToStringLayout(xs: seq<Value>)
    requires |xs| >= 2
    ensures ValueText(Array(xs), false)
      == "[ " + JsonValue.Join(ElemTexts(xs, false)[..|xs| - 1], ", ") + ValueText(xs[|xs| - 1], false) + " ]"
  {
    var j, p := JsonValue.Join(ElemTexts(xs, false)[..|xs| - 1], ", "), ValueText(xs[|xs| - 1], false);
    ElemsTextAsWritten(xs, 1, |xs|);
    assert ElemsText(xs, 1, |xs|, false) == j + p;
    assert ValueText(Array(xs), false) == "[ " + (j + p) + " ]";
    Assoc("[ ", j, p);
  }

  /** The fixed array writer's layout. */
  lemma ArrayToStringFixedLayout(xs: seq<Value>)
    ensures ValueText(Array(xs), true) == "[ " + JsonValue.Join(ElemTexts(xs, true), ", ") + " ]"
  {
    ElemsTextJoins(xs, 1, |xs|);
  }

  /** The array writer as written prints `[1, 2]` as `[ 12 ]`. */
  lemma TwoItemsRunTogether()
    ensures ValueText(Array([Number("1"), Number("2")]), false) == "[ 12 ]"
  {
    var xs := [Number("1"), Number("2")];
    ArrayToStringLayout(xs);
    assert ElemTexts(xs, false)[..1] == ["1"];
    assert JsonValue.Join(["1"], ", ") == "1";
    assert "[ " + "1" + "2" + " ]" == "[ 12 ]";
  }

  /** The same elements with the separator rule fixed. */
  lemma TwoItemsFixed()
    ensures ValueText(Array([Number("1"), Number("2")]), true) == "[ 1, 2 ]"
  {
    var xs := [Number("1"), Number("2")];
    ArrayToStringFixedLayout(xs);
    assert ElemTexts(xs, true) == ["1", "2"];
    assert ElemTexts(xs, true)[1..] == ["2"];
    assert JsonValue.Join(["1", "2"], ", ") == "1" + ", " + "2";
    assert "[ " + ("1" + ", " + "2") + " ]" == "[ 1, 2 ]";
  }

  /** For a single pair both rules write no separator. */
  lemma OnePairAgrees(e: Entry<Value>)
    ensures ObjectToString([e]) == "{ " + PairText(e, false) + " }"
    ensures ObjectToStringFixed([e]) == "{ " + PairText(e, true) + " }"
  {
    var ms := [e];
    assert ms[1..] == [];
    var a, b := PairText(e, false), PairText(e, true);
    assert PairsText(ms, 1, 1, false) == a + "" + "" && a + "" + "" == a;
    assert PairsText(ms, 1, 1, true) == b + "" + "" && b + "" + "" == b;
  }

  /** Two null pairs, written: no comma between them. */
  lemma TwoPairsRunTogether()
    ensures ObjectToString([Entry("a", Item(NullKind)), Entry("b", Item(NullKind))]) == "{ \"a\" : null\"b\" : null }"
  {
    TwoNullPairs("a", "b");
    assert "{ " + (NullPair("a") + NullPair("b")) + " }" == "{ \"a\" : null\"b\" : null }";
  }

  /** The same pairs with the separator rule fixed. */
  lemma TwoPairsFixed()
    ensures ObjectToStringFixed([Entry("a", Item(NullKind)), Entry("b", Item(NullKind))]) == "{ \"a\" : null, \"b\" : null }"
  {
    TwoNullPairs("a", "b");
    assert "{ " + (NullPair("a") + ", " + NullPair("b")) + " }" == "{ \"a\" : null, \"b\" : null }";
  }

  /** The text of a pair whose value is null. */
  function NullPair(a: string): string
  {
    "\"" + a + "\"" + " : " + "null"
  }

  /** Two null pairs under either separator rule. */
  lemma TwoNullPairs(a: string, b: string)
    ensures ObjectToString([Entry(a, Item(NullKind)), Entry(b, Item(NullKind))]) == "{ " + (NullPair(a) + NullPair(b)) + " }"
    ensures ObjectToStringFixed([Entry(a, Item(NullKind)), Entry(b, Item(NullKind))]) == "{ " + (NullPair(a) + ", " + NullPair(b)) + " }"
  {
    var ea, eb := Entry(a, Item(NullKind)), Entry(b, Item(NullKind));
    var ms := [ea, eb];
    var pa, pb := NullPair(a), NullPair(b);
    assert ms[1..] == [eb] && ms[1..][1..] == [];
    assert ValueText(Item(NullKind), false) == "null" && ValueText(Item(NullKind), true) == "null";
    assert PairText(ea, false) == pa && PairText(ea, true) == pa;
    assert PairText(eb, false) == pb && PairText(eb, true) == pb;
    assert PairsText([eb], 2, 2, false) == pb + "" + "" == pb;
    assert PairsText([eb], 2, 2, true) == pb + "" + "" == pb;
    assert pa + "" + pb == pa + pb;
    assert PairsText(ms, 1, 2, false) == pa + pb;
    assert PairsText(ms, 1, 2, true) == pa + ", " + pb;
  }

  /** JSON::typeToString. */
  function TypeToString(k: Kind): (r: string)
    ensures r == "Json Literal" <==> k == TrueKind || k == FalseKind || k == NullKind
    ensures r == "Invalid type" <==> k == InvalidKind
  {
    match k
    case ItemKind => "Unknown"
    case ObjectKind => "Json Object"
    case ArrayKind => "Json Array"
    case NumberKind => "Json Number"
    case StringKind => "Json String"
    case TrueKind => "Json Literal"
    case FalseKind => "Json Literal"
    case NullKind => "Json Literal"
    case InvalidKind => "Invalid type"
  }
}

=== FILE: jsonpp_roundtrip.dfy ===
/** What the legacy jsonpp parser makes of the text tcajson's escaping
    writer produces, and how jsonpp's own writer relates to tcajson's.

    A flat document is an object or array whose values are number lexemes
    and non-empty strings, with non-empty keys. jsonpp reads it back as the
    same pairs or items, along the path tcajson takes: each key and its
    colon, the value, the separator. Nested containers do not read back:
    jsonpp stores copies of per-loop scratch containers that are never
    emptied (Jsonpp.NestedObjectAccumulates), and an array copies as empty.
    Booleans keep whatever their default constructor gave them. */
module JsonppRoundTrip {
  import opened Base
  import opened Stream
  import opened Jsonpp
  import JsonValue
  import JsonParser
  import JsonRoundTrip

  type Json = JsonValue.Json

  /** The jsonpp item holding what a tcajson value holds. */
  function Lift(v: Json): Value
  {
    match v
    case JObject(ms) => Object(LiftMembers(ms))
    case JArray(xs) => Array(LiftItems(xs))
    case JNumber(lex) => Number(lex)
    case JString(s) => Str(s)
    case JBoolean(b) => Boolean(if b then TrueKind else FalseKind, b)
    case JNull => Item(NullKind)
  }

  function LiftMembers(ms: seq<Entry<Json>>): (r: Members)
    ensures |r| == |ms|
    ensures forall i :: 0 <= i < |ms| ==> r[i] == Entry(ms[i].key, Lift(ms[i].val))
  {
    if |ms| == 0 then [] else [Entry(ms[0].key, Lift(ms[0].val))] + LiftMembers(ms[1..])
  }

  function LiftItems(xs: seq<Json>): (r: seq<Value>)
    ensures |r| == |xs|
    ensures forall i :: 0 <= i < |xs| ==> r[i] == Lift(xs[i])
  {
    if |xs| == 0 then [] else [Lift(xs[0])] + LiftItems(xs[1..])
  }

  /** Lifting keeps the keys, so it keeps the order of a map. */
  lemma {:induction false} LiftSorted(ms: seq<Entry<Json>>)
    ensures Sorted(LiftMembers(ms)) <==> Sorted(ms)
    ensures Keys(LiftMembers(ms)) == Keys(ms)
  {
    var r := LiftMembers(ms);
    assert forall i :: 0 <= i < |ms| ==> r[i].key == ms[i].key;
    assert Keys(r) == Keys(ms) by {
      forall k | k in Keys(r) ensures k in Keys(ms) {
        var i :| 0 <= i < |r| && r[i].key == k;
        assert ms[i].key == k;
      }
      forall k | k in Keys(ms) ensures k in Keys(r) {
        var i :| 0 <= i < |ms| && ms[i].key == k;
        assert r[i].key == k;
      }
    }
  }

  // ---------------------------------------------------------------------
  // The writer (JSON::ToString) against tcajson's

  /** A tree with no boolean at any depth. */
  predicate NoBooleans(v: Json)
  {
    match v
    case JObject(ms) => forall i :: 0 <= i < |ms| ==> NoBooleans(ms[i].val)
    case JArray(xs) => forall i :: 0 <= i < |xs| ==> NoBooleans(xs[i])
    case JBoolean(_) => false
    case _ => true
  }

  /** With the separator rule fixed, jsonpp writes every boolean-free tree
      exactly as tcajson's own (non-escaping) writer does: the same brackets,
      `"key" : value` pairs, ", " separators, bare numbers, strings between
      quotes and null. */
  lemma {:induction false} FixedWriterAgrees(v: Json)
    requires NoBooleans(v)
    ensures ValueText(Lift(v), true) == JsonValue.ToJson(v, true, JsonValue.Raw)
    decreases v, 1
  {
    match v
    case JObject(ms) => PairsAgree(ms, 1, |ms|);
    case JArray(xs) => ElemsAgree(xs, 1, |xs|);
    case _ =>
  }

  lemma {:induction false} PairsAgree(ms: seq<Entry<Json>>, i: nat, n: nat)
    requires forall j :: 0 <= j < |ms| ==> NoBooleans(ms[j].val)
    ensures PairsText(LiftMembers(ms), i, n, true) == JsonValue.MembersText(ms, i, n, JsonValue.Raw)
    decreases ms, 0
  {
    if |ms| > 0 {
      var lm := LiftMembers(ms);
      assert lm[1..] == LiftMembers(ms[1..]);
      FixedWriterAgrees(ms[0].val);
      PairsAgree(ms[1..], i + 1, n);
      assert forall j :: 0 <= j < |ms[1..]| ==> ms[1..][j] == ms[j + 1];
    }
  }

  lemma {:induction false} ElemsAgree(xs: seq<Json>, i: nat, n: nat)
    requires forall j :: 0 <= j < |xs| ==> NoBooleans(xs[j])
    ensures ElemsText(LiftItems(xs), i, n, true) == JsonValue.ItemsText(xs, i, n, JsonValue.Raw)
    decreases xs, 0
  {
    if |xs| > 0 {
      var lx := LiftItems(xs);
      assert lx[1..] == LiftItems(xs[1..]);
      FixedWriterAgrees(xs[0]);
      ElemsAgree(xs[1..], i + 1, n);
      assert forall j :: 0 <= j < |xs[1..]| ==> xs[1..][j] == xs[j + 1];
    }
  }

  /** A boolean is where the two writers part: jsonpp streams the bool as a
      digit, tcajson writes the word. */
  lemma {:induction false} BooleanWritersDiffer(b: bool, fixed: bool)
    ensures ValueText(Lift(JsonValue.JBoolean(b)), fixed) == (if b then "1" else "0")
    ensures ValueText(Lift(JsonValue.JBoolean(b)), fixed) != JsonValue.ToJson(JsonValue.JBoolean(b), true, JsonValue.Raw)
  {
    assert |"1"| != |"true"| && |"0"| != |"false"|;
  }

  // ---------------------------------------------------------------------
  // Flat values

  /** A value jsonpp reads back from the writer's text as it is: a number
      lexeme, or a non-empty string (jsonpp has no empty string). */
  predicate Flat(v: Json)
  {
    (v.JNumber? && JsonRoundTrip.NumberLexeme(v.lexeme)) || (v.JString? && |v.text| > 0)
  }

  predicate FlatMembers(ms: seq<Entry<Json>>)
  {
    forall i :: 0 <= i < |ms| ==> ms[i].key != "" && Flat(ms[i].val)
  }

  predicate FlatItems(xs: seq<Json>)
  {
    forall i :: 0 <= i < |xs| ==> Flat(xs[i])
  }

  /** The kind parseValueType announces for a flat value. */
  function FlatKind(v: Json): Kind
  {
    if v.JNumber? then NumberKind else StringKind
  }

  /** The text of a flat value, followed by what a container writes after a
      value: parseValueType announces its kind without moving, and the arm
      of the switch reads the value itself and stops right after its text,
      leaving the scratch containers alone. */
  lemma {:induction false} ItemReads(st: Stream, v: Json, t: string, jobj: Members, jary: seq<Value>, d: Defaults)
    requires Valid(st) && Sorted(jobj) && Flat(v) && t == JsonRoundTrip.Text(v)
    requires At(st, t) && JsonParser.After(Adv(st, |t|))
    ensures |t| > 0 && !IsSpace(st.data[st.pos]) && st.data[st.pos] != '}' && st.data[st.pos] != ']'
    ensures ValueType(st) == Typed(FlatKind(v), st)
    ensures ParseItem(st, FlatKind(v), jobj, jary, d) == ItemResult(JsonParser.Ok, Lift(v), jobj, jary, Adv(st, |t|))
  {
    FlatLead(st, v, t);
    if v.JNumber? {
      NumberItemReads(st, v.lexeme, jobj, jary, d);
    } else {
      StringItemReads(st, v.text, jobj, jary, d);
    }
  }

  /** The first character of a flat value's text announces its kind. */
  lemma {:induction false} FlatLead(st: Stream, v: Json, t: string)
    requires Valid(st) && Flat(v) && t == JsonRoundTrip.Text(v) && At(st, t)
    ensures |t| > 0 && !IsSpace(st.data[st.pos]) && st.data[st.pos] != '}' && st.data[st.pos] != ']'
    ensures !st.eof && SkipWs(st) == st
    ensures ValueType(st) == Typed(FlatKind(v), st)
  {
    JsonRoundTrip.TextLead(v, t);
    AtHead(st, t);
  }

  lemma {:induction false} NumberItemReads(st: Stream, lex: string, jobj: Members, jary: seq<Value>, d: Defaults)
    requires Valid(st) && Sorted(jobj) && JsonRoundTrip.NumberLexeme(lex)
    requires At(st, lex) && JsonParser.After(Adv(st, |lex|))
    ensures ParseItem(st, NumberKind, jobj, jary, d) == ItemResult(JsonParser.Ok, Number(lex), jobj, jary, Adv(st, |lex|))
  {
    JsonParser.NumberRoundTrip(st, lex);
  }

  lemma {:induction false} StringItemReads(st: Stream, s: string, jobj: Members, jary: seq<Value>, d: Defaults)
    requires Valid(st) && Sorted(jobj) && |s| > 0 && !st.eof
    requires At(st, JsonValue.Quote(s, JsonValue.Escaped))
    ensures ParseItem(st, StringKind, jobj, jary, d)
      == ItemResult(JsonParser.Ok, Str(s), jobj, jary, Adv(st, |JsonValue.Quote(s, JsonValue.Escaped)|))
  {
    StringRoundTrip(st, s);
  }

  // ---------------------------------------------------------------------
  // Single steps of the object loop (scratch containers empty throughout)

  lemma {:induction false} LoopSkipSpace(st: Stream, obj: Members, key: string, p: bool, d: Defaults)
    requires Valid(st) && Sorted(obj) && st.pos < |st.data| && st.data[st.pos] == ' '
    ensures ObjectLoop(st, obj, key, p, [], [], d) == ObjectLoop(Adv(st, 1), obj, key, p, [], [], d)
  {
    assert !st.eof && Peek(st) == Read(Ch(' '), st) && IsSpace(' ') && Get(st) == Read(Ch(' '), Adv(st, 1));
  }

  lemma {:induction false} LoopClose(st: Stream, obj: Members, key: string, p: bool, d: Defaults)
    requires Valid(st) && Sorted(obj) && st.pos < |st.data| && st.data[st.pos] == '}'
    ensures ObjectLoop(st, obj, key, p, [], [], d) == ObjResult(if p then JsonParser.Ok else JsonParser.Fail, obj, Adv(st, 1))
  {
    assert !st.eof && Peek(st) == Read(Ch('}'), st) && Get(st) == Read(Ch('}'), Adv(st, 1));
  }

  /** A quoted key and the colon after it: the loop now holds the key. */
  lemma {:induction false} KeyReads(st: Stream, obj: Members, k: string, p: bool, q: string, d: Defaults)
    requires Valid(st) && Sorted(obj) && k != "" && q == JsonValue.Quote(k, JsonValue.Escaped)
    requires At(st, q) && JsonRoundTrip.Two(Adv(st, |q|), ' ', ':')
    ensures ObjectLoop(st, obj, "", p, [], [], d) == ObjectLoop(Adv(st, |q| + 2), obj, k, false, [], [], d)
  {
    AtHead(st, q);
    assert q[0] == '"' && !st.eof;
    assert Peek(st) == Read(Ch('"'), st);
    var a := Adv(st, |q|);
    assert Valid(a) && Adv(a, 2) == Adv(st, |q| + 2);
    StringRoundTrip(st, k);
    JsonRoundTrip.AssignAt(a);
  }

  /** The key, its colon and the space after it. */
  lemma {:induction false} KeyThenSpace(st: Stream, obj: Members, k: string, p: bool, q: string, d: Defaults)
    requires Valid(st) && Sorted(obj) && k != "" && q == JsonValue.Quote(k, JsonValue.Escaped)
    requires At(st, q) && JsonRoundTrip.Two(Adv(st, |q|), ' ', ':')
    requires st.pos + |q| + 2 < |st.data| && st.data[st.pos + |q| + 2] == ' '
    ensures ObjectLoop(st, obj, "", p, [], [], d) == ObjectLoop(Adv(st, |q| + 3), obj, k, false, [], [], d)
  {
    var s1 := Adv(st, |q| + 2);
    assert Valid(s1) && s1.pos < |s1.data| && s1.data[s1.pos] == ' ' && Adv(s1, 1) == Adv(st, |q| + 3);
    KeyReads(st, obj, k, p, q, d);
    LoopSkipSpace(s1, obj, k, false, d);
  }

  /** A flat value and what follows it: the value is stored under the
      pending key and the separator consumed. */
  lemma {:induction false} LoopValue(st: Stream, obj: Members, k: string, v: Json, t: string, d: Defaults)
    requires Valid(st) && Sorted(obj) && k != "" && k !in Keys(obj)
    requires Flat(v) && t == JsonRoundTrip.Text(v) && At(st, t) && JsonParser.After(Adv(st, |t|))
    ensures ObjectLoop(st, obj, k, false, [], [], d) == ObjectLoop(Adv(st, |t| + 1), Put(obj, k, Lift(v)), "", true, [], [], d)
  {
    ItemReads(st, v, t, [], [], d);
    assert Peek(st) == Read(Ch(st.data[st.pos]), st);
    assert ObjectLoop(st, obj, k, false, [], [], d) == ObjectValue(st, obj, k, [], [], d);
    JsonParser.SeparatorAfter(Adv(st, |t|));
    assert Adv(Adv(st, |t|), 1) == Adv(st, |t| + 1);
  }

  /** A value followed by ", ": stored, and the loop is at the next pair. */
  lemma {:induction false} ValueThen(st: Stream, obj: Members, k: string, v: Json, t: string, d: Defaults)
    requires Valid(st) && Sorted(obj) && k != "" && k !in Keys(obj)
    requires Flat(v) && t == JsonRoundTrip.Text(v) && At(st, t) && JsonRoundTrip.Two(Adv(st, |t|), ',', ' ')
    ensures ObjectLoop(st, obj, k, false, [], [], d) == ObjectLoop(Adv(st, |t| + 2), Put(obj, k, Lift(v)), "", true, [], [], d)
  {
    var s1 := Adv(st, |t| + 1);
    assert Valid(s1) && s1.pos < |s1.data| && s1.data[s1.pos] == ' ' && Adv(s1, 1) == Adv(st, |t| + 2);
    LoopValue(st, obj, k, v, t, d);
    LoopSkipSpace(s1, Put(obj, k, Lift(v)), "", true, d);
  }

  /** A value followed by " }": stored, and the loop ends in success. */
  lemma {:induction false} ValueLast(st: Stream, obj: Members, k: string, v: Json, t: string, d: Defaults)
    requires Valid(st) && Sorted(obj) && k != "" && k !in Keys(obj)
    requires Flat(v) && t == JsonRoundTrip.Text(v) && At(st, t) && JsonRoundTrip.Two(Adv(st, |t|), ' ', '}')
    ensures ObjectLoop(st, obj, k, false, [], [], d) == ObjResult(JsonParser.Ok, Put(obj, k, Lift(v)), Adv(st, |t| + 2))
  {
    var s1 := Adv(st, |t| + 1);
    assert Valid(s1) && s1.pos < |s1.data| && s1.data[s1.pos] == '}' && Adv(s1, 1) == Adv(st, |t| + 2);
    LoopValue(st, obj, k, v, t, d);
    LoopClose(s1, Put(obj, k, Lift(v)), "", true, d);
  }

  /** A pair followed by ", ": the loop is at the next pair. */
  lemma {:induction false} MemberThen(st: Stream, obj: Members, k: string, v: Json, q: string, tv: string, d: Defaults)
    requires Valid(st) && Sorted(obj) && k != "" && k !in Keys(obj) && Flat(v)
    requires q == JsonValue.Quote(k, JsonValue.Escaped) && tv == JsonRoundTrip.Text(v)
    requires At(st, q) && JsonRoundTrip.Two(Adv(st, |q|), ' ', ':')
    requires st.pos + |q| + 2 < |st.data| && st.data[st.pos + |q| + 2] == ' '
    requires At(Adv(st, |q| + 3), tv) && JsonRoundTrip.Two(Adv(st, |q| + 3 + |tv|), ',', ' ')
    ensures ObjectLoop(st, obj, "", true, [], [], d) == ObjectLoop(Adv(st, |q| + |tv| + 5), Put(obj, k, Lift(v)), "", true, [], [], d)
  {
    var s2 := Adv(st, |q| + 3);
    assert Valid(s2) && Adv(s2, |tv|) == Adv(st, |q| + 3 + |tv|) && Adv(s2, |tv| + 2) == Adv(st, |q| + |tv| + 5);
    KeyThenSpace(st, obj, k, true, q, d);
    ValueThen(s2, obj, k, v, tv, d);
  }

  /** The last pair, followed by " }": the loop ends in success. */
  lemma {:induction false} MemberLast(st: Stream, obj: Members, k: string, v: Json, q: string, tv: string, d: Defaults)
    requires Valid(st) && Sorted(obj) && k != "" && k !in Keys(obj) && Flat(v)
    requires q == JsonValue.Quote(k, JsonValue.Escaped) && tv == JsonRoundTrip.Text(v)
    requires At(st, q) && JsonRoundTrip.Two(Adv(st, |q|), ' ', ':')
    requires st.pos + |q| + 2 < |st.data| && st.data[st.pos + |q| + 2] == ' '
    requires At(Adv(st, |q| + 3), tv) && JsonRoundTrip.Two(Adv(st, |q| + 3 + |tv|), ' ', '}')
    ensures ObjectLoop(st, obj, "", true, [], [], d) == ObjResult(JsonParser.Ok, Put(obj, k, Lift(v)), Adv(st, |q| + |tv| + 5))
  {
    var s2 := Adv(st, |q| + 3);
    assert Valid(s2) && Adv(s2, |tv|) == Adv(st, |q| + 3 + |tv|) && Adv(s2, |tv| + 2) == Adv(st, |q| + |tv| + 5);
    KeyThenSpace(st, obj, k, true, q, d);
    ValueLast(s2, obj, k, v, tv, d);
  }

  // ---------------------------------------------------------------------
  // The object loop over a whole flat object

  /** The pair a loop step stores, and what remains, still make up all. */
  lemma {:induction false} NextPair(obj: Members, ms: seq<Entry<Json>>, all: Members)
    requires Sorted(all) && all == obj + LiftMembers(ms) && |ms| > 0
    ensures ms[0].key !in Keys(obj) && Sorted(obj)
    ensures all == Put(obj, ms[0].key, Lift(ms[0].val)) + LiftMembers(ms[1..])
  {
    var lm := LiftMembers(ms);
    assert lm[0] == Entry(ms[0].key, Lift(ms[0].val)) && lm[1..] == LiftMembers(ms[1..]);
    SortedSplit(obj, lm);
    PutAtEnd(obj, ms[0].key, Lift(ms[0].val));
    ConsAppend(obj, lm);
  }

  lemma {:induction false} FlatSplit(ms: seq<Entry<Json>>)
    requires FlatMembers(ms) && |ms| > 0
    ensures ms[0].key != "" && Flat(ms[0].val) && FlatMembers(ms[1..])
  {
    assert forall j :: 0 <= j < |ms[1..]| ==> ms[1..][j] == ms[j + 1];
  }

  /** The object loop over the pairs ms, written as a whole object's pairs
      are, up to the closing " }": it ends in success, having added exactly
      those pairs. */
  lemma {:induction false} MembersReads(st: Stream, ms: seq<Entry<Json>>, obj: Members, mt: string, all: Members, d: Defaults)
    requires Valid(st) && Sorted(obj) && Sorted(all) && all == obj + LiftMembers(ms) && FlatMembers(ms)
    requires mt == JsonValue.MembersText(ms, 1, |ms|, JsonValue.Escaped) && At(st, mt)
    requires JsonRoundTrip.Two(Adv(st, |mt|), ' ', '}')
    ensures ObjectLoop(st, obj, "", true, [], [], d) == ObjResult(JsonParser.Ok, all, Adv(st, |mt| + 2))
    decreases ms, 1
  {
    if |ms| == 0 {
      assert Adv(Adv(st, 1), 1) == Adv(st, 2);
      LoopSkipSpace(st, obj, "", true, d);
      LoopClose(Adv(st, 1), obj, "", true, d);
      assert all == obj;
    } else {
      MembersNext(st, ms, obj, mt, all, d);
    }
  }

  /** The first of the remaining pairs, then the rest. */
  lemma {:induction false} MembersNext(st: Stream, ms: seq<Entry<Json>>, obj: Members, mt: string, all: Members, d: Defaults)
    requires Valid(st) && Sorted(obj) && Sorted(all) && all == obj + LiftMembers(ms) && FlatMembers(ms) && |ms| > 0
    requires mt == JsonValue.MembersText(ms, 1, |ms|, JsonValue.Escaped) && At(st, mt)
    requires JsonRoundTrip.Two(Adv(st, |mt|), ' ', '}')
    ensures ObjectLoop(st, obj, "", true, [], [], d) == ObjResult(JsonParser.Ok, all, Adv(st, |mt| + 2))
    decreases ms, 0
  {
    var k, v := ms[0].key, ms[0].val;
    var q, tv := JsonValue.Quote(k, JsonValue.Escaped), JsonRoundTrip.Text(v);
    var sep := if 1 < |ms| then ", " else "";
    var mt' := JsonValue.MembersText(ms[1..], 1, |ms[1..]|, JsonValue.Escaped);
    JsonRoundTrip.MembersTextHead(ms);
    assert mt == q + " : " + tv + sep + mt';
    JsonRoundTrip.SepAt(st, q, tv, sep, mt');
    NextPair(obj, ms, all);
    FlatSplit(ms);
    var obj' := Put(obj, k, Lift(v));
    if 1 < |ms| {
      var s' := Adv(st, |q| + |tv| + 5);
      assert |mt| == |q| + |tv| + 5 + |mt'|;
      assert Valid(s') && Adv(s', |mt'|) == Adv(st, |mt|) && Adv(s', |mt'| + 2) == Adv(st, |mt| + 2);
      MembersReads(s', ms[1..], obj', mt', all, d);
      MemberThen(st, obj, k, v, q, tv, d);
    } else {
      assert |mt'| == 0 && Adv(st, |q| + 3 + |tv|) == Adv(st, |mt|) && LiftMembers(ms[1..]) == [];
      assert all == obj' + [];
      MemberLast(st, obj, k, v, q, tv, d);
    }
  }

  /** JSON::parseObject on a flat object's text: it succeeds, ends after the
      closing brace, and adds exactly the object's pairs to obj, provided
      they sort after obj's keys. */
  lemma {:induction false} ObjectReads(st: Stream, ms: seq<Entry<Json>>, obj: Members, t: string, d: Defaults)
    requires Valid(st) && Sorted(obj + LiftMembers(ms)) && FlatMembers(ms)
    requires t == JsonRoundTrip.Text(JsonValue.JObject(ms)) && At(st, t)
    ensures Sorted(obj)
    ensures ParseObject(st, obj, d) == ObjResult(JsonParser.Ok, obj + LiftMembers(ms), Adv(st, |t|))
  {
    SortedSplit(obj, LiftMembers(ms));
    var mt := JsonValue.MembersText(ms, 1, |ms|, JsonValue.Escaped);
    assert t == "{ " + mt + " }";
    JsonRoundTrip.BracketAt(st, "{ ", mt, " }");
    var s1, s2 := Adv(st, 1), Adv(st, 2);
    assert Get(st) == Read(Ch('{'), s1);
    assert Valid(s1) && s1.pos < |s1.data| && s1.data[s1.pos] == ' ' && Adv(s1, 1) == s2;
    assert Valid(s2) && At(s2, mt) && Adv(s2, |mt|) == Adv(st, 2 + |mt|);
    assert Adv(s2, |mt| + 2) == Adv(st, |t|);
    LoopSkipSpace(s1, obj, "", true, d);
    MembersReads(s2, ms, obj, mt, obj + LiftMembers(ms), d);
  }

  /** JSON::parse on the text of a flat object: the root, which jsonpp never
      clears, gains exactly the document's pairs. */
  lemma {:induction false} ParseMerges(ms: seq<Entry<Json>>, root: Members, d: Defaults)
    requires Sorted(root + LiftMembers(ms)) && FlatMembers(ms)
    ensures Sorted(root)
    ensures Parse(JsonRoundTrip.Text(JsonValue.JObject(ms)), root, d) == Parsed(JsonParser.Ok, root + LiftMembers(ms))
  {
    var str := JsonRoundTrip.Text(JsonValue.JObject(ms));
    JsonRoundTrip.DocumentStart(str, JsonValue.MembersText(ms, 1, |ms|, JsonValue.Escaped));
    ObjectReads(Open(str), ms, root, str, d);
  }

  /** Into an empty root, a flat document reads back as exactly its pairs,
      and tcajson reads the same text as the same tree. */
  lemma {:induction false} ParseFlatObject(ms: seq<Entry<Json>>, d: Defaults)
    requires Sorted(ms) && FlatMembers(ms)
    ensures Parse(JsonRoundTrip.Text(JsonValue.JObject(ms)), [], d) == Parsed(JsonParser.Ok, LiftMembers(ms))
    ensures JsonParser.Parse(JsonRoundTrip.Text(JsonValue.JObject(ms)), [], true) == JsonParser.Parsed(JsonParser.Ok, ms)
  {
    ParseFlat(ms, d);
    FlatEncodable(ms);
    JsonRoundTrip.ParseRoundTrip(ms, []);
  }

  lemma {:induction false} ParseFlat(ms: seq<Entry<Json>>, d: Defaults)
    requires Sorted(ms) && FlatMembers(ms)
    ensures Parse(JsonRoundTrip.Text(JsonValue.JObject(ms)), [], d) == Parsed(JsonParser.Ok, LiftMembers(ms))
  {
    LiftSorted(ms);
    assert [] + LiftMembers(ms) == LiftMembers(ms);
    ParseMerges(ms, [], d);
  }

  /** A flat object is one tcajson's writer and parser round-trip. */
  lemma {:induction false} FlatEncodable(ms: seq<Entry<Json>>)
    requires Sorted(ms) && FlatMembers(ms)
    ensures JsonRoundTrip.Encodable(JsonValue.JObject(ms))
  {
    forall i | 0 <= i < |ms| ensures ms[i].key != "" && JsonRoundTrip.Encodable(ms[i].val) {
      assert Flat(ms[i].val);
    }
  }

  /** The corrected jsonpp writer and the jsonpp parser complete a round
      trip on flat objects whose keys and strings need no escaping. */
  lemma {:induction false} FixedWriterRoundTrip(ms: seq<Entry<Json>>, d: Defaults)
    requires Sorted(ms) && FlatMembers(ms)
    requires forall i :: 0 <= i < |ms| ==> JsonValue.Plain(ms[i].key) && JsonValue.PlainTree(ms[i].val)
    ensures Parse(ObjectToStringFixed(LiftMembers(ms)), [], d) == Parsed(JsonParser.Ok, LiftMembers(ms))
  {
    FixedWriterText(ms);
    ParseFlat(ms, d);
  }

  /** On such objects the corrected jsonpp writer puts down the escaping
      writer's text. */
  lemma {:induction false} FixedWriterText(ms: seq<Entry<Json>>)
    requires FlatMembers(ms)
    requires forall i :: 0 <= i < |ms| ==> JsonValue.Plain(ms[i].key) && JsonValue.PlainTree(ms[i].val)
    ensures ObjectToStringFixed(LiftMembers(ms)) == JsonRoundTrip.Text(JsonValue.JObject(ms))
  {
    var v := JsonValue.JObject(ms);
    assert NoBooleans(v) by {
      forall i | 0 <= i < |ms| ensures NoBooleans(ms[i].val) {
        assert Flat(ms[i].val);
      }
    }
    assert JsonValue.PlainTree(v);
    FixedWriterAgrees(v);
    JsonValue.RawAgreesOnPlain(v, true);
    assert ObjectToStringFixed(LiftMembers(ms)) == ValueText(Lift(v), true);
  }

  // ---------------------------------------------------------------------
  // The array loop over a whole flat array

  lemma {:induction false} ArraySkipSpace(st: Stream, ary: seq<Value>, d: Defaults)
    requires Valid(st) && st.pos < |st.data| && st.data[st.pos] == ' '
    ensures ArrayLoop(st, ary, [], [], d) == ArrayLoop(Adv(st, 1), ary, [], [], d)
  {
    assert !st.eof && Peek(st) == Read(Ch(' '), st) && IsSpace(' ') && Get(st) == Read(Ch(' '), Adv(st, 1));
  }

  lemma {:induction false} ArrayClose(st: Stream, ary: seq<Value>, d: Defaults)
    requires Valid(st) && st.pos < |st.data| && st.data[st.pos] == ']'
    ensures ArrayLoop(st, ary, [], [], d) == ArrResult(JsonParser.Ok, ary, Adv(st, 1))
  {
    assert !st.eof && Peek(st) == Read(Ch(']'), st) && Get(st) == Read(Ch(']'), Adv(st, 1));
  }

  /** A flat element and what follows it: the element is appended and the
      separator consumed. */
  lemma {:induction false} ArrayItem(st: Stream, ary: seq<Value>, v: Json, t: string, d: Defaults)
    requires Valid(st) && Flat(v) && t == JsonRoundTrip.Text(v) && At(st, t) && JsonParser.After(Adv(st, |t|))
    ensures ArrayLoop(st, ary, [], [], d) == ArrayLoop(Adv(st, |t| + 1), ary + [Lift(v)], [], [], d)
  {
    ItemReads(st, v, t, [], [], d);
    assert Peek(st) == Read(Ch(st.data[st.pos]), st);
    assert ArrayLoop(st, ary, [], [], d) == ArrayValue(st, ary, [], [], d);
    JsonParser.SeparatorAfter(Adv(st, |t|));
    assert Adv(Adv(st, |t|), 1) == Adv(st, |t| + 1);
  }

  lemma {:induction false} ItemThen(st: Stream, ary: seq<Value>, v: Json, t: string, d: Defaults)
    requires Valid(st) && Flat(v) && t == JsonRoundTrip.Text(v) && At(st, t) && JsonRoundTrip.Two(Adv(st, |t|), ',', ' ')
    ensures ArrayLoop(st, ary, [], [], d) == ArrayLoop(Adv(st, |t| + 2), ary + [Lift(v)], [], [], d)
  {
    var w, s := Adv(st, |t|), Adv(st, |t| + 1);
    assert JsonParser.After(w) && Valid(s) && s.pos < |s.data| && s.data[s.pos] == ' ';
    assert Adv(s, 1) == Adv(st, |t| + 2);
    ArrayItem(st, ary, v, t, d);
    ArraySkipSpace(s, ary + [Lift(v)], d);
  }

  lemma {:induction false} ItemLast(st: Stream, ary: seq<Value>, v: Json, t: string, d: Defaults)
    requires Valid(st) && Flat(v) && t == JsonRoundTrip.Text(v) && At(st, t) && JsonRoundTrip.Two(Adv(st, |t|), ' ', ']')
    ensures ArrayLoop(st, ary, [], [], d) == ArrResult(JsonParser.Ok, ary + [Lift(v)], Adv(st, |t| + 2))
  {
    var w, s := Adv(st, |t|), Adv(st, |t| + 1);
    assert JsonParser.After(w) && Valid(s) && s.pos < |s.data| && s.data[s.pos] == ']';
    assert Adv(s, 1) == Adv(st, |t| + 2);
    ArrayItem(st, ary, v, t, d);
    ArrayClose(s, ary + [Lift(v)], d);
  }

  /** The array loop over the elements xs, written as a whole array's
      elements are, up to the closing " ]": each is appended in order. */
  lemma {:induction false} ItemsReads(st: Stream, xs: seq<Json>, ary: seq<Value>, it: string, d: Defaults)
    requires Valid(st) && FlatItems(xs)
    requires it == JsonValue.ItemsText(xs, 1, |xs|, JsonValue.Escaped) && At(st, it)
    requires JsonRoundTrip.Two(Adv(st, |it|), ' ', ']')
    ensures ArrayLoop(st, ary, [], [], d) == ArrResult(JsonParser.Ok, ary + LiftItems(xs), Adv(st, |it| + 2))
    decreases xs, 1
  {
    if |xs| == 0 {
      assert Adv(Adv(st, 1), 1) == Adv(st, 2);
      ArraySkipSpace(st, ary, d);
      ArrayClose(Adv(st, 1), ary, d);
      assert ary + LiftItems(xs) == ary;
    } else {
      ItemsNext(st, xs, ary, it, d);
    }
  }

  /** The lifted elements are the first one's followed by the rest's. */
  lemma {:induction false} NextItem(ary: seq<Value>, xs: seq<Json>)
    requires FlatItems(xs) && |xs| > 0
    ensures ary + LiftItems(xs) == ary + [Lift(xs[0])] + LiftItems(xs[1..])
    ensures Flat(xs[0]) && FlatItems(xs[1..])
  {
    var lx := LiftItems(xs);
    assert lx[0] == Lift(xs[0]) && lx[1..] == LiftItems(xs[1..]);
    ConsAppend(ary, lx);
    assert forall j :: 0 <= j < |xs[1..]| ==> xs[1..][j] == xs[j + 1];
  }

  /** The first of the remaining elements, then the rest. */
  lemma {:induction false} ItemsNext(st: Stream, xs: seq<Json>, ary: seq<Value>, it: string, d: Defaults)
    requires Valid(st) && FlatItems(xs) && |xs| > 0
    requires it == JsonValue.ItemsText(xs, 1, |xs|, JsonValue.Escaped) && At(st, it)
    requires JsonRoundTrip.Two(Adv(st, |it|), ' ', ']')
    ensures ArrayLoop(st, ary, [], [], d) == ArrResult(JsonParser.Ok, ary + LiftItems(xs), Adv(st, |it| + 2))
    decreases xs, 0
  {
    var v := xs[0];
    var tv := JsonRoundTrip.Text(v);
    var sep := if 1 < |xs| then ", " else "";
    var it' := JsonValue.ItemsText(xs[1..], 1, |xs[1..]|, JsonValue.Escaped);
    JsonRoundTrip.ItemsTextHead(xs);
    assert it == tv + sep + it';
    JsonRoundTrip.ItemSepAt(st, tv, sep, it');
    NextItem(ary, xs);
    if 1 < |xs| {
      var s' := Adv(st, |tv| + 2);
      assert Valid(s') && Adv(s', |it'|) == Adv(st, |it|) && Adv(s', |it'| + 2) == Adv(st, |it| + 2);
      ItemsReads(s', xs[1..], ary + [Lift(v)], it', d);
      ItemThen(st, ary, v, tv, d);
    } else {
      assert |it'| == 0 && Adv(st, |tv|) == Adv(st, |it|) && LiftItems(xs[1..]) == [];
      assert ary + [Lift(v)] + [] == ary + [Lift(v)];
      ItemLast(st, ary, v, tv, d);
    }
  }

  /** JSON::parseArray on a flat array's text: it succeeds, ends after the
      closing bracket, and appends exactly the array's elements. */
  lemma {:induction false} ArrayReads(st: Stream, xs: seq<Json>, ary: seq<Value>, t: string, d: Defaults)
    requires Valid(st) && FlatItems(xs)
    requires t == JsonRoundTrip.Text(JsonValue.JArray(xs)) && At(st, t)
    ensures ParseArray(st, ary, d) == ArrResult(JsonParser.Ok, ary + LiftItems(xs), Adv(st, |t|))
  {
    var it := JsonValue.ItemsText(xs, 1, |xs|, JsonValue.Escaped);
    assert t == "[ " + it + " ]";
    JsonRoundTrip.BracketAt(st, "[ ", it, " ]");
    var s1, s2 := Adv(st, 1), Adv(st, 2);
    assert Get(st) == Read(Ch('['), s1);
    assert Valid(s1) && s1.pos < |s1.data| && s1.data[s1.pos] == ' ' && Adv(s1, 1) == s2;
    assert Valid(s2) && At(s2, it) && Adv(s2, |it|) == Adv(st, 2 + |it|);
    assert Adv(s2, |it| + 2) == Adv(st, |t|);
    ArraySkipSpace(s1, ary, d);
    ItemsReads(s2, xs, ary, it, d);
  }
}

=== FILE: stream.dfy ===
/** An std::istream over an in-memory string, as the two JSON parsers use it.

    The stream keeps the eofbit separately from the read position, because
    std::istream only raises it when a peek() or get() finds nothing left: after
    get() returns the last character, eof() is still false. Both parsers test
    eof() at the top of their loops, so the lag is observable (an input that is
    just "{" runs one loop iteration). At the end, peek() and get() yield EOF;
    stored into a char, EOF becomes the byte 0xFF. */
module Stream {
  import opened Base

  datatype Stream = Stream(data: string, pos: nat, eof: bool)

  /** The eofbit is only ever raised at the end of the data. */
  predicate Valid(st: Stream)
  {
    st.pos <= |st.data| && (st.eof ==> st.pos == |st.data|)
  }

  /** A fresh stream over s (std::istringstream). */
  function Open(s: string): (st: Stream)
    ensures Valid(st) && !st.eof && st.pos == 0
  {
    Stream(s, 0, false)
  }

  /** What peek() or get() returns: a character, or EOF. */
  datatype Sym = Ch(c: char) | EOF

  /** (char)EOF, the value a std::string receives when EOF is pushed into it. */
  const EofChar: char := '\U{00FF}'

  function CharOf(s: Sym): char
  {
    if s.Ch? then s.c else EofChar
  }

  /** isspace() applied to a peeked value; isspace(EOF) is false. */
  predicate SpaceSym(s: Sym)
  {
    s.Ch? && IsSpace(s.c)
  }

  datatype Read = Read(sym: Sym, st: Stream)

  /** A measure that every read either keeps or lowers: two units per
      character left, one more while the eofbit is still clear. */
  function Rank(st: Stream): nat
    requires Valid(st)
  {
    2 * (|st.data| - st.pos) + (if st.eof then 0 else 1)
  }

  /** istream::peek(): the next character, not consumed; at the end, EOF and the
      eofbit raised. */
  function Peek(st: Stream): (r: Read)
    requires Valid(st)
    ensures Valid(r.st) && r.st.pos == st.pos && r.st.data == st.data
    ensures r.sym.Ch? <==> st.pos < |st.data|
    ensures r.sym.Ch? ==> r.sym.c == st.data[st.pos] && r.st == st
    ensures r.sym.EOF? ==> r.st.eof
    ensures Rank(r.st) <= Rank(st)
    ensures r.sym.EOF? && !st.eof ==> Rank(r.st) < Rank(st)
  {
    if st.pos < |st.data| then Read(Ch(st.data[st.pos]), st)
    else Read(EOF, st.(eof := true))
  }

  /** istream::get(): the next character, consumed; at the end, EOF and the
      eofbit raised. */
  function Get(st: Stream): (r: Read)
    requires Valid(st)
    ensures Valid(r.st) && r.st.data == st.data
    ensures r.sym.Ch? <==> st.pos < |st.data|
    ensures r.sym.Ch? ==> r.sym.c == st.data[st.pos] && r.st == st.(pos := st.pos + 1)
    ensures r.sym.EOF? ==> r.st == st.(eof := true)
    ensures Rank(r.st) <= Rank(st)
    ensures r.sym.Ch? || !st.eof ==> Rank(r.st) < Rank(st)
  {
    if st.pos < |st.data| then Read(Ch(st.data[st.pos]), st.(pos := st.pos + 1))
    else Read(EOF, st.(eof := true))
  }

  /** `while (!buf.eof() && ::isspace(buf.peek())) buf.get();` */
  function SkipWs(st: Stream): (r: Stream)
    requires Valid(st)
    ensures Valid(r) && r.data == st.data && st.pos <= r.pos
    ensures Rank(r) <= Rank(st)
    ensures forall i :: st.pos <= i < r.pos ==> IsSpace(st.data[i])
    ensures !r.eof ==> r.pos == |r.data| || !IsSpace(r.data[r.pos])
    ensures r.eof ==> r.pos == |r.data|
    ensures !st.eof && r.pos < |r.data| ==> !r.eof
    ensures !st.eof && r.eof ==> Rank(r) < Rank(st)
    decreases Rank(st)
  {
    if st.eof then st
    else
      var p := Peek(st);
      if SpaceSym(p.sym) then SkipWs(Get(p.st).st) else p.st
  }

  /** The stream moved on by n characters. */
  function Adv(st: Stream, n: nat): Stream
  {
    st.(pos := st.pos + n)
  }

  /** The unread data starts with s. */
  predicate At(st: Stream, s: string)
  {
    st.pos + |s| <= |st.data| && st.data[st.pos..st.pos + |s|] == s
  }

  lemma AtConcat(st: Stream, a: string, b: string)
    ensures At(st, a + b) <==> At(st, a) && At(Adv(st, |a|), b)
  {
    if At(st, a) && At(Adv(st, |a|), b) {
      assert st.data[st.pos..st.pos + |a| + |b|]
        == st.data[st.pos..st.pos + |a|] + st.data[st.pos + |a|..st.pos + |a| + |b|];
    }
    if At(st, a + b) {
      assert st.data[st.pos..st.pos + |a|] == (a + b)[..|a|];
      assert st.data[st.pos + |a|..st.pos + |a| + |b|] == (a + b)[|a|..];
    }
  }

  /** AtConcat's forward half, with the length of a named. */
  lemma AtParts(st: Stream, a: string, b: string, n: nat)
    requires At(st, a + b) && n == |a|
    ensures At(st, a) && At(Adv(st, n), b)
  {
    AtConcat(st, a, b);
  }

  lemma AtHead(st: Stream, s: string)
    requires At(st, s) && |s| > 0
    ensures st.pos < |st.data| && st.data[st.pos] == s[0]
  {
    assert st.data[st.pos..st.pos + |s|][0] == s[0];
  }

  /** The head of s is the next character, and the rest of s follows it. */
  lemma AtTail(st: Stream, s: string)
    requires At(st, s) && |s| > 0
    ensures st.pos < |st.data| && st.data[st.pos] == s[0] && At(Adv(st, 1), s[1..])
  {
    assert s == [s[0]] + s[1..];
    AtConcat(st, [s[0]], s[1..]);
    AtHead(st, s);
  }

  /** A character absent from s is absent from where s lies. */
  lemma AtAvoids(st: Stream, s: string, c: char)
    requires At(st, s) && c !in s
    ensures forall i :: st.pos <= i < st.pos + |s| ==> st.data[i] != c
  {
    AtPointwise(st, s);
  }

  lemma AtPointwise(st: Stream, s: string)
    requires At(st, s)
    ensures forall i :: st.pos <= i < st.pos + |s| ==> st.data[i] == s[i - st.pos]
  {
    forall i | st.pos <= i < st.pos + |s| ensures st.data[i] == s[i - st.pos] {
      assert st.data[st.pos..st.pos + |s|][i - st.pos] == s[i - st.pos];
    }
  }

  /** SkipWs over a run of whitespace followed by a non-space character lands
      on that character with the eofbit still clear. */
  lemma {:induction false} SkipWsRun(st: Stream, n: nat)
    requires Valid(st) && !st.eof && st.pos + n < |st.data|
    requires forall i :: st.pos <= i < st.pos + n ==> IsSpace(st.data[i])
    requires !IsSpace(st.data[st.pos + n])
    ensures SkipWs(st) == st.(pos := st.pos + n)
    decreases n
  {
    if n > 0 {
      SkipWsRun(st.(pos := st.pos + 1), n - 1);
    }
  }
}

=== FILE: wire_codec.dfy ===
/** The tnms wire records: TnmsAuthRequest and TnmsMessage, packed into and
    unpacked from a byte buffer.

    The Packer/Serializer routines both records call are not part of this
    model. They are taken to write a uint16 as two bytes and a uint32 as four,
    most significant byte first, and a std::string as its uint32 length
    followed by its bytes; a pack fails (-1) when the room it is given is too
    small, an unpack fails when the buffer runs out. This agrees with the
    record sizes: three uint32-sized words on top of the two strings of an
    auth request. TnmsOid is not part of this model either: it is taken to be
    a uint32 segment count followed by that many uint16 segments.

    A serialize call is modelled by the bytes it writes at the front of the
    buffer (its return value is their count), or None for -1. A deserialize
    call is modelled by its return value and the record afterwards: fields
    already unpacked when a later unpack fails stay overwritten, as in the
    source. */
module Wire {
  import opened Base

  type Byte = x: int | 0 <= x < 0x100
  type Bytes = seq<Byte>
  type U16 = x: int | 0 <= x < 0x1_0000
  type U32 = x: int | 0 <= x < 0x1_0000_0000

  /** A std::string of 8-bit characters whose length fits the uint32 prefix. */
  predicate IsText(s: string)
  {
    |s| < 0x1_0000_0000 && forall i :: 0 <= i < |s| ==> s[i] as int < 0x100
  }

  type Text = s: string | IsText(s)

  /** tnmsAuthResult: the outcomes an authentication reply carries. */
  datatype AuthResult =
    | AuthNoResult | AuthSuccess | AuthInvalid | AuthDeniedIp
    | AuthAgentInvalid | AuthAgentDeniedIp | AuthBadVersion

  // ---------------------------------------------------------------------------
  // Fixed-width integers, most significant byte first

  function EncodeU16(x: U16): (r: Bytes)
    ensures |r| == 2 && r[0] as int * 0x100 + r[1] as int == x
  {
    [x / 0x100, x % 0x100]
  }

  function DecodeU16(b: Bytes): (x: U16)
    requires |b| >= 2
    ensures EncodeU16(x) == b[..2]
  {
    b[0] as int * 0x100 + b[1] as int
  }

  function EncodeU32(x: U32): (r: Bytes)
    ensures |r| == 4 && Word(r[0], r[1], r[2], r[3]) == x
  {
    U32Split(x);
    [x / 0x100_0000, x / 0x1_0000 % 0x100, x / 0x100 % 0x100, x % 0x100]
  }

  /** The value of four bytes, most significant first. */
  function Word(b0: Byte, b1: Byte, b2: Byte, b3: Byte): int
  {
    ((b0 as int * 0x100 + b1 as int) * 0x100 + b2 as int) * 0x100 + b3 as int
  }

  lemma U32Split(x: U32)
    ensures Word(x / 0x100_0000, x / 0x1_0000 % 0x100, x / 0x100 % 0x100, x % 0x100) == x
  {
    var y, z := x / 0x100, x / 0x1_0000;
    assert x == y * 0x100 + x % 0x100;
    assert y == z * 0x100 + y % 0x100;
    assert y % 0x100 == x / 0x100 % 0x100;
    assert z == x / 0x100_0000 * 0x100 + z % 0x100 by {
      assert x / 0x100_0000 == z / 0x100;
    }
  }

  function DecodeU32(b: Bytes): (x: U32)
    requires |b| >= 4
    ensures EncodeU32(x) == b[..4]
  {
    var x := Word(b[0], b[1], b[2], b[3]);
    U32Digits(b[0], b[1], b[2], b[3]);
    x
  }

  lemma U32Digits(b0: Byte, b1: Byte, b2: Byte, b3: Byte)
    ensures var x := Word(b0, b1, b2, b3);
      0 <= x < 0x1_0000_0000
      && x / 0x100_0000 == b0 && x / 0x1_0000 % 0x100 == b1
      && x / 0x100 % 0x100 == b2 && x % 0x100 == b3
  {
    var x := Word(b0, b1, b2, b3);
    var y := (b0 as int * 0x100 + b1 as int) * 0x100 + b2 as int;
    var z := b0 as int * 0x100 + b1 as int;
    assert x == y * 0x100 + b3;
    assert x / 0x100 == y && x % 0x100 == b3;
    assert y / 0x100 == z && y % 0x100 == b2;
    assert z / 0x100 == b0 && z % 0x100 == b1;
    assert x / 0x1_0000 == z by {
      assert x == z * 0x1_0000 + (b2 * 0x100 + b3);
    }
    assert x / 0x100_0000 == b0 by {
      assert x == b0 as int * 0x100_0000 + (b1 as int * 0x1_0000 + b2 as int * 0x100 + b3 as int);
    }
  }

  // ---------------------------------------------------------------------------
  // Strings and oids

  function EncodeChars(s: Text): (r: Bytes)
    ensures |r| == |s|
    ensures forall i :: 0 <= i < |s| ==> r[i] == s[i] as int
  {
    seq(|s|, i requires 0 <= i < |s| => s[i] as int)
  }

  function DecodeChars(b: Bytes): (s: Text)
    requires |b| < 0x1_0000_0000
    ensures EncodeChars(s) == b
  {
    seq(|b|, i requires 0 <= i < |b| => b[i] as char)
  }

  /** A string on the wire: its length, then its characters. */
  function EncodeText(s: Text): (r: Bytes)
    ensures |r| == 4 + |s|
  {
    EncodeU32(|s|) + EncodeChars(s)
  }

  /** The uint16 segments of an oid, one after the other. */
  function EncodeSegments(o: seq<U16>): (r: Bytes)
    ensures |r| == 2 * |o|
  {
    if |o| == 0 then [] else EncodeU16(o[0]) + EncodeSegments(o[1..])
  }

  /** n segments read from the front of b. */
  function DecodeSegments(b: Bytes, n: nat): (o: seq<U16>)
    requires |b| >= 2 * n
    ensures |o| == n && EncodeSegments(o) == b[..2 * n]
  {
    if n == 0 then []
    else
      var o := [DecodeU16(b)] + DecodeSegments(b[2..], n - 1);
      assert o[1..] == DecodeSegments(b[2..], n - 1);
      assert b[..2 * n] == b[..2] + b[2..][..2 * (n - 1)];
      o
  }

  lemma {:induction false} SegmentsRoundTrip(o: seq<U16>, rest: Bytes)
    ensures DecodeSegments(EncodeSegments(o) + rest, |o|) == o
    decreases |o|
  {
    if |o| > 0 {
      var b := EncodeSegments(o) + rest;
      assert b[..2] == EncodeU16(o[0]);
      assert b[2..] == EncodeSegments(o[1..]) + rest;
      SegmentsRoundTrip(o[1..], rest);
    }
  }

  type Oid = o: seq<U16> | |o| < 0x1_0000_0000

  /** TnmsOid::size(): the count word and two bytes a segment. */
  function OidSize(o: Oid): nat
  {
    4 + 2 * |o|
  }

  function EncodeOid(o: Oid): (r: Bytes)
    ensures |r| == OidSize(o)
  {
    EncodeU32(|o|) + EncodeSegments(o)
  }

  // ---------------------------------------------------------------------------
  // Pack and unpack with a room limit

  /** What an unpack produced and how many bytes it consumed. */
  datatype Unpacked<T> = Unpacked(val: T, used: nat)

  function PackU16(room: int, x: U16): (r: Option<Bytes>)
    ensures r.Some? <==> room >= 2
    ensures r.Some? ==> r.value == EncodeU16(x)
  {
    if room < 2 then None else Some(EncodeU16(x))
  }

  function PackU32(room: int, x: U32): (r: Option<Bytes>)
    ensures r.Some? <==> room >= 4
    ensures r.Some? ==> r.value == EncodeU32(x)
  {
    if room < 4 then None else Some(EncodeU32(x))
  }

  function PackText(room: int, s: Text): (r: Option<Bytes>)
    ensures r.Some? <==> room >= 4 + |s|
    ensures r.Some? ==> r.value == EncodeText(s)
  {
    if room < 4 + |s| then None else Some(EncodeText(s))
  }

  function PackOid(room: int, o: Oid): (r: Option<Bytes>)
    ensures r.Some? <==> room >= OidSize(o)
    ensures r.Some? ==> r.value == EncodeOid(o)
  {
    if room < OidSize(o) then None else Some(EncodeOid(o))
  }

  function UnpackU16(b: Bytes): (r: Option<Unpacked<U16>>)
    ensures r.Some? <==> |b| >= 2
    ensures r.Some? ==> r.value.used == 2 && EncodeU16(r.value.val) == b[..2]
  {
    if |b| < 2 then None else Some(Unpacked(DecodeU16(b), 2))
  }

  function UnpackU32(b: Bytes): (r: Option<Unpacked<U32>>)
    ensures r.Some? <==> |b| >= 4
    ensures r.Some? ==> r.value.used == 4 && EncodeU32(r.value.val) == b[..4]
  {
    if |b| < 4 then None else Some(Unpacked(DecodeU32(b), 4))
  }

  /** A length word, then that many characters; None when either is cut short. */
  function UnpackText(b: Bytes): (r: Option<Unpacked<Text>>)
    ensures r.Some? <==> |b| >= 4 && |b| - 4 >= DecodeU32(b)
    ensures r.Some? ==> r.value.used == 4 + |r.value.val| <= |b|
    ensures r.Some? ==> EncodeText(r.value.val) == b[..r.value.used]
  {
    if |b| < 4 then None
    else
      var n := DecodeU32(b);
      if |b| - 4 < n then None
      else
        var s := DecodeChars(b[4..4 + n]);
        assert b[..4 + n] == b[..4] + b[4..4 + n];
        Some(Unpacked(s, 4 + n))
  }

  function UnpackOid(b: Bytes): (r: Option<Unpacked<Oid>>)
    ensures r.Some? <==> |b| >= 4 && |b| - 4 >= 2 * DecodeU32(b)
    ensures r.Some? ==> r.value.used == OidSize(r.value.val) <= |b|
    ensures r.Some? ==> EncodeOid(r.value.val) == b[..r.value.used]
  {
    if |b| < 4 then None
    else
      var n := DecodeU32(b);
      if |b| - 4 < 2 * n then None
      else
        var o := DecodeSegments(b[4..], n);
        assert b[..4 + 2 * n] == b[..4] + b[4..][..2 * n];
        Some(Unpacked(o, 4 + 2 * n))
  }

  lemma TextRoundTrip(s: Text, rest: Bytes)
    ensures UnpackText(EncodeText(s) + rest) == Some(Unpacked(s, 4 + |s|))
  {
    var b := EncodeText(s) + rest;
    assert b[..4] == EncodeU32(|s|);
    assert DecodeU32(b) == |s|;
    assert b[4..4 + |s|] == EncodeChars(s);
    CharsInjective(DecodeChars(b[4..4 + |s|]), s);
  }

  lemma CharsInjective(s: Text, t: Text)
    requires EncodeChars(s) == EncodeChars(t)
    ensures s == t
  {
    assert forall i :: 0 <= i < |s| ==> EncodeChars(s)[i] == EncodeChars(t)[i];
  }

  lemma OidRoundTrip(o: Oid, rest: Bytes)
    ensures UnpackOid(EncodeOid(o) + rest) == Some(Unpacked(o, OidSize(o)))
  {
    var b := EncodeOid(o) + rest;
    assert b[..4] == EncodeU32(|o|);
    assert DecodeU32(b) == |o|;
    assert b[4..] == EncodeSegments(o) + rest;
    SegmentsRoundTrip(o, rest);
  }

  // ---------------------------------------------------------------------------
  // TnmsAuthRequest

  datatype AuthRequest = AuthRequest(name: Text, key: Text, ip: U32)

  /** TnmsAuthRequest::size(): both strings and three uint32 words (the two
      length prefixes and the address). */
  function AuthSize(a: AuthRequest): nat
  {
    |a.name| + |a.key| + 3 * 4
  }

  lemma U32Injective(x: U32, y: U32)
    requires EncodeU32(x) == EncodeU32(y)
    ensures x == y
  {
    var e := EncodeU32(x);
    assert Word(e[0], e[1], e[2], e[3]) == x;
  }

  /** The wire layout of a request: name, key, address. */
  function EncodeAuth(a: AuthRequest): (r: Bytes)
    ensures |r| == AuthSize(a)
  {
    EncodeText(a.name) + EncodeText(a.key) + EncodeU32(a.ip)
  }

  /** TnmsAuthRequest::serialize: refuses a buffer shorter than size(), then
      packs the element name, the agent key and the address. */
  function SerializeAuth(a: AuthRequest, bufferLen: nat): (r: Option<Bytes>)
    ensures r.Some? <==> bufferLen >= AuthSize(a)
    ensures r.Some? ==> r.value == EncodeAuth(a)
  {
    if bufferLen < AuthSize(a) then None
    else
      match PackText(bufferLen, a.name)
      case None => None
      case Some(p1) =>
        match PackText(bufferLen - |p1|, a.key)
        case None => None
        case Some(p2) =>
          match PackU32(bufferLen - |p1| - |p2|, a.ip)
          case None => None
          case Some(p3) => Some(p1 + p2 + p3)
  }

  /** A deserialize result: the returned count (-1 on failure) and the record
      as the call leaves it. */
  datatype Decoded<T> = Decoded(n: int, obj: T)

  /** The first i + j + k elements of b, cut into three consecutive pieces. */
  lemma ThreePieces<T>(b: seq<T>, i: nat, j: nat, k: nat)
    requires i + j + k <= |b|
    ensures b[..i + j + k] == b[..i] + b[i..][..j] + b[i + j..][..k]
  {
  }

  /** Dropping the first one or two pieces of a four-piece concatenation. */
  lemma Cuts<T>(x: seq<T>, y: seq<T>, z: seq<T>, w: seq<T>)
    ensures x + y + z + w == x + (y + z + w)
    ensures (x + y + z + w)[|x|..] == y + z + w
    ensures (x + y + z + w)[|x| + |y|..] == z + w
    ensures y + z + w == y + (z + w)
  {
  }

  /** TnmsAuthRequest::deserialize into the request cur: refuses a buffer
      shorter than cur's own size(), then unpacks name, key and address. */
  function DeserializeAuth(cur: AuthRequest, buf: Bytes): (r: Decoded<AuthRequest>)
    ensures |buf| < AuthSize(cur) ==> r == Decoded(-1, cur)
    ensures r.n == -1 || (r.n == AuthSize(r.obj) <= |buf| && EncodeAuth(r.obj) == buf[..r.n])
  {
    if |buf| < AuthSize(cur) then Decoded(-1, cur)
    else
      match UnpackText(buf)
      case None => Decoded(-1, cur)
      case Some(u1) =>
        var c1 := cur.(name := u1.val);
        var b1 := buf[u1.used..];
        match UnpackText(b1)
        case None => Decoded(-1, c1)
        case Some(u2) =>
          var c2 := c1.(key := u2.val);
          var b2 := buf[u1.used + u2.used..];
          match UnpackU32(b2)
          case None => Decoded(-1, c2)
          case Some(u3) =>
            var c3 := c2.(ip := u3.val);
            ThreePieces(buf, u1.used, u2.used, 4);
            assert EncodeText(c3.name) == buf[..u1.used];
            assert EncodeText(c3.key) == b1[..u2.used];
            assert EncodeU32(c3.ip) == b2[..4];
            Decoded(u1.used + u2.used + 4, c3)
  }

  /** Deserializing what serialize wrote gives back the request and consumes
      exactly the bytes written, whatever follows them; unless the receiving
      request is currently larger than the whole buffer, which is refused. */
  lemma AuthRoundTrip(a: AuthRequest, cur: AuthRequest, rest: Bytes)
    ensures var buf := EncodeAuth(a) + rest;
      DeserializeAuth(cur, buf)
        == if |buf| < AuthSize(cur) then Decoded(-1, cur) else Decoded(AuthSize(a), a)
  {
    var buf := EncodeAuth(a) + rest;
    if |buf| >= AuthSize(cur) {
      var n1, n2 := 4 + |a.name|, 4 + |a.key|;
      AuthFields(a, rest);
      var c1 := cur.(name := a.name);
      var c2 := c1.(key := a.key);
      assert c2.(ip := a.ip) == a;
    }
  }

  /** Each unpack of deserialize finds its field where serialize put it. */
  lemma AuthFields(a: AuthRequest, rest: Bytes)
    ensures var buf := EncodeAuth(a) + rest;
      var n1, n2 := 4 + |a.name|, 4 + |a.key|;
      && UnpackText(buf) == Some(Unpacked(a.name, n1))
      && UnpackText(buf[n1..]) == Some(Unpacked(a.key, n2))
      && UnpackU32(buf[n1 + n2..]) == Some(Unpacked(a.ip, 4))
  {
    var t1, t2, t3 := EncodeText(a.name), EncodeText(a.key), EncodeU32(a.ip);
    Cuts(t1, t2, t3, rest);
    TextRoundTrip(a.name, t2 + t3 + rest);
    TextRoundTrip(a.key, t3 + rest);
    U32RoundTrip(a.ip, rest);
  }

  lemma U32RoundTrip(x: U32, rest: Bytes)
    ensures UnpackU32(EncodeU32(x) + rest) == Some(Unpacked(x, 4))
  {
    var b := EncodeU32(x) + rest;
    assert b[..4] == EncodeU32(x);
    U32Injective(DecodeU32(b), x);
  }

  // ---------------------------------------------------------------------------
  // TnmsMessage

  /** The NO_RECORD record type, the first of tnmsRecordTypes. */
  const NO_RECORD: U16 := 0

  datatype Message = Message(name: Text, oid: Oid, mtype: U16)

  /** TnmsMessage::size(): nothing for NO_RECORD; otherwise the type word, the
      name with its length word, and the oid. */
  function MessageSize(m: Message): nat
  {
    if m.mtype == NO_RECORD then 0 else 2 + 4 + |m.name| + OidSize(m.oid)
  }

  /** The wire layout of a message: type, oid, name. size() counts exactly
      these bytes, except for NO_RECORD, whose size() is 0 although the same
      bytes are written. */
  function EncodeMessage(m: Message): (r: Bytes)
    ensures |r| == 2 + OidSize(m.oid) + 4 + |m.name|
    ensures MessageSize(m) == if m.mtype == NO_RECORD then 0 else |r|
  {
    EncodeU16(m.mtype) + EncodeOid(m.oid) + EncodeText(m.name)
  }

  /** TnmsMessage::serialize: packs the type, the oid and the name, each
      against the room left; there is no size() check up front. */
  function SerializeMessage(m: Message, bufferLen: nat): (r: Option<Bytes>)
    ensures r.Some? <==> bufferLen >= |EncodeMessage(m)|
    ensures r.Some? ==> r.value == EncodeMessage(m)
  {
    match PackU16(bufferLen, m.mtype)
    case None => None
    case Some(p1) =>
      match PackOid(bufferLen - |p1|, m.oid)
      case None => None
      case Some(p2) =>
        match PackText(bufferLen - |p1| - |p2|, m.name)
        case None => None
        case Some(p3) => Some(p1 + p2 + p3)
  }

  /** TnmsMessage::deserialize into cur: refuses a buffer shorter than cur's
      own size(), then unpacks the type, the oid and the name. */
  function DeserializeMessage(cur: Message, buf: Bytes): (r: Decoded<Message>)
    ensures |buf| < MessageSize(cur) ==> r == Decoded(-1, cur)
    ensures r.n == -1 || (r.n == |EncodeMessage(r.obj)| <= |buf| && EncodeMessage(r.obj) == buf[..r.n])
  {
    if |buf| < MessageSize(cur) then Decoded(-1, cur)
    else
      match UnpackU16(buf)
      case None => Decoded(-1, cur)
      case Some(u1) =>
        var c1 := cur.(mtype := u1.val);
        var b1 := buf[2..];
        match UnpackOid(b1)
        case None => Decoded(-1, c1)
        case Some(u2) =>
          var c2 := c1.(oid := u2.val);
          var b2 := buf[2 + u2.used..];
          match UnpackText(b2)
          case None => Decoded(-1, c2)
          case Some(u3) =>
            var c3 := c2.(name := u3.val);
            ThreePieces(buf, 2, u2.used, u3.used);
            assert EncodeU16(c3.mtype) == buf[..2];
            assert EncodeOid(c3.oid) == b1[..u2.used];
            assert EncodeText(c3.name) == b2[..u3.used];
            Decoded(2 + u2.used + u3.used, c3)
  }

  /** Deserializing what serialize wrote gives back type, oid and name and
      consumes exactly the bytes written, whatever follows them; unless the
      receiving message's current size() exceeds the whole buffer. */
  lemma MessageRoundTrip(m: Message, cur: Message, rest: Bytes)
    ensures var buf := EncodeMessage(m) + rest;
      DeserializeMessage(cur, buf)
        == if |buf| < MessageSize(cur) then Decoded(-1, cur)
           else Decoded(|EncodeMessage(m)|, m)
  {
    var buf := EncodeMessage(m) + rest;
    if |buf| >= MessageSize(cur) {
      MessageFields(m, rest);
      var c1 := cur.(mtype := m.mtype);
      var c2 := c1.(oid := m.oid);
      assert c2.(name := m.name) == m;
    }
  }

  lemma MessageFields(m: Message, rest: Bytes)
    ensures var buf := EncodeMessage(m) + rest;
      && UnpackU16(buf) == Some(Unpacked(m.mtype, 2))
      && UnpackOid(buf[2..]) == Some(Unpacked(m.oid, OidSize(m.oid)))
      && UnpackText(buf[2 + OidSize(m.oid)..]) == Some(Unpacked(m.name, 4 + |m.name|))
  {
    var t1, t2, t3 := EncodeU16(m.mtype), EncodeOid(m.oid), EncodeText(m.name);
    Cuts(t1, t2, t3, rest);
    U16RoundTrip(m.mtype, t2 + t3 + rest);
    OidRoundTrip(m.oid, t3 + rest);
    TextRoundTrip(m.name, rest);
  }

  lemma U16RoundTrip(x: U16, rest: Bytes)
    ensures UnpackU16(EncodeU16(x) + rest) == Some(Unpacked(x, 2))
  {
    var b := EncodeU16(x) + rest;
    assert b[..2] == EncodeU16(x);
    var e := EncodeU16(DecodeU16(b));
    assert e[0] as int * 0x100 + e[1] as int == DecodeU16(b);
  }

  /** TnmsMessage::operator==: the element names alone are compared. */
  predicate SameMessage(a: Message, b: Message)
  {
    a.name == b.name
  }

  /** TnmsMessage::operator<: ordered by element name. */
  predicate MessageLess(a: Message, b: Message)
  {
    Less(a.name, b.name)
  }

  /** == and < agree: any two messages are equal or ordered one way, and
      never two of these at once. */
  lemma MessageTrichotomy(a: Message, b: Message)
    ensures SameMessage(a, b) || MessageLess(a, b) || MessageLess(b, a)
    ensures SameMessage(a, b) ==> !MessageLess(a, b) && !MessageLess(b, a)
    ensures !(MessageLess(a, b) && MessageLess(b, a))
  {
    if a.name != b.name {
      LessTotal(a.name, b.name);
    } else {
      LessIrreflexive(a.name);
    }
    if MessageLess(a, b) {
      LessAsymmetric(a.name, b.name);
    }
  }

  lemma MessageLessTransitive(a: Message, b: Message, c: Message)
    requires MessageLess(a, b) && MessageLess(b, c)
    ensures MessageLess(a, c)
  {
    LessTransitive(a.name, b.name, c.name);
  }

  /** TnmsMessage::operator=: every field of src replaces the target's. */
  function AssignMessage(dst: Message, src: Message): (r: Message)
    ensures SameMessage(r, src) && r.oid == src.oid && r.mtype == src.mtype
    ensures forall n: nat :: SerializeMessage(r, n) == SerializeMessage(src, n)
  {
    dst.(name := src.name, oid := src.oid, mtype := src.mtype)
  }
}
